=== FILE: README.md ===
# optim-view, modelled in Dafny

optim-view displays very large search trees. A tree is decoded, turned into a
graph and laid out. Each frame then draws the visible part of the tree through
a list of "systems" that run one after the other under a shared deadline. This
project models the per-frame decisions and the pure data transformations
behind them:

- the subtree bounding-box cache and its deadline-bounded refresh
  (`GeometryCache`);
- the node-tile atlas slot arithmetic (`TextureArray`);
- the node-drawing policy, which covers culling, level of detail, the
  deferred-bake queue and shape colour resolution (`DrawNodes`);
- edge stub and connector clipping, and the per-row merging of connectors
  (`DrawEdges`);
- system registration and run order, hide, show and delete, and move
  targets (`Systems`, `Move`);
- keyboard tree navigation (`TreeNavigator`);
- the generic graph container and its conversion to a layout graph (`Graph`,
  `Conversion`);
- the normalisation of a decoded tree into nodes, edges and shape
  definitions (`Serialize`);
- the palette's hex decoding (`Colors`).

Conventions used throughout:

- Coordinates are `real`s; float32 and float64 rounding is not modelled.
- A fatal log, a failed `Assert` and an index panic each become a `Failure`
  of the `Result` type in `Wrappers`.
- A Go map read of a missing key gives the zero value, as in Go
  (`Graph.IdIndex`, `Serialize.Get`, `Systems.LookupOrZero`).
- Go's truncating division is written out in `GoArith`.
- The frame deadline is a poll budget. It is the number of deadline checks in
  the frame that still find time left. Wall-clock time only moves forward, so
  in any run the checks that see time left always come first. A count
  therefore describes every possible run exactly.
- The ECS world is represented by plain values: trees, sets of entities and
  maps from entities to components.

Two facts about the code are stated as lemmas but are not reported as
defects:

- **The target stub is tested differently from the source stub.** The source
  stub is drawn whenever it meets the visible rows. The target stub and its
  arrowhead are drawn only when they lie wholly within the visible rows
  (`DrawEdges.StubTests`).
- **A closed outline's last edge is dropped unchecked.** When an outline
  closes, its last edge is dropped and only the kept edges are checked for
  chaining. The dropped edge's start is never compared with the previous
  edge's end (`Serialize.Outline`, `Serialize.OutlineTracesEdges`).

## Model

| member | source | states |
|---|---|---|
| `Colors.ClearBit2` | systems/colors.go:23 | Masking a byte with 0xFB subtracts 4 exactly when bit 2 is set and keeps the byte otherwise. |
| `Colors.HexToRGBA` | systems/colors.go:19-26 | The decoded colour is always opaque (alpha 255), and its blue channel never has bit 2 set. |
| `Colors.HexToRGBARoundTrip` | systems/colors.go:19-26 | Decoding a packed 0xRRGGBB gives back red and green exactly and blue with bit 2 cleared. |
| `Colors.HexToRGBAIntendedRoundTrip` | systems/colors.go:19-26 | With an 0xFF blue mask, decoding is the exact inverse of packing the three channels. |
| `Colors.HoveredBlueDiffers` | systems/colors.go:14 | The hovered colour 0xA9B5DF decodes to blue 0xDB, not the 0xDF written in the literal. |
| `Colors.Palette` | systems/colors.go:12-17 | The palette is background (DF,D2,D2), hovered (A9,B5,DB), selected (78,86,C3) and text (2D,33,6B), all opaque. |
| `Move.Update` | systems/move.go:25-33 | Every entity with a target ends at the target's coordinates. Entities without a target keep their position. No entity is added or removed. |
| `Move.UpdateIdempotent` | systems/move.go:25-33 | A second run of the mover changes nothing. |
| `Graph.EmptyValid` | graph/graph.go:18-20 | A new graph satisfies the container invariant. |
| `Graph.HasNodeIffStored` | graph/graph.go:74-77 | In a valid graph, a node is present iff some stored node carries its id. |
| `Graph.HasEdgeIffJoined` | graph/graph.go:79-88 | In a valid graph, an edge is present iff both ids belong to stored nodes whose indices are joined in the edge sets. A missing end means no edge. |
| `Graph.NodeForId` | graph/graph.go:22-27 | Fails exactly when the id is unknown. Otherwise it returns a stored node that carries that id. |
| `Graph.InsertNode` | graph/graph.go:35-39 | Appends the node and an empty edge set, and points the id at the old length. The invariant `Lookup[id(Nodes[i])] == i` is kept. |
| `Graph.AddNode` | graph/graph.go:29-33 | Fails exactly when a node with the same id exists. Otherwise it inserts the node. |
| `Graph.InsertEdge` | graph/graph.go:70-72 | Adds the target index to the source's edge set only. Nodes and lookup are unchanged, and afterwards `HasEdge(a, b)` holds. |
| `Graph.EnsureNode` | graph/graph.go:46-51 | A missing endpoint is inserted. Existing nodes, lookup entries and edge sets are kept, and a present node changes nothing. |
| `Graph.EnsureNodeKeepsEdges` | graph/graph.go:46-51 | Inserting a missing endpoint neither creates nor removes any edge. |
| `Graph.AddEdge` | graph/graph.go:45-54 | Fails exactly when the edge already exists. Otherwise the result is valid, has the edge, and equals the plain edge insertion when both ends were present. |
| `Graph.AddEdgeShape` | graph/graph.go:45-54 | A successful add determines the whole new graph. The node list gains exactly the missing endpoints, `a` first. Each edge set is the old one, or empty for a new node. Only `a`'s set gains `b`'s index. |
| `Graph.AddEdgeGrows` | graph/graph.go:45-54 | A successful `AddEdge` only grows the graph: earlier nodes, lookup entries and edges are kept. |
| `Graph.AddEdgeFromEmpty` | graph/graph.go:45-54 | From an empty graph, `AddEdge` creates exactly the endpoints and the one edge. Adding the same edge again is fatal. |
| `Graph.AddEdgeId` | graph/graph.go:41-43 | An empty graph panics. Unknown ids read as index 0. The call fails exactly when the looked-up edge exists, and otherwise adds just that index pair. |
| `Graph.Children` | graph/graph.go:56-68 | Fails on an empty graph. Otherwise it yields exactly the nodes whose indices are in the node's edge set, reading the index as a Go map. |
| `Conversion.ConvertToLayoutGraph` | graph/conversion.go:38-70 | `mapping` sends the id of `Nodes[i]` to `i` and has exactly the graph's ids. There is one 50×50 layout node per index, and the layout edges are exactly the graph's edges as index pairs. |
| `Conversion.LayoutNodes` | graph/conversion.go:44-53 | The node loop: the mapping sends each node's id to its index, and each index gets a 50×50 node. |
| `Conversion.LayoutEdges` | graph/conversion.go:55-61 | The edge loop: the pair `(a, b)` is created iff `b` is in node `a`'s edge set. |
| `Conversion.ComputeLayeredCoordinates` | graph/conversion.go:18-36 | The positions are keyed by exactly the graph's ids. Each id gets the coordinates assigned to its index. |
| `TextureArray.CeilDiv` | graphics/texture_array.go:23-24 | The line and texture counts are the ceiling of the quotient: the least `q` with `a <= q*b`. |
| `TextureArray.NewTextureArray` | graphics/texture_array.go:16-38 | Gives 81 nodes per line for 100-pixel tiles. A line fits in 8192 pixels. There are `ceil(ceil(n/npl)/npl)` textures, each a full line wide and as high as the lines it holds. |
| `TextureArray.SlotDigits` | graphics/texture_array.go:40-58 | For a 1-based index, the texture, line and column are the base-`npl` digits of `index - 1`. |
| `TextureArray.NodeTextureRec` | graphics/texture_array.go:48-58 | The rectangle is one tile wide and high. For a 1-based index it lies inside the texture, whose width is `npl*size`. |
| `TextureArray.SlotInBounds` | graphics/texture_array.go:48-58 | Every slot is a tile-sized square inside the texture width `npl*size <= 8192` and inside `npl` lines. |
| `TextureArray.SlotWithinAllocatedTexture` | graphics/texture_array.go:23-58 | For an atlas built for `n` nodes, every index in 1..n names an existing texture, and its slot lies within that texture's allocated height. |
| `TextureArray.LineFits` | graphics/texture_array.go:23-35 | The position with digits `(t, y, x)` lies in one of the textures, on one of the lines allocated to texture `t`. |
| `TextureArray.SlotsDistinct` | graphics/texture_array.go:40-58 | Two indices of at least 1 that share a texture and a slot rectangle are equal. |
| `TextureArray.FirstSlotIsOrigin` | graphics/texture_array.go:40-58 | Index 1 is texture 0 at (0,0). Index 0 falls one tile left of texture 0, so indices are 1-based. |
| `GeometryCache.Join` | systems/geometry_cache.go:111-117 | The fold step's box contains both the parent box and the child box. |
| `GeometryCache.JoinIsSmallest` | systems/geometry_cache.go:111-117 | Any box containing both operands contains their join. |
| `GeometryCache.JoinAssoc` | systems/geometry_cache.go:111-117 | The fold step is associative. |
| `GeometryCache.Refresh` | systems/geometry_cache.go:79-120 | A clean entry returns at once, unchanged. A dirty entry reached with no time left stays dirty and unchanged. Clean entries and entries outside the subtree never change. A dirty result means the deadline passed. |
| `GeometryCache.FoldChildren` | systems/geometry_cache.go:104-119 | The first visible child that is still dirty after its refresh makes the parent return dirty. Only the parent and visible descendants change. |
| `GeometryCache.Hull` | systems/geometry_cache.go:86-118 | The left-to-right fold of boxes contains every box. |
| `GeometryCache.HullIsSmallest` | systems/geometry_cache.go:86-118 | Any box containing every box of the list contains their fold. |
| `GeometryCache.HullConcat` | systems/geometry_cache.go:86-118 | Folding a concatenation is the join of the two folds. |
| `GeometryCache.RefreshSound` | systems/geometry_cache.go:104-119 | Refresh preserves the cache invariant. A clean entry has clean visible children and holds the fold of its own box with theirs. |
| `GeometryCache.SoundAggregates` | systems/geometry_cache.go:86-119 | Under the invariant, a clean entry holds the smallest box around the node and all its visible descendants. |
| `GeometryCache.RefreshConverges` | systems/geometry_cache.go:79-120 | With as many polls as reachable nodes, one refresh cleans the root and leaves the smallest enclosing box. A second refresh changes nothing. |
| `GeometryCache.InitTree` | systems/geometry_cache.go:55-68 | A subtree's entries are exactly its visible nodes, all dirty. |
| `GeometryCache.InitTreeFresh` | systems/geometry_cache.go:55-68 | Each visible node's entry holds its own rectangle, is dirty, and records its parent entity. |
| `GeometryCache.AllDirtySound` | systems/geometry_cache.go:51-66 | A cache whose reachable entries are all dirty satisfies the invariant. |
| `GeometryCache.Initialize` | systems/geometry_cache.go:27-70 | The cache has exactly the forest's visible nodes as keys, all dirty. |
| `GeometryCache.InitializeFresh` | systems/geometry_cache.go:40-68 | Every visible node gets its own box, dirty, with its parent entity. Roots get the zero entity as parent. |
| `GeometryCache.UpdateRoots` | systems/geometry_cache.go:124-131 | The roots are refreshed in turn, sharing one poll budget. Clean entries are kept, and with no time left nothing changes. |
| `GeometryCache.Update` | systems/geometry_cache.go:124-131 | Keeps the key set and every clean entry, spends at most one poll per reachable node, and changes nothing when the deadline has passed. |
| `GeometryCache.UpdateRootsConverges` | systems/geometry_cache.go:124-131 | With polls for the whole forest, every visible root ends clean and the invariant holds. |
| `GeometryCache.InitializeThenUpdate` | systems/geometry_cache.go:27-131 | Right after initialisation, one update with enough time leaves every visible root with the smallest box around its visible subtree. |
| `DrawNodes.FillOf` | systems/draw_nodes.go:159-165 | Selected overrides hovered, which overrides the background, each as an iff. |
| `DrawNodes.Decide` | systems/draw_nodes.go:149-212 | A node is culled iff it is off screen. A drawn node gets the priority fill. Shapes are drawn only when the poll saw time left, and a tile only when the node has one. |
| `DrawNodes.DecideLevels` | systems/draw_nodes.go:149-183 | Culled iff off-screen. After the deadline: the tile if baked, else an outline. With time left: the tile iff baked and smaller than 1/40 of the view. Otherwise the shapes, always with the priority fill. |
| `DrawNodes.DecideParts` | systems/draw_nodes.go:185-212 | The shapes keep their placement order. A placement is blitted iff the node is under 1/10 of the view and the placement is not highlighted. |
| `DrawNodes.BlitOnlyWhenSmall` | systems/draw_nodes.go:185-212 | A blitted placement implies time was left, the node is small and the placement is not highlighted. |
| `DrawNodes.BakeNowMembers` | systems/draw_nodes.go:213-219 | The bake-now list holds exactly the on-screen unbaked nodes whose deadline poll saw time left. |
| `DrawNodes.Take` | systems/draw_nodes.go:151 | The capped queue is the longest prefix of the candidates not longer than the cap. |
| `DrawNodes.Step` | systems/draw_nodes.go:146-220 | One loop turn appends exactly one decision and keeps earlier ones. It spends a poll iff the node is on screen and time is left. The queue and the bake-now list grow by at most one, and the queue never passes 100. |
| `DrawNodes.Run` | systems/draw_nodes.go:146-220 | After `i` nodes there are `i` decisions, at most 100 queued nodes and at most `i` polls spent. |
| `DrawNodes.RunMeaning` | systems/draw_nodes.go:146-220 | After `i` nodes, node `j` was decided with the outcome of its own poll. The queue holds the first 100 deferrable nodes, and the bake-now list is as above. |
| `DrawNodes.Pass` | systems/draw_nodes.go:146-220 | The loop over the visible nodes gives each node the decision for its own poll, the capped off-screen queue and the bake-now list. |
| `DrawNodes.BakeAll` | systems/draw_nodes.go:224-226 | A node is baked afterwards iff it was baked or is in the list, with no cap and no deadline check. |
| `DrawNodes.BakeWhileTime` | systems/draw_nodes.go:228-233 | Queued nodes are baked in order until the first poll that finds the deadline passed. Exactly `min(len, polls)` are baked. |
| `DrawNodes.Frame` | systems/draw_nodes.go:130-234 | A node is baked at the end of the frame iff it was already baked, or was on screen with time left at its poll, or was among the queued nodes baked before the deadline. A baked node stays baked. With no poll at all, nothing is baked and nothing is drawn as shapes. |
| `DrawNodes.QueueIsBounded` | systems/draw_nodes.go:149-157 | At most 100 nodes are queued, all of them off-screen and unbaked. |
| `DrawNodes.NoTimeNoWork` | systems/draw_nodes.go:213-219 | With no poll at all, the pass lists no node for baking. |
| `DrawNodes.AmpleBudgetBakesOnScreen` | systems/draw_nodes.go:169-219 | With polls for every on-screen node, every on-screen node sees time left. |
| `DrawNodes.InitialColors` | systems/draw_nodes.go:296-309 | The table holds exactly "blue", "red" and "". Blue and red differ when highlighted, and "" does not. |
| `DrawNodes.ResolveColor` | systems/draw_nodes.go:311-328 | A known name comes from the table. An unknown name is parsed, cached with equal normal and highlighted colours, and used. A parse failure is fatal. Other entries are kept. |
| `DrawNodes.ResolveIsCached` | systems/draw_nodes.go:311-328 | Resolving a name a second time does not consult the decoder and keeps the table. A parsed name looks the same highlighted or not. |
| `DrawEdges.AnchorsOf` | systems/draw_edges.go:53-56 | Each anchor is horizontally centred on its node, so within the node's width. The source anchor lies strictly below the source node and the target anchor strictly above the target node. |
| `DrawEdges.DownwardEdge` | systems/draw_edges.go:53-60 | When the target sits at least 16 below the source, the edge points down and its connector row runs strictly between the two nodes. |
| `DrawEdges.RowBetweenAnchors` | systems/draw_edges.go:59-77 | The connector row lies between the anchors of a downward edge. The swapped ends are the two anchor columns, in order. |
| `DrawEdges.StubTests` | systems/draw_edges.go:63-71 | The source stub is drawn iff it meets the visible rows and columns. The target stub is drawn iff it lies wholly in the visible rows. |
| `DrawEdges.ConnectorOf` | systems/draw_edges.go:73-92 | A connector is skipped iff its row is off screen or its span misses the view. It is drawn directly iff it is wholly inside, and merged iff it sticks out on the left or on the right. |
| `DrawEdges.MergeUpTo` | systems/draw_edges.go:81-92 | Every connector sticking out on the left has its row in `lhlines`, and every one sticking out on the right has its row in `rhlines`. |
| `DrawEdges.LeftRowsAreMaxima` | systems/draw_edges.go:82-86 | For each row, `lhlines` holds exactly the largest right end among the connectors sticking out on the left. |
| `DrawEdges.RightRowsAreMinima` | systems/draw_edges.go:87-91 | For each row, `rhlines` holds exactly the smallest left end among the connectors sticking out on the right. |
| `DrawEdges.Frame` | systems/draw_edges.go:38-100 | One drawing record per edge. A connector is skipped iff it is not considered. Every merged connector's row gets a left or right segment. |
| `DrawEdges.MergedCoversVisible` | systems/draw_edges.go:73-100 | The visible part of every merged connector lies within its row's clipped left or right segment. |
| `DrawEdges.MergedSegmentsOnScreen` | systems/draw_edges.go:95-100 | Every merged segment lies on screen, on a row that some connector sticking out on that side occupies. |
| `Systems.Add` | systems/systems.go:70-77 | A debug system takes the dedicated slot. Any other system is appended. |
| `Systems.AddAllOrder` | systems/systems.go:70-77 | Registration keeps the non-debug systems in call order, and the last debug system wins the slot. |
| `Systems.CallOrder` | systems/systems.go:83-104 | The calls are exactly the registered systems and the debug system. The registered ones come first, in order, and the debug system last. A missing debug system panics after the others have run. |
| `Systems.RegisteredCallOrder` | systems/systems.go:70-104 | After registering a list, a frame calls its non-debug systems in list order, then the last debug system listed. It panics iff the list has no debug system. |
| `Systems.UpdateBudgets` | systems/systems.go:83-96 | The first system gets the whole frame's polls, and each later system gets no more than the one before it. |
| `Systems.NodesToHide` | systems/systems.go:120-125 | The hidden nodes are exactly the requested nodes that are currently visible. |
| `Systems.EdgesTouching` | systems/systems.go:127-142 | The hidden edges are exactly the visible edges with an end among the hidden nodes. |
| `Systems.Hide` | systems/systems.go:117-148 | The entities losing visibility are exactly those nodes and edges. Nothing else in the world changes. |
| `Systems.HideLoop` | systems/systems.go:117-148 | The loops as written compute exactly `Hide`. |
| `Systems.CollectNodes` | systems/systems.go:120-125 | The first loop collects exactly the requested visible nodes. |
| `Systems.CollectEdges` | systems/systems.go:127-142 | The second loop adds exactly the visible edges touching a collected node. |
| `Systems.HideIgnoresHidden` | systems/systems.go:120-125 | A requested node that is already hidden makes no difference. So does an unknown id, under the zero-entity reading in "Left out". |
| `Systems.ShowAll` | systems/systems.go:112-115 | Every node and edge becomes visible, and nothing else gains visibility or changes. |
| `Systems.Delete` | systems/systems.go:150-165 | Fatal iff the node is not visible, since its marker is removed unguarded. Otherwise the node and exactly the visible edges touching it lose visibility, and nothing else changes. |
| `Systems.DeleteIsHideOfOne` | systems/systems.go:117-165 | Deleting a visible node hides the same entities as hiding it alone. Deleting fails exactly when hiding the node alone would change nothing. |
| `Systems.SetTarget` | systems/systems.go:187-209 | The node's target becomes the new coordinates with tick 0 and the given duration, created if absent. Other targets are unchanged. |
| `Systems.MoveNode` | systems/systems.go:199-209 | The target becomes `(newX, newY)` with duration 30 and tick 0, created if absent. Other targets are unchanged. |
| `Systems.SetNodePos` | systems/systems.go:187-197 | The same, with duration 0. |
| `Systems.MoveThenMover` | systems/systems.go:187-209 | After a move command and one mover run, the node stands at the requested coordinates and no other node's outcome changes. |
| `TreeNavigator.ArgMin` | systems/tree_navigator.go:109-119 | The scan returns an eligible index or nothing. |
| `TreeNavigator.ArgMinIsFirstMinimum` | systems/tree_navigator.go:78-119 | The scan finds nothing iff no key is eligible. Otherwise it finds the first eligible key with the least value. |
| `TreeNavigator.Navigate` | systems/tree_navigator.go:42-123 | Navigation is a no-op outside keyboard mode or without a selection. Only `Selected` changes, and only to a child, the parent or a sibling that is not the zero entity. |
| `TreeNavigator.RightWins` | systems/tree_navigator.go:109-123 | With Right pressed and a sibling to the right, that nearest sibling is selected, whatever else is pressed. |
| `TreeNavigator.LeftIsNearest` | systems/tree_navigator.go:97-107 | Left finds nothing iff no sibling lies to the left. Otherwise it finds the sibling with the greatest X below the selected node's. |
| `TreeNavigator.DownAndUp` | systems/tree_navigator.go:78-95 | Down picks the visible child with the least X. Up picks the parent, and for a root the selection is unchanged. |
| `Serialize.MinOf` | serialize.go:149-160 | The running minimum is at most every element and equals one of them or the start value. |
| `Serialize.MaxOf` | serialize.go:189-221 | The running maximum is at least every element and equals one of them or the start value. |
| `Serialize.MinOfIsLeast` | serialize.go:149-160 | Over finite values, the running minimum is an element. |
| `Serialize.MaxOfIsGreatest` | serialize.go:189-221 | Over finite values, the running maximum is an element. |
| `Serialize.Transforms` | serialize.go:148-165 | The placements keep the order and ids of `Plot`. A placement is highlighted iff its colour is "green". Shifted coordinates are non-negative, and pairwise differences are preserved. |
| `Serialize.TransformsTouchAxes` | serialize.go:149-165 | With finite coordinates, the shifted minimum X and minimum Y are both 0. |
| `Serialize.AddNodes` | serialize.go:138-169 | Fatal exactly when two nodes to add share an id. Otherwise the graph holds the root placeholder (for a leading nil) and the non-nil entries, in order. |
| `Serialize.AddEntryStep` | serialize.go:139-168 | One iteration keeps the graph equal to the displayed prefix and fails exactly on a repeated id. |
| `Serialize.ParentOf` | serialize.go:175-178 | The parent id is below 2^64. -1 reads as 0, ids in 0..2^64-1 are kept, and -2^64..-2 wrap to id + 2^64. |
| `Serialize.AddEdgesAsWritten` | serialize.go:171-180 | The edge loop as written leaves the nodes and lookup unchanged. |
| `Serialize.AddEdgesIntended` | serialize.go:171-180 | The edge loop with ids leaves the nodes and lookup unchanged. |
| `Serialize.ToGraph` | serialize.go:133-183 | Duplicate ids are fatal. A built graph is valid and holds exactly the displayed nodes, in order. |
| `Serialize.ToGraphIntended` | serialize.go:133-183 | The same for the version that passes ids. |
| `Serialize.IntendedEdgesAreTree` | serialize.go:171-180 | Passing ids gives exactly one edge per non-nil entry, from its parent (with -1 read as 0) to it, and no other. |
| `Serialize.ToGraphIntendedBuildsTree` | serialize.go:133-183 | The corrected conversion of a tree with present parents succeeds and builds exactly its nodes and parent edges. |
| `Serialize.AsWrittenAgreesOnIndexIds` | serialize.go:171-180 | When every id equals its index, the edge loop as written and the corrected one agree. |
| `Serialize.ToGraphOnIndexIds` | serialize.go:133-183 | For such trees `ToGraph` as written equals the corrected version. |
| `Serialize.ToGraphMisreadsIds` | serialize.go:179 | For a nil root, node `a` under it and `b` under `a` (ids above 2), the code as written fails and the corrected code succeeds. |
| `Serialize.EndsFrom` | serialize.go:212-221 | Fatal exactly at an edge whose end is not the next edge's start. Otherwise it gives the edges' end points in order. |
| `Serialize.Outline` | serialize.go:194-222 | Fatal iff there is no edge or the kept edges do not chain. The outline is open iff the last end differs from the first start. |
| `Serialize.OutlineTracesEdges` | serialize.go:199-221 | The polygon is the first start followed by each kept edge's end, so kept edge `i` runs from point `i` to point `i + 1`. A dropped closing edge ends at the first point. |
| `Serialize.HoleFrom` | serialize.go:225-232 | Fatal iff some edge's end X differs from the next edge's start X, cyclically. Otherwise it gives the edges' start points. |
| `Serialize.Holes` | serialize.go:225-234 | All holes are converted in order, and a bad hole is fatal. |
| `Serialize.ShapeOf` | serialize.go:193-235 | A sub-shape is accepted iff its outline and holes are. The result has the fill colour, the open flag, the outline and the holes' start points. |
| `Serialize.Definition` | serialize.go:187-243 | One drawable shape per sub-shape, in order, and a box containing every outline point. |
| `Serialize.DefinitionIsTight` | serialize.go:189-243 | Each side of the box passes through an outline point, and hole points are ignored. With no sub-shape the start values remain. |
| `Serialize.Shapes` | serialize.go:185-246 | One definition per catalogue entry, in order. Fatal iff some sub-shape is not acceptable. |

## Left out

- Rendering is left out: every raylib call, the tile-scale and pixel-offset float maths, triangle winding and texture loading. The model keeps only the decisions those calls act on.
- `TextureArray.NodeTextureRec` does not model the float32 conversion, nor the `At` accessor. `SlotWithinAllocatedTexture` states what `At` relies on.
- `DrawEdges.Frame` states only which connectors are skipped and that merged rows get a segment. What is drawn per edge is stated by `ConnectorOf` and `StubTests`, and the merging by `MergedCoversVisible` and `MergedSegmentsOnScreen`.
- Triangulation (`ComputeTriangles`, `counterClockwise`) is left out. It wraps external libraries.
- `StringToRGBA` is not part of this model. `DrawNodes.ResolveColor` takes the colour decoder as a parameter.
- `nodeDetailsText` is formatting. `Serialize.ToGraph` takes it as a parameter.
- The layout library is left out. `Conversion.ComputeLayeredCoordinates` takes the assigned coordinates as functions, and the layered graph's own behaviour is not modelled.
- Decoding is left out: JSON, gzip and tar. `Serialize` starts from decoded values, with a nil node as `None`.
- The ECS library is replaced by values. Its queries become the children sequences and entity sets passed in, in query order. `Get` on a missing component becomes a lookup that reads as zero.
- `HasSelected` of the selection resource is not part of this model. `TreeNavigator.Navigate` takes its outcome as the `hasSelected` field.
- The debug board writes and per-system timing in `Systems.Update` are left out. They do not affect any other state.
- `SamePositions` is left out. It is a comparison helper outside the commands modelled here.
- The spatial `Grid` and `AddEntity` are not part of this model.
- The deadline is represented as a count of polls that still see time left. Go's `context` timeout itself is not modelled.
- Coordinates are `real`, so float32 and float64 rounding is not modelled. The sentinels `math.MaxFloat32` and `math.MaxFloat64` are kept as exact values.
- `Serialize.ShapeOf` keeps the `Open` flag it computes. The `DrawableShape` type in systems/models.go has no `Open` field, although serialize.go:224 sets one. The model follows serialize.go.
- No code sets a bounding-box entry dirty again. `GeometryCache.Refresh` therefore accepts any dirty flags as input instead of modelling a re-marking operation.
- `GeometryCache.Refresh` requires every entity to occur once in a tree (`WellFormed`). The ECS guarantees this for entities.
- `GeometryCache.Refresh` and `GeometryCache.UpdateRoots` require a cache entry for every reachable node. Go would dereference nil at systems/geometry_cache.go:80 for a node without one. Entries exist because systems/initializer.go:56 creates every node visible and the cache is initialised from the visible nodes.
- `TextureArray.NewTextureArray` requires a tile size from 1 to 8192. Outside that range Go divides by zero and panics, which the model does not represent. The only caller passes 100.
- `Systems.Delete` treats the removals made inside the open edge query (systems/systems.go:160) as if they happened after it. The ECS's locking of a world during a query is not modelled.
- `Systems.HideIgnoresHidden`, `Systems.Delete`, `Systems.SetTarget`, `Systems.MoveNode` and `Systems.SetNodePos` read an unknown id as the zero entity, as a Go map read does. Hiding and deleting assume the zero entity never carries a visibility marker (`Valid`). The three move commands then set or create a target on the zero entity, which systems/systems.go:188-189 and 200-201 hand to the ECS's `Get` and `Add`. What the ECS does with the zero entity is not modelled. The callers at raylib.go:196-197 and tree_scene.go:74-76 pass only ids of the current tree's nodes.
- `DrawEdges.MergeUpTo` states that every sticking-out row is recorded. That each recorded value is exactly the row's extreme is stated by `LeftRowsAreMaxima` and `RightRowsAreMinima`.

## Findings

| source | as written | input that shows it | evidently intended | confidence | as-written member | corrected member |
|---|---|---|---|---|---|---|
| serialize.go:179 | `g.AddEdgeId(mapper[parent], mapper[n.Id])` passes insertion indices where `AddEdgeId` expects node ids | a nil root, node `a` with parent -1 and node `b` with parent `a`, where `a` and `b` are ids above 2: the indices 1 and 2 are unknown ids, read as index 0, so the root self-loop is added twice and the second add is fatal | pass the ids `parent` and `n.Id`, giving one edge from each node's parent to it | high, not executed | `Serialize.ToGraphMisreadsIds` | `Serialize.ToGraphIntendedBuildsTree` |
| systems/colors.go:23 | blue is masked with `0xFFb`, the hex literal 0xFFB, so once truncated to a byte bit 2 of blue is always cleared | `HexToRGBA(0xA9B5DF)` gives blue 0xDB instead of 0xDF | mask with `0xFF`, so that decoding inverts `0xRRGGBB` | high, not executed | `Colors.HoveredBlueDiffers` | `Colors.HexToRGBAIntendedRoundTrip` |

=== FILE: arith.dfy ===
/** Small facts about multiplication and division that the solver does not
    find on its own once a product has two variable factors. */
module Arith {

  lemma MulNonneg(a: int, b: int)
    requires a >= 0 && b >= 0
    ensures a * b >= 0
  {
  }

  lemma MulMono(a: int, b: int, c: int)
    requires a <= b && c >= 0
    ensures a * c <= b * c
  {
    MulNonneg(b - a, c);
    assert b * c - a * c == (b - a) * c;
  }

  lemma MulCancel(a: int, b: int, c: int)
    requires c > 0 && a * c == b * c
    ensures a == b
  {
    assert (a + 1) * c == a * c + c;
    assert (b + 1) * c == b * c + c;
    if a < b {
      MulMono(a + 1, b, c);
    } else if b < a {
      MulMono(b + 1, a, c);
    }
  }

  /** Quotient and remainder are the unique pair with `0 <= r < d`. */
  lemma DivUnique(k: int, d: int, q: int, r: int)
    requires d > 0 && 0 <= r < d && k == q * d + r
    ensures k / d == q && k % d == r
  {
    var q', r' := k / d, k % d;
    assert k == q' * d + r';
    assert (q' + 1) * d == q' * d + d;
    assert (q + 1) * d == q * d + d;
    if q' < q {
      MulMono(q' + 1, q, d);
    } else if q < q' {
      MulMono(q + 1, q', d);
    }
  }

  lemma DivMono(a: int, b: int, d: int)
    requires 0 <= a <= b && d > 0
    ensures a / d <= b / d
  {
    var qa, qb := a / d, b / d;
    assert qa * d + a % d == a && qb * d + b % d == b;
    assert (qb + 1) * d == qb * d + d;
    if qa > qb {
      MulMono(qb + 1, qa, d);
    }
  }

  lemma DivBelow(m: int, d: int, b: int)
    requires d > 0 && 0 <= m < b * d
    ensures m / d < b
  {
    var q := m / d;
    assert q * d + m % d == m;
    if q >= b {
      MulMono(b, q, d);
    }
  }
}

=== FILE: colors.dfy ===
/** The UI palette and the hex-to-colour conversion behind it. */
module Colors {
  import opened Components

  /** Packs three channels into the 0xRRGGBB integer the palette is written in. */
  function PackRGB(r: Byte, g: Byte, b: Byte): int
  {
    r * 0x10000 + g * 0x100 + b
  }

  /** Bit 2 of a byte, the one the 0xFB mask drops. */
  function Bit2(b: Byte): nat
  {
    (b / 4) % 2
  }

  /** Masks a byte with 0xFB: bit 2 is cleared and every other bit kept. */
  function ClearBit2(b: Byte): (m: Byte)
    ensures m == (if (b / 4) % 2 == 1 then b - 4 else b)
  {
    ((b as bv8) & 0xFB) as int
  }

  /** Decodes 0xRRGGBB as written: the blue mask is the literal `0xFFb`
      (0xFFB), whose low byte 0xFB drops blue bit 2 once the value is
      truncated to a byte. Go's `>>` on a signed int is a floor division by
      a power of two and `& 0xFF` keeps the remainder modulo 256, which is
      what Dafny's Euclidean `/` and `%` compute for a positive divisor. */
  function HexToRGBA(hex: int): (c: RGBA)
    ensures c.a == 255
    ensures Bit2(c.b) == 0
  {
    var b := hex % 0x100;
    assert Bit2(ClearBit2(b)) == 0 by {
      if Bit2(b) == 1 {
        assert b == ((b / 8) * 2 + 1) * 4 + b % 4;
        assert b - 4 == ((b / 8) * 2) * 4 + b % 4;
      }
    }
    RGBA((hex / 0x10000) % 0x100, (hex / 0x100) % 0x100, ClearBit2(b), 255)
  }

  /** The decoding the palette literals call for: every channel kept. */
  function HexToRGBAIntended(hex: int): (c: RGBA)
    ensures c.a == 255
  {
    RGBA((hex / 0x10000) % 0x100, (hex / 0x100) % 0x100, hex % 0x100, 255)
  }

  lemma ChannelsOfPack(r: Byte, g: Byte, b: Byte)
    ensures (PackRGB(r, g, b) / 0x10000) % 0x100 == r
    ensures (PackRGB(r, g, b) / 0x100) % 0x100 == g
    ensures PackRGB(r, g, b) % 0x100 == b
  {
    var h := PackRGB(r, g, b);
    assert h == (r * 0x100 + g) * 0x100 + b;
    assert h / 0x100 == r * 0x100 + g;
    assert h == r * 0x10000 + (g * 0x100 + b);
    assert h / 0x10000 == r;
  }

  /** Decoding a packed colour gives back red and green exactly, blue with bit
      2 cleared, and an opaque alpha. */
  lemma HexToRGBARoundTrip(r: Byte, g: Byte, b: Byte)
    ensures HexToRGBA(PackRGB(r, g, b)) == RGBA(r, g, ClearBit2(b), 255)
  {
    ChannelsOfPack(r, g, b);
  }

  /** With the intended mask, decoding inverts packing. */
  lemma HexToRGBAIntendedRoundTrip(r: Byte, g: Byte, b: Byte)
    ensures HexToRGBAIntended(PackRGB(r, g, b)) == RGBA(r, g, b, 255)
  {
    ChannelsOfPack(r, g, b);
  }

  /** The hovered colour 0xA9B5DF decodes to blue 0xDB instead of 0xDF. */
  lemma HoveredBlueDiffers()
    ensures HexToRGBA(0xA9B5DF).b == 0xDB
    ensures HexToRGBAIntended(0xA9B5DF).b == 0xDF
  {
  }

  datatype PaletteColors = PaletteColors(background: RGBA, hovered: RGBA, selected: RGBA, textColor: RGBA)

  /** The palette as the program builds it, through the masking decoder. */
  function Palette(): (p: PaletteColors)
    ensures p.background == RGBA(0xDF, 0xD2, 0xD2, 255)
    ensures p.hovered == RGBA(0xA9, 0xB5, 0xDB, 255)
    ensures p.selected == RGBA(0x78, 0x86, 0xC3, 255)
    ensures p.textColor == RGBA(0x2D, 0x33, 0x6B, 255)
  {
    assert 0xDFD2D2 % 0x100 == 0xD2 && (0xDFD2D2 / 0x100) % 0x100 == 0xD2 && (0xDFD2D2 / 0x10000) % 0x100 == 0xDF;
    assert 0xA9B5DF % 0x100 == 0xDF && (0xA9B5DF / 0x100) % 0x100 == 0xB5 && (0xA9B5DF / 0x10000) % 0x100 == 0xA9;
    assert 0x7886C7 % 0x100 == 0xC7 && (0x7886C7 / 0x100) % 0x100 == 0x86 && (0x7886C7 / 0x10000) % 0x100 == 0x78;
    assert 0x2D336B % 0x100 == 0x6B && (0x2D336B / 0x100) % 0x100 == 0x33 && (0x2D336B / 0x10000) % 0x100 == 0x2D;
    assert ClearBit2(0xD2) == 0xD2 && ClearBit2(0xDF) == 0xDB && ClearBit2(0xC7) == 0xC3 && ClearBit2(0x6B) == 0x6B;
    PaletteColors(HexToRGBA(0xDFD2D2), HexToRGBA(0xA9B5DF), HexToRGBA(0x7886C7), HexToRGBA(0x2D336B))
  }
}

=== FILE: components.dfy ===
/** Component and resource types shared by the systems: positions, sizes,
    shape placements, the visible-world rectangle, move targets, colours. */
module Components {

  /** An ECS entity handle; 0 stands for the zero entity `ecs.Entity{}`, which
      the code uses as "no entity". */
  type Entity = nat

  const ZeroEntity: Entity := 0

  type Byte = b: int | 0 <= b < 256

  datatype RGBA = RGBA(r: Byte, g: Byte, b: Byte, a: Byte)

  datatype Position = Position(x: real, y: real)

  /** Go's built-in `min` and `max` on coordinates. */
  function Min(a: real, b: real): real { if a <= b then a else b }

  function Max(a: real, b: real): real { if a >= b then a else b }

  /** Placement of one catalogue shape inside a node. */
  datatype ShapeTransform = ShapeTransform(id: int, x: real, y: real, highlight: bool)

  /** An axis-aligned rectangle given by its corner and its extent. */
  datatype Rect = Rect(x: real, y: real, width: real, height: real) {
    function Right(): real { x + width }
    function Bottom(): real { y + height }
  }

  /** The world-space rectangle currently on screen (`VisibleWorld`). */
  datatype Viewport = Viewport(x: real, y: real, maxX: real, maxY: real)

  /** A move target (`Target2`). Its declaration is not part of this model;
      the fields are the ones the move commands write and the mover reads. */
  datatype Target2 = Target2(x: real, y: real, sinceTick: int, duration: int)
}

=== FILE: conversion.dfy ===
/** Conversion of a `Graph` into the input of the layered layout library,
    and the read-back of the coordinates the library assigns. */
module Conversion {
  import opened Graph

  /** Every layout node is 50 by 50. */
  const NodeSide: int := 50

  datatype LayoutNode = LayoutNode(w: int, h: int)

  /** The layout library's graph: nodes by index, edges as index pairs. */
  datatype LayoutGraph = LayoutGraph(nodes: map<nat, LayoutNode>, edges: set<(nat, nat)>)

  datatype Position = Position(x: int, y: int)

  /** `ConvertToLayoutGraph`: node `i` of the graph becomes layout node `i`,
      its id maps to `i`, and each edge set entry becomes an index pair. */
  method ConvertToLayoutGraph<N, I>(g: Graph<N, I>, nodeId: N -> I) returns (mapping: map<I, nat>, layout: LayoutGraph)
    requires Valid(g, nodeId)
    ensures mapping.Keys == g.lookup.Keys
    ensures forall i :: 0 <= i < |g.nodes| ==> nodeId(g.nodes[i]) in mapping && mapping[nodeId(g.nodes[i])] == i
    ensures forall i: nat :: i in layout.nodes <==> i < |g.nodes|
    ensures forall i :: i in layout.nodes ==> layout.nodes[i] == LayoutNode(NodeSide, NodeSide)
    ensures forall a: nat, b: nat :: (a, b) in layout.edges <==> a < |g.nodes| && b in g.edges[a]
  {
    var nodes;
    mapping, nodes := LayoutNodes(g, nodeId);
    var edges := LayoutEdges(g, nodeId, mapping);
    layout := LayoutGraph(nodes, edges);
  }

  /** The node loop of `ConvertToLayoutGraph`. */
  method LayoutNodes<N, I>(g: Graph<N, I>, nodeId: N -> I) returns (mapping: map<I, nat>, nodes: map<nat, LayoutNode>)
    requires Valid(g, nodeId)
    ensures mapping.Keys == g.lookup.Keys
    ensures forall i :: 0 <= i < |g.nodes| ==> nodeId(g.nodes[i]) in mapping && mapping[nodeId(g.nodes[i])] == i
    ensures forall i: nat :: i in nodes <==> i < |g.nodes|
    ensures forall i :: i in nodes ==> nodes[i] == LayoutNode(NodeSide, NodeSide)
  {
    mapping := map[];
    nodes := map[];
    var i := 0;
    while i < |g.nodes|
      invariant 0 <= i <= |g.nodes|
      invariant forall k :: k in mapping <==> exists j :: 0 <= j < i && nodeId(g.nodes[j]) == k
      invariant forall j :: 0 <= j < i ==> nodeId(g.nodes[j]) in mapping && mapping[nodeId(g.nodes[j])] == j
      invariant forall j: nat :: j in nodes <==> j < i
      invariant forall j :: j in nodes ==> nodes[j] == LayoutNode(NodeSide, NodeSide)
    {
      mapping := mapping[nodeId(g.nodes[i]) := i];
      nodes := nodes[i := LayoutNode(NodeSide, NodeSide)];
      i := i + 1;
    }
    forall k | k in g.lookup
      ensures k in mapping
    {
      assert nodeId(g.nodes[g.lookup[k]]) == k;
    }
  }

  /** The edge loop of `ConvertToLayoutGraph`: every edge, with its ends
      read back through the id mapping. */
  method LayoutEdges<N, I>(g: Graph<N, I>, nodeId: N -> I, mapping: map<I, nat>) returns (edges: set<(nat, nat)>)
    requires Valid(g, nodeId)
    requires forall i :: 0 <= i < |g.nodes| ==> nodeId(g.nodes[i]) in mapping && mapping[nodeId(g.nodes[i])] == i
    ensures forall a: nat, b: nat :: (a, b) in edges <==> a < |g.nodes| && b in g.edges[a]
  {
    edges := {};
    var a := 0;
    while a < |g.edges|
      invariant 0 <= a <= |g.edges|
      invariant forall x: nat, y: nat :: (x, y) in edges <==> x < a && y in g.edges[x]
    {
      var dst := g.edges[a];
      ghost var done: set<int> := {};
      while dst != {}
        invariant dst + done == g.edges[a] && dst !! done
        invariant forall x: nat, y: nat :: (x, y) in edges <==> (x < a && y in g.edges[x]) || (x == a && y in done)
        decreases |dst|
      {
        var b :| b in dst;
        var ai := mapping[nodeId(g.nodes[a])];
        var bi := mapping[nodeId(g.nodes[b])];
        edges := edges + {(ai, bi)};
        dst := dst - {b};
        done := done + {b};
      }
      a := a + 1;
    }
  }

  /** `ComputeLayeredCoordinates`: each node id gets the coordinates the
      layout library assigned to its index; `xs` and `ys` stand for those
      assignments. */
  method ComputeLayeredCoordinates<N, I>(g: Graph<N, I>, nodeId: N -> I, xs: nat -> int, ys: nat -> int)
    returns (positions: map<I, Position>)
    requires Valid(g, nodeId)
    ensures positions.Keys == g.lookup.Keys
    ensures forall i :: 0 <= i < |g.nodes| ==> positions[nodeId(g.nodes[i])] == Position(xs(i), ys(i))
  {
    var mapping, layout := ConvertToLayoutGraph(g, nodeId);
    positions := map k | k in mapping :: Position(xs(mapping[k]), ys(mapping[k]));
  }
}

=== FILE: draw_edges.dfy ===
/** The edge-drawing system. Each edge is drawn as a vertical stub below its
    source node, a horizontal connector on the row halfway between the two
    anchors, and a vertical stub with an arrowhead above its target node.
    Connectors lying wholly on screen are drawn directly; those sticking out
    on the left or right are merged per row into one clipped segment. */
module DrawEdges {
  import opened Components

  /** Gap between a node and the end of its stub. */
  const AnchorGap: real := 8.0

  /** Where an edge leaves its source node and enters its target node. */
  datatype NodeBox = NodeBox(pos: Position, sizeX: real, sizeY: real)

  datatype Anchors = Anchors(x1: real, y1: real, x2: real, y2: real)
  {
    /** The connector row (`ctrlA.Y`, equal to `ctrlB.Y`). */
    function Row(): real { (y1 + y2) / 2.0 }
    /** Left and right ends of the connector (the swapped `xl1`, `xl2`). */
    function Left(): real { if x1 > x2 then x2 else x1 }
    function Right(): real { if x1 > x2 then x1 else x2 }
  }

  /** The source anchor is centred under the source node, `AnchorGap` below
      it; the target anchor centred over the target node, `AnchorGap` above. */
  function AnchorsOf(from: NodeBox, to: NodeBox): (a: Anchors)
    ensures a.x1 - from.pos.x == from.pos.x + from.sizeX - a.x1
    ensures from.sizeX >= 0.0 ==> from.pos.x <= a.x1 <= from.pos.x + from.sizeX
    ensures a.y1 > from.pos.y + from.sizeY
    ensures a.x2 - to.pos.x == to.pos.x + to.sizeX - a.x2
    ensures to.sizeX >= 0.0 ==> to.pos.x <= a.x2 <= to.pos.x + to.sizeX
    ensures a.y2 < to.pos.y
  {
    Anchors(from.pos.x + from.sizeX / 2.0, from.pos.y + from.sizeY + AnchorGap,
            to.pos.x + to.sizeX / 2.0, to.pos.y - AnchorGap)
  }

  /** When the target node sits at least two gaps below the source node,
      the edge points down the screen and its connector row runs strictly
      between the bottom of the source node and the top of the target. */
  lemma DownwardEdge(from: NodeBox, to: NodeBox)
    requires from.pos.y + from.sizeY + 2.0 * AnchorGap <= to.pos.y
    ensures var a := AnchorsOf(from, to);
      a.y1 <= a.y2 && from.pos.y + from.sizeY < a.Row() < to.pos.y
  {
  }

  lemma RowBetweenAnchors(a: Anchors)
    ensures a.y1 <= a.y2 ==> a.y1 <= a.Row() <= a.y2
    ensures a.Left() <= a.Right() && {a.Left(), a.Right()} == {a.x1, a.x2}
  {
  }

  /** The stub from the source anchor down to the connector row is drawn. */
  predicate SourceStub(a: Anchors, v: Viewport)
  {
    a.x1 >= v.x && a.x1 <= v.maxX && a.Row() >= v.y && a.y1 <= v.maxY
  }

  /** The stub from the connector row to the target anchor, and the arrow
      head, are drawn. */
  predicate TargetStub(a: Anchors, v: Viewport)
  {
    a.x2 >= v.x && a.x2 <= v.maxX && a.Row() >= v.y && a.y2 <= v.maxY
  }

  /** For an edge pointing down the screen, the source stub is drawn exactly
      when its column is on screen and the stub meets the visible rows, while
      the target stub is drawn only when it lies within the visible rows
      entirely. */
  lemma StubTests(a: Anchors, v: Viewport)
    requires a.y1 <= a.y2 && v.y <= v.maxY
    ensures SourceStub(a, v) <==>
      v.x <= a.x1 <= v.maxX && Max(a.y1, v.y) <= Min(a.Row(), v.maxY)
    ensures TargetStub(a, v) <==>
      v.x <= a.x2 <= v.maxX && v.y <= a.Row() && a.y2 <= v.maxY
  {
    RowBetweenAnchors(a);
  }

  // ---------------------------------------------------------------------
  // Connectors

  /** The connector row is on screen and its span meets the visible columns. */
  predicate Considered(a: Anchors, v: Viewport)
  {
    a.Row() >= v.y && a.Row() <= v.maxY && a.Right() >= v.x && a.Left() <= v.maxX
  }

  predicate Inside(a: Anchors, v: Viewport)
  {
    a.Left() >= v.x && a.Right() <= v.maxX
  }

  /** Sticks out past the left edge: merged into the row's left segment. */
  predicate PastLeft(a: Anchors, v: Viewport)
  {
    Considered(a, v) && !Inside(a, v) && a.Left() < v.x
  }

  /** Sticks out past the right edge: merged into the row's right segment. */
  predicate PastRight(a: Anchors, v: Viewport)
  {
    Considered(a, v) && !Inside(a, v) && a.Right() > v.maxX
  }

  datatype Connector = Skipped | Direct | Merged

  function ConnectorOf(a: Anchors, v: Viewport): (c: Connector)
    ensures c == Skipped <==> !Considered(a, v)
    ensures c == Direct <==> Considered(a, v) && Inside(a, v)
    ensures c == Merged <==> PastLeft(a, v) || PastRight(a, v)
  {
    if !Considered(a, v) then Skipped
    else if Inside(a, v) then Direct
    else Merged
  }

  datatype EdgeDraw = EdgeDraw(sourceStub: bool, targetStub: bool, connector: Connector)

  function DrawEdge(a: Anchors, v: Viewport): EdgeDraw
  {
    EdgeDraw(SourceStub(a, v), TargetStub(a, v), ConnectorOf(a, v))
  }

  /** Per connector row, the right-most right end among connectors past the
      left edge (`lhlines`), or the left-most left end among connectors past
      the right edge (`rhlines`). */
  type Rows = map<real, real>

  function RecordLeft(lh: Rows, a: Anchors): Rows
  {
    if a.Row() !in lh || lh[a.Row()] < a.Right() then lh[a.Row() := a.Right()] else lh
  }

  function RecordRight(rh: Rows, a: Anchors): Rows
  {
    if a.Row() !in rh || rh[a.Row()] > a.Left() then rh[a.Row() := a.Left()] else rh
  }

  /** The merge over the first `i` edges. */
  function MergeUpTo(edges: seq<Anchors>, v: Viewport, i: nat): (rows: (Rows, Rows))
    requires i <= |edges|
    ensures forall j :: 0 <= j < i && PastLeft(edges[j], v) ==> edges[j].Row() in rows.0
    ensures forall j :: 0 <= j < i && PastRight(edges[j], v) ==> edges[j].Row() in rows.1
  {
    if i == 0 then (map[], map[])
    else
      var (lh, rh) := MergeUpTo(edges, v, i - 1);
      var a := edges[i - 1];
      if !Considered(a, v) || Inside(a, v) then (lh, rh)
      else
        var lh' := if a.Left() < v.x then RecordLeft(lh, a) else lh;
        var rh' := if a.Right() > v.maxX then RecordRight(rh, a) else rh;
        (lh', rh')
  }

  /** One more edge records itself on the side it sticks out past. */
  lemma MergeStep(edges: seq<Anchors>, v: Viewport, i: nat)
    requires 0 < i <= |edges|
    ensures var (lh0, rh0) := MergeUpTo(edges, v, i - 1);
      MergeUpTo(edges, v, i).0 == (if PastLeft(edges[i - 1], v) then RecordLeft(lh0, edges[i - 1]) else lh0) &&
      MergeUpTo(edges, v, i).1 == (if PastRight(edges[i - 1], v) then RecordRight(rh0, edges[i - 1]) else rh0)
  {
  }

  /** `lhlines` holds, for each row, exactly the largest right end among the
      connectors on that row sticking out past the left edge. */
  lemma {:induction false} LeftRowsAreMaxima(edges: seq<Anchors>, v: Viewport, i: nat)
    requires i <= |edges|
    ensures var lh := MergeUpTo(edges, v, i).0;
      (forall j :: 0 <= j < i && PastLeft(edges[j], v) ==>
        edges[j].Row() in lh && edges[j].Right() <= lh[edges[j].Row()]) &&
      (forall y :: y in lh ==>
        exists j :: 0 <= j < i && PastLeft(edges[j], v) && edges[j].Row() == y && edges[j].Right() == lh[y])
  {
    LeftRowsBound(edges, v, i);
    LeftRowsWitnessed(edges, v, i);
  }

  lemma {:induction false} LeftRowsBound(edges: seq<Anchors>, v: Viewport, i: nat)
    requires i <= |edges|
    ensures var lh := MergeUpTo(edges, v, i).0;
      forall j :: 0 <= j < i && PastLeft(edges[j], v) ==>
        edges[j].Row() in lh && edges[j].Right() <= lh[edges[j].Row()]
  {
    if i > 0 {
      LeftRowsBound(edges, v, i - 1);
      MergeStep(edges, v, i);
    }
  }

  lemma {:induction false} LeftRowsWitnessed(edges: seq<Anchors>, v: Viewport, i: nat)
    requires i <= |edges|
    ensures var lh := MergeUpTo(edges, v, i).0;
      forall y :: y in lh ==>
        exists j :: 0 <= j < i && PastLeft(edges[j], v) && edges[j].Row() == y && edges[j].Right() == lh[y]
  {
    if i > 0 {
      LeftRowsWitnessed(edges, v, i - 1);
      MergeStep(edges, v, i);
      var lh0 := MergeUpTo(edges, v, i - 1).0;
      var lh := MergeUpTo(edges, v, i).0;
      var a := edges[i - 1];
      forall y | y in lh
        ensures exists j :: 0 <= j < i && PastLeft(edges[j], v) && edges[j].Row() == y && edges[j].Right() == lh[y]
      {
        if PastLeft(a, v) && y == a.Row() && lh[y] == a.Right() {
          assert PastLeft(edges[i - 1], v);
        } else {
          assert y in lh0 && lh[y] == lh0[y];
          var j :| 0 <= j < i - 1 && PastLeft(edges[j], v) && edges[j].Row() == y && edges[j].Right() == lh0[y];
        }
      }
    }
  }

  /** `rhlines` holds, for each row, exactly the smallest left end among the
      connectors on that row sticking out past the right edge. */
  lemma {:induction false} RightRowsAreMinima(edges: seq<Anchors>, v: Viewport, i: nat)
    requires i <= |edges|
    ensures var rh := MergeUpTo(edges, v, i).1;
      (forall j :: 0 <= j < i && PastRight(edges[j], v) ==>
        edges[j].Row() in rh && rh[edges[j].Row()] <= edges[j].Left()) &&
      (forall y :: y in rh ==>
        exists j :: 0 <= j < i && PastRight(edges[j], v) && edges[j].Row() == y && edges[j].Left() == rh[y])
  {
    RightRowsBound(edges, v, i);
    RightRowsWitnessed(edges, v, i);
  }

  lemma {:induction false} RightRowsBound(edges: seq<Anchors>, v: Viewport, i: nat)
    requires i <= |edges|
    ensures var rh := MergeUpTo(edges, v, i).1;
      forall j :: 0 <= j < i && PastRight(edges[j], v) ==>
        edges[j].Row() in rh && rh[edges[j].Row()] <= edges[j].Left()
  {
    if i > 0 {
      RightRowsBound(edges, v, i - 1);
      MergeStep(edges, v, i);
    }
  }

  lemma {:induction false} RightRowsWitnessed(edges: seq<Anchors>, v: Viewport, i: nat)
    requires i <= |edges|
    ensures var rh := MergeUpTo(edges, v, i).1;
      forall y :: y in rh ==>
        exists j :: 0 <= j < i && PastRight(edges[j], v) && edges[j].Row() == y && edges[j].Left() == rh[y]
  {
    if i > 0 {
      RightRowsWitnessed(edges, v, i - 1);
      MergeStep(edges, v, i);
      var rh0 := MergeUpTo(edges, v, i - 1).1;
      var rh := MergeUpTo(edges, v, i).1;
      var a := edges[i - 1];
      forall y | y in rh
        ensures exists j :: 0 <= j < i && PastRight(edges[j], v) && edges[j].Row() == y && edges[j].Left() == rh[y]
      {
        if PastRight(a, v) && y == a.Row() && rh[y] == a.Left() {
          assert PastRight(edges[i - 1], v);
        } else {
          assert y in rh0 && rh[y] == rh0[y];
          var j :| 0 <= j < i - 1 && PastRight(edges[j], v) && edges[j].Row() == y && edges[j].Left() == rh0[y];
        }
      }
    }
  }

  // ---------------------------------------------------------------------
  // Segments

  /** A horizontal segment from `from` to `to` on row `y`. */
  datatype Segment = Segment(y: real, from: real, to: real)

  /** The merged segment drawn for a left row: from the left edge of the
      screen to the recorded right end, clipped at the right edge. */
  function LeftSegment(y: real, x: real, v: Viewport): Segment
  {
    Segment(y, v.x, Min(x, v.maxX))
  }

  function RightSegment(y: real, x: real, v: Viewport): Segment
  {
    Segment(y, Max(x, v.x), v.maxX)
  }

  /** The on-screen part of a connector. */
  function VisiblePart(a: Anchors, v: Viewport): Segment
  {
    Segment(a.Row(), Max(a.Left(), v.x), Min(a.Right(), v.maxX))
  }

  predicate Within(s: Segment, t: Segment)
  {
    s.y == t.y && t.from <= s.from && s.to <= t.to
  }

  /** Everything drawn for one frame: one record per edge, then the merged
      left and right segments. */
  datatype EdgeFrame = EdgeFrame(draws: seq<EdgeDraw>, left: Rows, right: Rows)

  /** `Update` for the visible edges, given as pairs of end nodes. */
  function Frame(edges: seq<(NodeBox, NodeBox)>, v: Viewport): (f: EdgeFrame)
    ensures |f.draws| == |edges|
    ensures forall i :: 0 <= i < |edges| ==>
      (f.draws[i].connector == Skipped <==> !Considered(AnchorsOf(edges[i].0, edges[i].1), v))
    ensures forall i :: 0 <= i < |edges| && f.draws[i].connector == Merged ==>
      AnchorsOf(edges[i].0, edges[i].1).Row() in f.left || AnchorsOf(edges[i].0, edges[i].1).Row() in f.right
  {
    var anchors := seq(|edges|, i requires 0 <= i < |edges| => AnchorsOf(edges[i].0, edges[i].1));
    var (lh, rh) := MergeUpTo(anchors, v, |anchors|);
    EdgeFrame(seq(|anchors|, i requires 0 <= i < |anchors| => DrawEdge(anchors[i], v)), lh, rh)
  }

  /** No on-screen piece of a connector is lost: a connector that is neither
      skipped nor drawn directly has its visible part inside the merged
      segment of its row, on the left or on the right. */
  lemma MergedCoversVisible(edges: seq<(NodeBox, NodeBox)>, v: Viewport, i: nat)
    requires i < |edges|
    ensures var f := Frame(edges, v);
      var a := AnchorsOf(edges[i].0, edges[i].1);
      f.draws[i].connector == Merged ==>
        (a.Row() in f.left && Within(VisiblePart(a, v), LeftSegment(a.Row(), f.left[a.Row()], v))) ||
        (a.Row() in f.right && Within(VisiblePart(a, v), RightSegment(a.Row(), f.right[a.Row()], v)))
  {
    var anchors := seq(|edges|, k requires 0 <= k < |edges| => AnchorsOf(edges[k].0, edges[k].1));
    LeftRowsAreMaxima(anchors, v, |anchors|);
    RightRowsAreMinima(anchors, v, |anchors|);
    assert anchors[i] == AnchorsOf(edges[i].0, edges[i].1);
  }

  /** Every merged segment lies on screen and is drawn for a row that some
      connector sticking out on that side really occupies. */
  lemma MergedSegmentsOnScreen(edges: seq<(NodeBox, NodeBox)>, v: Viewport, y: real)
    requires v.x <= v.maxX
    ensures var f := Frame(edges, v);
      y in f.left ==>
        v.x <= LeftSegment(y, f.left[y], v).from && LeftSegment(y, f.left[y], v).to <= v.maxX &&
        exists i :: 0 <= i < |edges| && PastLeft(AnchorsOf(edges[i].0, edges[i].1), v) &&
          AnchorsOf(edges[i].0, edges[i].1).Row() == y
    ensures var f := Frame(edges, v);
      y in f.right ==>
        v.x <= RightSegment(y, f.right[y], v).from && RightSegment(y, f.right[y], v).to <= v.maxX &&
        exists i :: 0 <= i < |edges| && PastRight(AnchorsOf(edges[i].0, edges[i].1), v) &&
          AnchorsOf(edges[i].0, edges[i].1).Row() == y
  {
    var anchors := seq(|edges|, k requires 0 <= k < |edges| => AnchorsOf(edges[k].0, edges[k].1));
    assert Frame(edges, v).left == MergeUpTo(anchors, v, |anchors|).0;
    assert Frame(edges, v).right == MergeUpTo(anchors, v, |anchors|).1;
    LeftRowOccupied(edges, anchors, v, y);
    RightRowOccupied(edges, anchors, v, y);
  }

  lemma LeftRowOccupied(edges: seq<(NodeBox, NodeBox)>, anchors: seq<Anchors>, v: Viewport, y: real)
    requires |anchors| == |edges| && forall k :: 0 <= k < |edges| ==> anchors[k] == AnchorsOf(edges[k].0, edges[k].1)
    ensures y in MergeUpTo(anchors, v, |anchors|).0 ==>
      exists i :: 0 <= i < |edges| && PastLeft(AnchorsOf(edges[i].0, edges[i].1), v) &&
        AnchorsOf(edges[i].0, edges[i].1).Row() == y
  {
    LeftRowsAreMaxima(anchors, v, |anchors|);
    if y in MergeUpTo(anchors, v, |anchors|).0 {
      var lh := MergeUpTo(anchors, v, |anchors|).0;
      var j :| 0 <= j < |anchors| && PastLeft(anchors[j], v) && anchors[j].Row() == y && anchors[j].Right() == lh[y];
      assert anchors[j] == AnchorsOf(edges[j].0, edges[j].1);
    }
  }

  lemma RightRowOccupied(edges: seq<(NodeBox, NodeBox)>, anchors: seq<Anchors>, v: Viewport, y: real)
    requires |anchors| == |edges| && forall k :: 0 <= k < |edges| ==> anchors[k] == AnchorsOf(edges[k].0, edges[k].1)
    ensures y in MergeUpTo(anchors, v, |anchors|).1 ==>
      exists i :: 0 <= i < |edges| && PastRight(AnchorsOf(edges[i].0, edges[i].1), v) &&
        AnchorsOf(edges[i].0, edges[i].1).Row() == y
  {
    RightRowsAreMinima(anchors, v, |anchors|);
    if y in MergeUpTo(anchors, v, |anchors|).1 {
      var rh := MergeUpTo(anchors, v, |anchors|).1;
      var j :| 0 <= j < |anchors| && PastRight(anchors[j], v) && anchors[j].Row() == y && anchors[j].Left() == rh[y];
      assert anchors[j] == AnchorsOf(edges[j].0, edges[j].1);
    }
  }
}

=== FILE: draw_nodes.dfy ===
/** The node-drawing system: per frame, which nodes are culled, which are
    drawn from their baked atlas tile, which as shapes (blitted from the
    shape textures or drawn as vectors), which only as an outline because the
    frame deadline has passed; which nodes get baked into the atlas after the
    pass; and how a shape's colour name is resolved.

    As in the bounding-box cache, the deadline is modelled by `budget`, the
    number of deadline polls in this frame that still see time left. */
module DrawNodes {
  import opened Components
  import opened Wrappers
  import Colors

  /** At most this many off-screen nodes are queued for baking per frame. */
  const BakeQueueCap: nat := 100

  /** What the pass reads of a node: entity, position, size, whether its
      atlas tile is baked (`rendered`) and its shape placements. */
  datatype NodeView = NodeView(id: Entity, pos: Position, sizeX: real, sizeY: real, rendered: bool, transforms: seq<ShapeTransform>)

  /** Which palette entry fills the node's background. */
  datatype Fill = Background | Hovered | Selected

  /** How one shape placement is drawn: copied from the shape's texture, or
      drawn triangle by triangle. */
  datatype Part = Blit(shape: int) | Vector(shape: int)

  datatype Look = Outline | Tile | Shapes(parts: seq<Part>)

  datatype Draw = Culled | Drawn(fill: Fill, look: Look)

  /** The `NodeSelection` resource, when present. */
  datatype Selection = Selection(selected: Entity, hovered: Entity)

  predicate OffScreen(n: NodeView, v: Viewport)
  {
    n.pos.x > v.maxX || n.pos.y > v.maxY || n.pos.x + n.sizeX < v.x || n.pos.y + n.sizeY < v.y
  }

  function Area(n: NodeView): real { n.sizeX * n.sizeY }

  function VisibleArea(v: Viewport): real { (v.maxX - v.x) * (v.maxY - v.y) }

  function SelectedOf(sel: Option<Selection>): Entity
  {
    if sel.Some? then sel.value.selected else ZeroEntity
  }

  function HoveredOf(sel: Option<Selection>): Entity
  {
    if sel.Some? then sel.value.hovered else ZeroEntity
  }

  /** Selected takes priority over hovered, which takes priority over the
      plain background. */
  function FillOf(id: Entity, sel: Option<Selection>): (f: Fill)
    ensures f == Selected <==> id == SelectedOf(sel)
    ensures f == Hovered <==> id == HoveredOf(sel) && id != SelectedOf(sel)
    ensures f == Background <==> id != HoveredOf(sel) && id != SelectedOf(sel)
  {
    var f := if id == HoveredOf(sel) then Hovered else Background;
    if id == SelectedOf(sel) then Selected else f
  }

  function FillColor(f: Fill): RGBA
  {
    match f
    case Background => Colors.Palette().background
    case Hovered => Colors.Palette().hovered
    case Selected => Colors.Palette().selected
  }

  /** The level of detail chosen for one on-screen node: `timeLeft` is the
      outcome of the node's deadline poll. */
  function Decide(n: NodeView, v: Viewport, sel: Option<Selection>, timeLeft: bool): (d: Draw)
    ensures d.Culled? <==> OffScreen(n, v)
    ensures d.Drawn? ==> d.fill == FillOf(n.id, sel)
    ensures d.Drawn? && d.look.Shapes? ==> timeLeft
    ensures d.Drawn? && d.look == Tile ==> n.rendered
  {
    if OffScreen(n, v) then Culled
    else
      var fill := FillOf(n.id, sel);
      if !timeLeft then Drawn(fill, if n.rendered then Tile else Outline)
      else if Area(n) < VisibleArea(v) / 40.0 && n.rendered then Drawn(fill, Tile)
      else
        var drawFast := Area(n) < VisibleArea(v) / 10.0;
        Drawn(fill, Shapes(seq(|n.transforms|, k requires 0 <= k < |n.transforms| =>
          var tr := n.transforms[k];
          if drawFast && !tr.highlight then Blit(tr.id) else Vector(tr.id))))
  }

  /** Off-screen nodes are culled. On screen, with the deadline passed, a
      node is drawn from its tile if it has one and as an outline otherwise;
      with time left, a node with a tile that is smaller than a fortieth of
      the visible area is drawn from its tile; every other case draws the
      shapes. The fill follows the selection priority. */
  lemma DecideLevels(n: NodeView, v: Viewport, sel: Option<Selection>, timeLeft: bool)
    ensures var d := Decide(n, v, sel, timeLeft);
      (d.Culled? <==> OffScreen(n, v)) &&
      (d.Drawn? ==> d.fill == FillOf(n.id, sel)) &&
      (d.Drawn? && d.look == Outline <==> !OffScreen(n, v) && !timeLeft && !n.rendered) &&
      (d.Drawn? && d.look == Tile <==>
        !OffScreen(n, v) && n.rendered && (!timeLeft || Area(n) < VisibleArea(v) / 40.0)) &&
      (d.Drawn? && d.look.Shapes? <==>
        !OffScreen(n, v) && timeLeft && (!n.rendered || Area(n) >= VisibleArea(v) / 40.0))
  {
  }

  /** Shape drawing keeps the placements in order; a placement is blitted
      iff the node is smaller than a tenth of the visible area and the
      placement is not highlighted. */
  lemma DecideParts(n: NodeView, v: Viewport, sel: Option<Selection>, timeLeft: bool)
    ensures var d := Decide(n, v, sel, timeLeft);
      d.Drawn? && d.look.Shapes? ==>
      (|d.look.parts| == |n.transforms| &&
       forall k :: 0 <= k < |n.transforms| ==>
         d.look.parts[k].shape == n.transforms[k].id &&
         (d.look.parts[k].Blit? <==> Area(n) < VisibleArea(v) / 10.0 && !n.transforms[k].highlight))
  {
  }

  /** A blitted placement only happens for a node smaller than a tenth of the
      visible area, and never for a highlighted placement. */
  lemma BlitOnlyWhenSmall(n: NodeView, v: Viewport, sel: Option<Selection>, timeLeft: bool, k: nat)
    requires Decide(n, v, sel, timeLeft).Drawn? && Decide(n, v, sel, timeLeft).look.Shapes?
    requires k < |n.transforms| && Decide(n, v, sel, timeLeft).look.parts[k].Blit?
    ensures timeLeft && Area(n) < VisibleArea(v) / 10.0 && !n.transforms[k].highlight
  {
    DecideParts(n, v, sel, timeLeft);
  }

  // ---------------------------------------------------------------------
  // The frame

  /** Number of on-screen nodes before index `i`: the number of deadline
      polls the pass makes before reaching node `i`. */
  function OnScreenBefore(nodes: seq<NodeView>, v: Viewport, i: nat): (c: nat)
    requires i <= |nodes|
    ensures c <= i
  {
    if i == 0 then 0 else OnScreenBefore(nodes, v, i - 1) + (if OffScreen(nodes[i - 1], v) then 0 else 1)
  }

  /** Indices before `i` of off-screen nodes with no baked tile, in order. */
  function Deferrable(nodes: seq<NodeView>, v: Viewport, i: nat): (ds: seq<nat>)
    requires i <= |nodes|
    ensures forall k :: 0 <= k < |ds| ==> ds[k] < i && OffScreen(nodes[ds[k]], v) && !nodes[ds[k]].rendered
  {
    if i == 0 then []
    else Deferrable(nodes, v, i - 1) + (if OffScreen(nodes[i - 1], v) && !nodes[i - 1].rendered then [i - 1] else [])
  }

  /** Indices before `i` of on-screen nodes with no baked tile whose
      deadline poll saw time left: they reach shape drawing and are baked
      after the pass. */
  function BakeNow(nodes: seq<NodeView>, v: Viewport, budget: nat, i: nat): (bs: seq<nat>)
    requires i <= |nodes|
    ensures forall j :: 0 <= j < |bs| ==> bs[j] < i
  {
    if i == 0 then []
    else
      var j := i - 1;
      BakeNow(nodes, v, budget, j) +
      (if !OffScreen(nodes[j], v) && !nodes[j].rendered && OnScreenBefore(nodes, v, j) < budget then [j] else [])
  }

  /** The bake-now list holds exactly the on-screen unbaked nodes whose
      poll saw time left. */
  lemma {:induction false} BakeNowMembers(nodes: seq<NodeView>, v: Viewport, budget: nat, i: nat)
    requires i <= |nodes|
    ensures forall j :: 0 <= j < i ==>
      (j in BakeNow(nodes, v, budget, i) <==>
        !OffScreen(nodes[j], v) && !nodes[j].rendered && OnScreenBefore(nodes, v, j) < budget)
  {
    if i > 0 {
      BakeNowMembers(nodes, v, budget, i - 1);
      var prev := BakeNow(nodes, v, budget, i - 1);
      assert i - 1 !in prev;
    }
  }

  function Take(s: seq<nat>, n: nat): (t: seq<nat>)
    ensures |t| <= n && |t| <= |s| && t == s[..|t|]
    ensures |s| >= n ==> |t| == n
    ensures |s| <= n ==> t == s
  {
    if |s| <= n then s else s[..n]
  }

  function Sub(a: nat, b: nat): nat { if a >= b then a - b else 0 }

  /** Polls left once the pass over the nodes is over. */
  function BudgetAfterPass(nodes: seq<NodeView>, v: Viewport, budget: nat): nat
  {
    Sub(budget, OnScreenBefore(nodes, v, |nodes|))
  }

  lemma TakeAppend(s: seq<nat>, x: nat, n: nat)
    ensures Take(s + [x], n) == if |Take(s, n)| < n then Take(s, n) + [x] else Take(s, n)
  {
  }

  /** What the pass has accumulated: decisions so far, the bake-later queue,
      the bake-now list and the polls left. */
  datatype PassState = PassState(draws: seq<Draw>, queue: seq<nat>, toRender: seq<nat>, b: nat)

  /** The loop body for node `n` at index `i`. */
  function Step(st: PassState, n: NodeView, i: nat, v: Viewport, sel: Option<Selection>): (st': PassState)
    ensures |st'.draws| == |st.draws| + 1 && st'.draws[..|st.draws|] == st.draws
    ensures st.b - 1 <= st'.b <= st.b && (st'.b < st.b <==> !OffScreen(n, v) && st.b > 0)
    ensures st'.queue == st.queue || (st'.queue == st.queue + [i] && |st.queue| < BakeQueueCap)
    ensures st'.toRender == st.toRender || st'.toRender == st.toRender + [i]
  {
    if OffScreen(n, v) then
      var queue := if !n.rendered && |st.queue| < BakeQueueCap then st.queue + [i] else st.queue;
      st.(draws := st.draws + [Culled], queue := queue)
    else
      var timeLeft := st.b > 0;
      var b := if timeLeft then st.b - 1 else st.b;
      var toRender := if timeLeft && !n.rendered then st.toRender + [i] else st.toRender;
      PassState(st.draws + [Decide(n, v, sel, timeLeft)], st.queue, toRender, b)
  }

  /** The state after the first `i` nodes. */
  function Run(nodes: seq<NodeView>, v: Viewport, sel: Option<Selection>, budget: nat, i: nat): (st: PassState)
    requires i <= |nodes|
    ensures |st.draws| == i && |st.toRender| <= i
    ensures |st.queue| <= BakeQueueCap && |st.queue| <= i
    ensures budget - i <= st.b <= budget
  {
    if i == 0 then PassState([], [], [], budget)
    else Step(Run(nodes, v, sel, budget, i - 1), nodes[i - 1], i - 1, v, sel)
  }

  /** The running state after `i` nodes, in closed form: node `j` was decided
      with the outcome of poll number `OnScreenBefore(j)`, the queue holds the
      first deferrable nodes up to the cap, the bake-now list the on-screen
      unbaked nodes whose poll saw time left. */
  lemma RunMeaning(nodes: seq<NodeView>, v: Viewport, sel: Option<Selection>, budget: nat, i: nat)
    requires i <= |nodes|
    ensures var st := Run(nodes, v, sel, budget, i);
      |st.draws| == i &&
      (forall j :: 0 <= j < i ==> st.draws[j] == Decide(nodes[j], v, sel, OnScreenBefore(nodes, v, j) < budget)) &&
      st.queue == Take(Deferrable(nodes, v, i), BakeQueueCap) &&
      st.toRender == BakeNow(nodes, v, budget, i) &&
      st.b == Sub(budget, OnScreenBefore(nodes, v, i))
  {
    RunBudget(nodes, v, sel, budget, i);
    RunDraws(nodes, v, sel, budget, i);
    forall j | 0 <= j < i
      ensures Run(nodes, v, sel, budget, i).draws[j] == Decide(nodes[j], v, sel, OnScreenBefore(nodes, v, j) < budget)
    {
      DrawsUpToAt(nodes, v, sel, budget, i, j);
    }
    RunQueue(nodes, v, sel, budget, i);
    RunToRender(nodes, v, sel, budget, i);
  }

  lemma {:induction false} RunBudget(nodes: seq<NodeView>, v: Viewport, sel: Option<Selection>, budget: nat, i: nat)
    requires i <= |nodes|
    ensures Run(nodes, v, sel, budget, i).b == Sub(budget, OnScreenBefore(nodes, v, i))
  {
    if i > 0 {
      RunBudget(nodes, v, sel, budget, i - 1);
    }
  }

  lemma StepDraws(st: PassState, n: NodeView, i: nat, v: Viewport, sel: Option<Selection>)
    ensures Step(st, n, i, v, sel).draws == st.draws + [Decide(n, v, sel, st.b > 0)]
  {
  }

  /** Decisions for the first `i` nodes, node `j` with the outcome of poll
      number `OnScreenBefore(j)`. */
  function DrawsUpTo(nodes: seq<NodeView>, v: Viewport, sel: Option<Selection>, budget: nat, i: nat): (ds: seq<Draw>)
    requires i <= |nodes|
    ensures |ds| == i
  {
    if i == 0 then []
    else DrawsUpTo(nodes, v, sel, budget, i - 1) + [Decide(nodes[i - 1], v, sel, OnScreenBefore(nodes, v, i - 1) < budget)]
  }

  lemma {:induction false} DrawsUpToAt(nodes: seq<NodeView>, v: Viewport, sel: Option<Selection>, budget: nat, i: nat, j: nat)
    requires j < i <= |nodes|
    ensures DrawsUpTo(nodes, v, sel, budget, i)[j] == Decide(nodes[j], v, sel, OnScreenBefore(nodes, v, j) < budget)
  {
    if j < i - 1 {
      DrawsUpToAt(nodes, v, sel, budget, i - 1, j);
    }
  }

  lemma {:induction false} RunDraws(nodes: seq<NodeView>, v: Viewport, sel: Option<Selection>, budget: nat, i: nat)
    requires i <= |nodes|
    ensures Run(nodes, v, sel, budget, i).draws == DrawsUpTo(nodes, v, sel, budget, i)
  {
    if i > 0 {
      RunDraws(nodes, v, sel, budget, i - 1);
      RunBudget(nodes, v, sel, budget, i - 1);
      var prev := Run(nodes, v, sel, budget, i - 1);
      StepDraws(prev, nodes[i - 1], i - 1, v, sel);
      assert prev.b > 0 <==> OnScreenBefore(nodes, v, i - 1) < budget;
    }
  }

  lemma {:induction false} RunQueue(nodes: seq<NodeView>, v: Viewport, sel: Option<Selection>, budget: nat, i: nat)
    requires i <= |nodes|
    ensures Run(nodes, v, sel, budget, i).queue == Take(Deferrable(nodes, v, i), BakeQueueCap)
  {
    if i > 0 {
      var prev := Run(nodes, v, sel, budget, i - 1);
      RunQueue(nodes, v, sel, budget, i - 1);
      StepQueue(prev, nodes[i - 1], i - 1, v, sel);
      TakeStep(Deferrable(nodes, v, i - 1), i - 1, OffScreen(nodes[i - 1], v) && !nodes[i - 1].rendered);
    }
  }

  /** Capping commutes with appending one candidate while below the cap. */
  lemma TakeStep(ds: seq<nat>, x: nat, add: bool)
    ensures Take(ds + (if add then [x] else []), BakeQueueCap) ==
      if add && |Take(ds, BakeQueueCap)| < BakeQueueCap then Take(ds, BakeQueueCap) + [x] else Take(ds, BakeQueueCap)
  {
    if add {
      TakeAppend(ds, x, BakeQueueCap);
    } else {
      assert ds + [] == ds;
    }
  }

  lemma StepQueue(st: PassState, n: NodeView, i: nat, v: Viewport, sel: Option<Selection>)
    ensures Step(st, n, i, v, sel).queue ==
      if OffScreen(n, v) && !n.rendered && |st.queue| < BakeQueueCap then st.queue + [i] else st.queue
  {
  }

  lemma {:induction false} RunToRender(nodes: seq<NodeView>, v: Viewport, sel: Option<Selection>, budget: nat, i: nat)
    requires i <= |nodes|
    ensures Run(nodes, v, sel, budget, i).toRender == BakeNow(nodes, v, budget, i)
  {
    if i > 0 {
      RunToRender(nodes, v, sel, budget, i - 1);
      RunBudget(nodes, v, sel, budget, i - 1);
    }
  }

  /** The pass over the visible nodes. */
  method Pass(nodes: seq<NodeView>, v: Viewport, sel: Option<Selection>, budget: nat)
    returns (draws: seq<Draw>, queue: seq<nat>, toRender: seq<nat>, b: nat)
    ensures |draws| == |nodes|
    ensures forall i :: 0 <= i < |nodes| ==>
      draws[i] == Decide(nodes[i], v, sel, OnScreenBefore(nodes, v, i) < budget)
    ensures queue == Take(Deferrable(nodes, v, |nodes|), BakeQueueCap)
    ensures b == BudgetAfterPass(nodes, v, budget)
    ensures toRender == BakeNow(nodes, v, budget, |nodes|)
  {
    draws, queue, toRender, b := [], [], [], budget;
    for i := 0 to |nodes|
      invariant PassState(draws, queue, toRender, b) == Run(nodes, v, sel, budget, i)
    {
      var n := nodes[i];
      if OffScreen(n, v) {
        if !n.rendered && |queue| < BakeQueueCap {
          queue := queue + [i];
        }
        draws := draws + [Culled];
      } else {
        var timeLeft := b > 0;
        if timeLeft {
          b := b - 1;
        }
        draws := draws + [Decide(n, v, sel, timeLeft)];
        if timeLeft && !n.rendered {
          toRender := toRender + [i];
        }
      }
    }
    RunMeaning(nodes, v, sel, budget, |nodes|);
  }

  /** Marks every listed node as baked. */
  method BakeAll(flags: seq<bool>, toRender: seq<nat>) returns (rendered: seq<bool>)
    requires forall j :: 0 <= j < |toRender| ==> toRender[j] < |flags|
    ensures |rendered| == |flags|
    ensures forall j :: 0 <= j < |flags| ==> (rendered[j] <==> flags[j] || j in toRender)
  {
    rendered := flags;
    for k := 0 to |toRender|
      invariant |rendered| == |flags|
      invariant forall j :: 0 <= j < |flags| ==> (rendered[j] <==> flags[j] || j in toRender[..k])
    {
      assert toRender[..k + 1] == toRender[..k] + [toRender[k]];
      rendered := rendered[toRender[k] := true];
    }
    assert toRender[..|toRender|] == toRender;
  }

  /** Bakes queued nodes in order, each after a deadline poll, and stops at
      the first poll that finds the deadline passed. */
  method BakeWhileTime(flags: seq<bool>, queue: seq<nat>, b0: nat) returns (rendered: seq<bool>, baked: nat, left: nat)
    requires forall j :: 0 <= j < |queue| ==> queue[j] < |flags|
    ensures baked == if |queue| <= b0 then |queue| else b0
    ensures left == b0 - baked
    ensures |rendered| == |flags|
    ensures forall j :: 0 <= j < |flags| ==> (rendered[j] <==> flags[j] || j in queue[..baked])
  {
    rendered := flags;
    baked := 0;
    left := b0;
    while baked < |queue| && left > 0
      invariant baked <= |queue| && baked <= b0
      invariant left == b0 - baked
      invariant |rendered| == |flags|
      invariant forall j :: 0 <= j < |flags| ==> (rendered[j] <==> flags[j] || j in queue[..baked])
    {
      assert queue[..baked + 1] == queue[..baked] + [queue[baked]];
      rendered := rendered[queue[baked] := true];
      left := left - 1;
      baked := baked + 1;
    }
  }

  /** `Update`: the pass over the visible nodes, the bake of every on-screen
      node that reached shape drawing without a tile, then the bake of the
      queued off-screen nodes while the deadline allows. */
  method Frame(nodes: seq<NodeView>, v: Viewport, sel: Option<Selection>, budget: nat)
    returns (draws: seq<Draw>, queue: seq<nat>, baked: nat, rendered: seq<bool>, left: nat)
    ensures |draws| == |nodes|
    ensures forall i :: 0 <= i < |nodes| ==>
      draws[i] == Decide(nodes[i], v, sel, OnScreenBefore(nodes, v, i) < budget)
    ensures queue == Take(Deferrable(nodes, v, |nodes|), BakeQueueCap)
    ensures baked == if |queue| <= BudgetAfterPass(nodes, v, budget) then |queue| else BudgetAfterPass(nodes, v, budget)
    ensures left == BudgetAfterPass(nodes, v, budget) - baked
    ensures |rendered| == |nodes|
    ensures forall i :: 0 <= i < |nodes| ==>
      (rendered[i] <==>
        nodes[i].rendered ||
        (!OffScreen(nodes[i], v) && OnScreenBefore(nodes, v, i) < budget) ||
        i in queue[..baked])
    ensures forall i :: 0 <= i < |nodes| && nodes[i].rendered ==> rendered[i]
    ensures budget == 0 ==> (baked == 0 && left == 0 &&
      forall i :: 0 <= i < |nodes| ==> (rendered[i] <==> nodes[i].rendered) && !(draws[i].Drawn? && draws[i].look.Shapes?))
  {
    var toRender, b;
    draws, queue, toRender, b := Pass(nodes, v, sel, budget);
    BakeNowMembers(nodes, v, budget, |nodes|);
    var flags := seq(|nodes|, j requires 0 <= j < |nodes| => nodes[j].rendered);
    var afterPass := BakeAll(flags, toRender);
    rendered, baked, left := BakeWhileTime(afterPass, queue, b);
  }

  /** Off-screen nodes are never drawn, and at most `BakeQueueCap` nodes,
      all off-screen and unbaked, are queued. */
  lemma QueueIsBounded(nodes: seq<NodeView>, v: Viewport)
    ensures var q := Take(Deferrable(nodes, v, |nodes|), BakeQueueCap);
      |q| <= BakeQueueCap &&
      forall k :: 0 <= k < |q| ==> OffScreen(nodes[q[k]], v) && !nodes[q[k]].rendered
  {
  }

  /** With no poll at all, the pass lists no node for baking. */
  lemma {:induction false} NoTimeNoWork(nodes: seq<NodeView>, v: Viewport, budget: nat, i: nat)
    requires i <= |nodes| && budget == 0
    ensures BakeNow(nodes, v, budget, i) == []
  {
    if i > 0 {
      NoTimeNoWork(nodes, v, budget, i - 1);
    }
  }

  /** Enough polls for the whole pass means every on-screen node without a
      tile gets one. */
  lemma {:induction false} AmpleBudgetBakesOnScreen(nodes: seq<NodeView>, v: Viewport, budget: nat, i: nat)
    requires i < |nodes| && budget >= OnScreenBefore(nodes, v, |nodes|) && !OffScreen(nodes[i], v)
    ensures OnScreenBefore(nodes, v, i) < budget
  {
    CountGrows(nodes, v, i + 1, |nodes|);
  }

  lemma {:induction false} CountGrows(nodes: seq<NodeView>, v: Viewport, i: nat, j: nat)
    requires i <= j <= |nodes|
    ensures OnScreenBefore(nodes, v, i) <= OnScreenBefore(nodes, v, j)
    decreases j - i
  {
    if i < j {
      CountGrows(nodes, v, i, j - 1);
    }
  }

  // ---------------------------------------------------------------------
  // Shape colours

  datatype ShapeColor = ShapeColor(border: RGBA, fill: RGBA)

  datatype HighlightableColor = HighlightableColor(normal: ShapeColor, highlighted: ShapeColor)

  type ColorTable = map<string, HighlightableColor>

  // raylib's named colours
  const RlBlue := RGBA(0, 121, 241, 255)
  const RlSkyBlue := RGBA(102, 191, 255, 255)
  const RlDarkGreen := RGBA(0, 117, 44, 255)
  const RlGreen := RGBA(0, 228, 48, 255)
  const RlMaroon := RGBA(190, 33, 55, 255)
  const RlRed := RGBA(230, 41, 55, 255)
  const RlDarkPurple := RGBA(112, 31, 126, 255)
  const RlPurple := RGBA(200, 122, 255, 255)
  const RlBlack := RGBA(0, 0, 0, 255)
  const RlRayWhite := RGBA(245, 245, 245, 255)

  /** The colour table before any shape is drawn. */
  function InitialColors(): (t: ColorTable)
    ensures t.Keys == {"blue", "red", ""}
    ensures t["blue"].normal != t["blue"].highlighted && t["red"].normal != t["red"].highlighted
    ensures t[""].normal == t[""].highlighted
  {
    map[
      "blue" := HighlightableColor(ShapeColor(RlBlue, RlSkyBlue), ShapeColor(RlDarkGreen, RlGreen)),
      "red" := HighlightableColor(ShapeColor(RlMaroon, RlRed), ShapeColor(RlDarkPurple, RlPurple)),
      "" := HighlightableColor(ShapeColor(RlBlack, RlRayWhite), ShapeColor(RlBlack, RlRayWhite))]
  }

  function Pick(c: HighlightableColor, highlight: bool): ShapeColor
  {
    if highlight then c.highlighted else c.normal
  }

  /** `renderShape`'s colour lookup: a known name is read from the table; an
      unknown one is parsed by `parse` (the colour-string decoder, which is
      not part of this model), stored with the same colour for both states,
      and used; a parse failure is fatal. */
  function ResolveColor(table: ColorTable, name: string, highlight: bool, parse: string -> Option<RGBA>)
    : (r: Result<(ShapeColor, ColorTable), string>)
    ensures r.Failure? <==> name !in table && parse(name).None?
    ensures r.Success? ==>
      var (col, table') := r.value;
      table'.Keys == table.Keys + {name} &&
      (forall k :: k in table ==> table'[k] == table[k]) &&
      col == Pick(table'[name], highlight)
    ensures r.Success? && name !in table ==>
      r.value.1[name] == HighlightableColor(ShapeColor(parse(name).value, parse(name).value), ShapeColor(parse(name).value, parse(name).value))
  {
    if name in table then Success((Pick(table[name], highlight), table))
    else
      match parse(name)
      case None => Failure("unknown color")
      case Some(c) =>
        var col := HighlightableColor(ShapeColor(c, c), ShapeColor(c, c));
        Success((Pick(col, highlight), table[name := col]))
  }

  /** Once a name has been resolved, resolving it again, in either state,
      does not consult the decoder and leaves the table as it is; a parsed
      name looks the same highlighted or not. */
  lemma ResolveIsCached(table: ColorTable, name: string, h1: bool, h2: bool, parse: string -> Option<RGBA>, parse2: string -> Option<RGBA>)
    requires ResolveColor(table, name, h1, parse).Success?
    ensures var t1 := ResolveColor(table, name, h1, parse).value.1;
      ResolveColor(t1, name, h2, parse2) == Success((Pick(t1[name], h2), t1))
    ensures name !in table ==>
      ResolveColor(table, name, h1, parse).value.0 == ResolveColor(table, name, !h1, parse).value.0
  {
  }
}

=== FILE: geometry_cache.dfy ===
/** The subtree bounding-box cache. Every visible node has an entry holding
    the box of the node and its visible descendants, plus a dirty flag. A
    refresh walks the tree from each visible root, skips clean entries,
    recomputes dirty ones bottom-up by folding each visible child's box into
    its parent's, and gives up as soon as the frame deadline has passed.

    The deadline is a wall-clock instant that the walk polls once per dirty
    entry it reaches. Because time only moves forward, the outcome of those
    polls in any run is "time left" for the first few and "expired" from
    then on; the model therefore passes a `budget`, the number of polls that
    still see time left, and threads what remains of it through the walk. */
module GeometryCache {
  import opened Components

  /** A node of the tree as the cache sees it: entity, position, size, the
      visibility flag and the children in query order. */
  datatype TreeNode = TreeNode(id: Entity, pos: Position, sizeX: real, sizeY: real, visible: bool, children: seq<TreeNode>)

  /** One cache entry (`SubTreeBoundingBox`). `rootNode` is set to the entry's
      own entity, as the initialiser does. */
  datatype Entry = Entry(rect: Rect, dirty: bool, parentNode: Entity, rootNode: Entity)

  type Cache = map<Entity, Entry>

  function OwnRect(t: TreeNode): Rect
  {
    Rect(t.pos.x, t.pos.y, t.sizeX, t.sizeY)
  }

  /** `r` contains `s` (compared edge by edge). */
  predicate Covers(r: Rect, s: Rect)
  {
    r.x <= s.x && s.Right() <= r.Right() && r.y <= s.y && s.Bottom() <= r.Bottom()
  }

  /** The fold step: the parent box grown to take in a child box. */
  function Join(a: Rect, b: Rect): (r: Rect)
    ensures Covers(r, a) && Covers(r, b)
  {
    var x2 := Max(a.x + a.width, b.x + b.width);
    var y2 := Max(a.y + a.height, b.y + b.height);
    var x := Min(a.x, b.x);
    var y := Min(a.y, b.y);
    Rect(x, y, x2 - x, y2 - y)
  }

  /** Any box containing both operands contains their join: the join is the
      smallest box containing both. */
  lemma JoinIsSmallest(a: Rect, b: Rect, r: Rect)
    requires Covers(r, a) && Covers(r, b)
    ensures Covers(r, Join(a, b))
  {
  }

  lemma JoinAssoc(a: Rect, b: Rect, c: Rect)
    ensures Join(Join(a, b), c) == Join(a, Join(b, c))
  {
  }

  // ---------------------------------------------------------------------
  // Tree measures

  /** Number of nodes the walk from `t` can reach: `t` and, recursively, its
      visible children. */
  ghost function Size(t: TreeNode): nat
    decreases t, 1
  {
    1 + SizeFrom(t, 0)
  }

  ghost function SizeFrom(t: TreeNode, i: nat): nat
    requires i <= |t.children|
    decreases t, 0, |t.children| - i
  {
    if i == |t.children| then 0
    else (if t.children[i].visible then Size(t.children[i]) else 0) + SizeFrom(t, i + 1)
  }

  /** Entities the walk from `t` can reach. */
  ghost function Reach(t: TreeNode): set<Entity>
    decreases t, 1
  {
    {t.id} + ReachFrom(t, 0)
  }

  ghost function ReachFrom(t: TreeNode, i: nat): set<Entity>
    requires i <= |t.children|
    decreases t, 0, |t.children| - i
  {
    if i == |t.children| then {}
    else (if t.children[i].visible then Reach(t.children[i]) else {}) + ReachFrom(t, i + 1)
  }

  /** Entities of all nodes of the subtree, hidden ones included. */
  ghost function AllIds(t: TreeNode): set<Entity>
    decreases t, 1
  {
    {t.id} + IdsFrom(t, 0)
  }

  ghost function IdsFrom(t: TreeNode, i: nat): set<Entity>
    requires i <= |t.children|
    decreases t, 0, |t.children| - i
  {
    if i == |t.children| then {} else AllIds(t.children[i]) + IdsFrom(t, i + 1)
  }

  /** Every entity occurs once in the subtree, as ECS entities do. */
  ghost predicate WellFormed(t: TreeNode)
    decreases t, 1
  {
    t.id !in IdsFrom(t, 0) && ChildrenWellFormed(t, 0)
  }

  ghost predicate ChildrenWellFormed(t: TreeNode, i: nat)
    requires i <= |t.children|
    decreases t, 0, |t.children| - i
  {
    i == |t.children| ||
    (WellFormed(t.children[i]) && AllIds(t.children[i]) !! IdsFrom(t, i + 1) && ChildrenWellFormed(t, i + 1))
  }

  lemma {:induction false} ReachWithinIds(t: TreeNode)
    ensures Reach(t) <= AllIds(t)
    decreases t, 1
  {
    ReachFromWithinIds(t, 0);
  }

  lemma {:induction false} ReachFromWithinIds(t: TreeNode, i: nat)
    requires i <= |t.children|
    ensures ReachFrom(t, i) <= IdsFrom(t, i)
    decreases t, 0, |t.children| - i
  {
    if i < |t.children| {
      ReachWithinIds(t.children[i]);
      ReachFromWithinIds(t, i + 1);
    }
  }

  /** What well-formedness gives the walk at child `i`. */
  lemma {:induction false} ChildSeparated(t: TreeNode, i: nat)
    requires WellFormed(t) && i < |t.children|
    ensures WellFormed(t.children[i])
    ensures t.id !in Reach(t.children[i])
    ensures forall j :: 0 <= j < |t.children| && j != i ==> Reach(t.children[i]) !! Reach(t.children[j])
    ensures Reach(t.children[i]) !! ReachFrom(t, i + 1)
    ensures t.children[i].visible ==> Reach(t.children[i]) <= ReachFrom(t, i)
  {
    ChildIdsWithin(t, 0, i);
    ReachWithinIds(t.children[i]);
    ReachFromWithinIds(t, i + 1);
    forall j | 0 <= j < |t.children| && j != i
      ensures Reach(t.children[i]) !! Reach(t.children[j])
    {
      ReachWithinIds(t.children[j]);
      if i < j {
        ChildrenDisjoint(t, 0, i, j);
      } else {
        ChildrenDisjoint(t, 0, j, i);
      }
    }
  }

  lemma {:induction false} ChildIdsWithin(t: TreeNode, k: nat, i: nat)
    requires k <= i < |t.children| && ChildrenWellFormed(t, k)
    ensures AllIds(t.children[i]) <= IdsFrom(t, k)
    ensures ChildrenWellFormed(t, i)
    ensures WellFormed(t.children[i]) && AllIds(t.children[i]) !! IdsFrom(t, i + 1)
    decreases i - k
  {
    if k < i {
      ChildIdsWithin(t, k + 1, i);
    }
  }

  lemma {:induction false} ChildrenDisjoint(t: TreeNode, k: nat, i: nat, j: nat)
    requires k <= i < j < |t.children| && ChildrenWellFormed(t, k)
    ensures AllIds(t.children[i]) !! AllIds(t.children[j])
    decreases i - k
  {
    if k < i {
      ChildrenDisjoint(t, k + 1, i, j);
    } else {
      ChildIdsWithin(t, i + 1, j);
    }
  }

  // ---------------------------------------------------------------------
  // The refresh walk

  /** `recUpdateCache`: a clean entry returns at once; a dirty entry reached
      after the deadline is left as it is; otherwise the entry is reset to
      the node's own box and the visible children are refreshed and folded
      in one by one. */
  function Refresh(t: TreeNode, cache: Cache, budget: nat): (res: (Cache, nat))
    requires WellFormed(t) && Reach(t) <= cache.Keys
    ensures res.0.Keys == cache.Keys
    ensures res.1 <= budget && budget - res.1 <= Size(t)
    ensures forall k :: k in cache && k !in Reach(t) ==> res.0[k] == cache[k]
    ensures forall k :: k in cache && !cache[k].dirty ==> res.0[k] == cache[k]
    ensures forall k :: k in cache ==> res.0[k].parentNode == cache[k].parentNode && res.0[k].rootNode == cache[k].rootNode
    ensures !cache[t.id].dirty ==> res == (cache, budget)
    ensures cache[t.id].dirty && budget == 0 ==> res == (cache, 0)
    ensures res.0[t.id].dirty ==> res.1 == 0 && budget < Size(t)
    decreases t, 1
  {
    if !cache[t.id].dirty then (cache, budget)
    else if budget == 0 then (cache, 0)
    else
      var e := cache[t.id];
      assert ReachFrom(t, 0) <= Reach(t);
      FoldChildren(t, 0, cache[t.id := e.(rect := OwnRect(t))], budget - 1)
  }

  /** The loop over the visible children from index `i` on. The first child
      still dirty after its own refresh makes the parent return, still dirty;
      once every visible child is folded in, the parent is marked clean. */
  function FoldChildren(t: TreeNode, i: nat, cache: Cache, budget: nat): (res: (Cache, nat))
    requires i <= |t.children| && WellFormed(t)
    requires t.id in cache && cache[t.id].dirty && ReachFrom(t, i) <= cache.Keys
    ensures res.0.Keys == cache.Keys
    ensures res.1 <= budget && budget - res.1 <= SizeFrom(t, i)
    ensures forall k :: k in cache && k != t.id && k !in ReachFrom(t, i) ==> res.0[k] == cache[k]
    ensures forall k :: k in cache && !cache[k].dirty ==> res.0[k] == cache[k]
    ensures forall k :: k in cache ==> res.0[k].parentNode == cache[k].parentNode && res.0[k].rootNode == cache[k].rootNode
    ensures res.0[t.id].dirty ==> res.1 == 0 && budget < SizeFrom(t, i)
    decreases t, 0, |t.children| - i
  {
    if i == |t.children| then
      (cache[t.id := cache[t.id].(dirty := false)], budget)
    else
      var c := t.children[i];
      ChildSeparated(t, i);
      if !c.visible then
        FoldChildren(t, i + 1, cache, budget)
      else
        var (cache', budget') := Refresh(c, cache, budget);
        var childBB := cache'[c.id];
        if childBB.dirty then (cache', budget')
        else
          var parentBB := cache'[t.id];
          FoldChildren(t, i + 1, cache'[t.id := parentBB.(rect := Join(parentBB.rect, childBB.rect))], budget')
  }

  // ---------------------------------------------------------------------
  // What a clean entry means

  /** The smallest box containing every box of `rs`, built left to right. */
  function Hull(rs: seq<Rect>): (h: Rect)
    requires |rs| > 0
    ensures forall i :: 0 <= i < |rs| ==> Covers(h, rs[i])
  {
    if |rs| == 1 then rs[0] else Join(Hull(rs[..|rs| - 1]), rs[|rs| - 1])
  }

  lemma {:induction false} HullIsSmallest(rs: seq<Rect>, r: Rect)
    requires |rs| > 0
    requires forall i :: 0 <= i < |rs| ==> Covers(r, rs[i])
    ensures Covers(r, Hull(rs))
  {
    if |rs| > 1 {
      var init := rs[..|rs| - 1];
      assert forall i :: 0 <= i < |init| ==> init[i] == rs[i];
      HullIsSmallest(init, r);
      JoinIsSmallest(Hull(init), rs[|rs| - 1], r);
    }
  }

  lemma {:induction false} HullConcat(a: seq<Rect>, b: seq<Rect>)
    requires |a| > 0 && |b| > 0
    ensures Hull(a + b) == Join(Hull(a), Hull(b))
    decreases |b|
  {
    var ab := a + b;
    if |b| == 1 {
      assert ab[..|ab| - 1] == a;
    } else {
      var b' := b[..|b| - 1];
      assert ab[..|ab| - 1] == a + b';
      HullConcat(a, b');
      JoinAssoc(Hull(a), Hull(b'), b[|b| - 1]);
    }
  }

  /** Boxes of `t` and of all its visible descendants, in walk order. */
  ghost function SubtreeRects(t: TreeNode): (rs: seq<Rect>)
    ensures |rs| > 0
    decreases t, 1
  {
    [OwnRect(t)] + RectsUpTo(t, |t.children|)
  }

  ghost function RectsUpTo(t: TreeNode, i: nat): seq<Rect>
    requires i <= |t.children|
    decreases t, 0, i
  {
    if i == 0 then []
    else RectsUpTo(t, i - 1) + (if t.children[i - 1].visible then SubtreeRects(t.children[i - 1]) else [])
  }

  lemma RectsStep(t: TreeNode, i: nat)
    requires 0 < i <= |t.children|
    ensures [OwnRect(t)] + RectsUpTo(t, i) ==
      [OwnRect(t)] + RectsUpTo(t, i - 1) + (if t.children[i - 1].visible then SubtreeRects(t.children[i - 1]) else [])
  {
  }

  /** The box the walk holds in a parent entry after folding in the visible
      children before index `i`. */
  ghost function FoldUpTo(t: TreeNode, i: nat, c: Cache): Rect
    requires i <= |t.children|
    requires forall j :: 0 <= j < i && t.children[j].visible ==> t.children[j].id in c
  {
    if i == 0 then OwnRect(t)
    else
      var prev := FoldUpTo(t, i - 1, c);
      if t.children[i - 1].visible then Join(prev, c[t.children[i - 1].id].rect) else prev
  }

  ghost predicate ChildrenIn(t: TreeNode, c: Cache)
  {
    forall j :: 0 <= j < |t.children| && t.children[j].visible ==> t.children[j].id in c
  }

  ghost predicate ChildrenClean(t: TreeNode, c: Cache)
    requires ChildrenIn(t, c)
  {
    forall j :: 0 <= j < |t.children| && t.children[j].visible ==> !c[t.children[j].id].dirty
  }

  /** The cache invariant: a clean entry has clean visible children and holds
      the fold of its own box with theirs; and so on down the tree. */
  ghost predicate Sound(t: TreeNode, c: Cache)
  {
    t.id in c && ChildrenIn(t, c) &&
    (!c[t.id].dirty ==> ChildrenClean(t, c) && c[t.id].rect == FoldUpTo(t, |t.children|, c)) &&
    (forall j :: 0 <= j < |t.children| && t.children[j].visible ==> Sound(t.children[j], c))
  }

  lemma {:induction false} ReachFromShrinks(t: TreeNode, i: nat, j: nat)
    requires i <= j <= |t.children|
    ensures ReachFrom(t, j) <= ReachFrom(t, i)
    decreases j - i
  {
    if i < j {
      ReachFromShrinks(t, i + 1, j);
    }
  }

  lemma ChildReach(t: TreeNode, j: nat)
    requires j < |t.children| && t.children[j].visible
    ensures Reach(t.children[j]) <= ReachFrom(t, 0) && t.children[j].id in Reach(t)
  {
    ReachFromShrinks(t, 0, j);
  }

  lemma {:induction false} FoldUpToFrame(t: TreeNode, i: nat, c1: Cache, c2: Cache)
    requires i <= |t.children|
    requires forall j :: 0 <= j < i && t.children[j].visible ==> t.children[j].id in c1
    requires forall j :: 0 <= j < i && t.children[j].visible ==>
      t.children[j].id in c2 && c2[t.children[j].id].rect == c1[t.children[j].id].rect
    ensures FoldUpTo(t, i, c1) == FoldUpTo(t, i, c2)
  {
    if i > 0 {
      FoldUpToFrame(t, i - 1, c1, c2);
    }
  }

  /** Soundness of a subtree depends only on the entries it can reach. */
  lemma {:induction false} SoundFrame(t: TreeNode, c1: Cache, c2: Cache)
    requires Sound(t, c1)
    requires forall k :: k in Reach(t) ==> k in c1 && k in c2 && c2[k] == c1[k]
    ensures Sound(t, c2)
    decreases t
  {
    forall j | 0 <= j < |t.children| && t.children[j].visible
      ensures t.children[j].id in c2 && c2[t.children[j].id] == c1[t.children[j].id]
      ensures Sound(t.children[j], c2)
    {
      ChildReach(t, j);
      SoundFrame(t.children[j], c1, c2);
    }
    FoldUpToFrame(t, |t.children|, c1, c2);
  }

  /** A refresh preserves the cache invariant. */
  lemma {:induction false} RefreshSound(t: TreeNode, c: Cache, b: nat)
    requires WellFormed(t) && Reach(t) <= c.Keys && Sound(t, c)
    ensures Sound(t, Refresh(t, c, b).0)
    decreases t, 1
  {
    if c[t.id].dirty && b > 0 {
      var c1 := c[t.id := c[t.id].(rect := OwnRect(t))];
      forall j | 0 <= j < |t.children| && t.children[j].visible
        ensures Sound(t.children[j], c1)
      {
        ChildSeparated(t, j);
        ChildReach(t, j);
        SoundFrame(t.children[j], c, c1);
      }
      assert ReachFrom(t, 0) <= Reach(t);
      FoldSound(t, 0, c1, b - 1);
    }
  }

  /** Writing the parent's entry leaves its children's subtrees sound. */
  lemma ParentWriteKeepsChildren(t: TreeNode, c: Cache, e: Entry)
    requires WellFormed(t) && ReachFrom(t, 0) <= c.Keys
    requires forall j :: 0 <= j < |t.children| && t.children[j].visible ==> Sound(t.children[j], c)
    ensures forall j :: 0 <= j < |t.children| && t.children[j].visible ==> Sound(t.children[j], c[t.id := e])
  {
    forall j | 0 <= j < |t.children| && t.children[j].visible
      ensures Sound(t.children[j], c[t.id := e])
    {
      ChildSeparated(t, j);
      ChildReach(t, j);
      SoundFrame(t.children[j], c, c[t.id := e]);
    }
  }

  /** Refreshing child `i` leaves its siblings' subtrees sound. */
  lemma SiblingsKeepSound(t: TreeNode, i: nat, c: Cache, c': Cache)
    requires WellFormed(t) && i < |t.children| && ReachFrom(t, 0) <= c.Keys && c'.Keys == c.Keys
    requires forall j :: 0 <= j < |t.children| && t.children[j].visible ==> Sound(t.children[j], c)
    requires Sound(t.children[i], c')
    requires forall k :: k in c && k !in Reach(t.children[i]) ==> c'[k] == c[k]
    ensures forall j :: 0 <= j < |t.children| && t.children[j].visible ==> Sound(t.children[j], c')
  {
    forall j | 0 <= j < |t.children| && t.children[j].visible && j != i
      ensures Sound(t.children[j], c')
    {
      ChildSeparated(t, j);
      ChildReach(t, j);
      SoundFrame(t.children[j], c, c');
    }
  }

  /** Every visible child of `t` has an entity different from `t`'s. */
  lemma ChildrenNotParent(t: TreeNode)
    requires WellFormed(t)
    ensures forall j :: 0 <= j < |t.children| && t.children[j].visible ==> t.children[j].id != t.id
  {
    forall j | 0 <= j < |t.children| && t.children[j].visible
      ensures t.children[j].id != t.id
    {
      ChildSeparated(t, j);
    }
  }

  /** The parent's entry stays the fold of the children handled so far, and
      the children's subtrees stay sound, through the rest of the loop. */
  lemma {:induction false} FoldSound(t: TreeNode, i: nat, c: Cache, b: nat)
    requires i <= |t.children| && WellFormed(t)
    requires t.id in c && c[t.id].dirty && ReachFrom(t, 0) <= c.Keys
    requires ChildrenIn(t, c)
    requires forall j :: 0 <= j < i && t.children[j].visible ==> !c[t.children[j].id].dirty
    requires c[t.id].rect == FoldUpTo(t, i, c)
    requires forall j :: 0 <= j < |t.children| && t.children[j].visible ==> Sound(t.children[j], c)
    ensures ReachFrom(t, i) <= c.Keys
    ensures var r := FoldChildren(t, i, c, b).0;
      ChildrenIn(t, r) &&
      (forall j :: 0 <= j < |t.children| && t.children[j].visible ==> Sound(t.children[j], r)) &&
      (!r[t.id].dirty ==> ChildrenClean(t, r) && r[t.id].rect == FoldUpTo(t, |t.children|, r))
    decreases t, 0, |t.children| - i
  {
    ReachFromShrinks(t, 0, i);
    ChildrenNotParent(t);
    if i == |t.children| {
      var r := c[t.id := c[t.id].(dirty := false)];
      ParentWriteKeepsChildren(t, c, c[t.id].(dirty := false));
      FoldUpToFrame(t, i, c, r);
    } else if !t.children[i].visible {
      FoldSound(t, i + 1, c, b);
    } else {
      FoldSoundStep(t, i, c, b);
    }
  }

  lemma {:induction false} FoldSoundStep(t: TreeNode, i: nat, c: Cache, b: nat)
    requires i < |t.children| && t.children[i].visible && WellFormed(t)
    requires t.id in c && c[t.id].dirty && ReachFrom(t, 0) <= c.Keys
    requires ChildrenIn(t, c)
    requires forall j :: 0 <= j < i && t.children[j].visible ==> !c[t.children[j].id].dirty
    requires c[t.id].rect == FoldUpTo(t, i, c)
    requires forall j :: 0 <= j < |t.children| && t.children[j].visible ==> Sound(t.children[j], c)
    ensures ReachFrom(t, i) <= c.Keys
    ensures var r := FoldChildren(t, i, c, b).0;
      ChildrenIn(t, r) &&
      (forall j :: 0 <= j < |t.children| && t.children[j].visible ==> Sound(t.children[j], r)) &&
      (!r[t.id].dirty ==> ChildrenClean(t, r) && r[t.id].rect == FoldUpTo(t, |t.children|, r))
    decreases t, 0, |t.children| - i, 0
  {
    ReachFromShrinks(t, 0, i);
    ChildrenNotParent(t);
    var ch := t.children[i];
    ChildSeparated(t, i);
    var (c', b') := Refresh(ch, c, b);
    RefreshSound(ch, c, b);
    SiblingsKeepSound(t, i, c, c');
    if !c'[ch.id].dirty {
      var e := c'[t.id].(rect := Join(c'[t.id].rect, c'[ch.id].rect));
      var c2 := c'[t.id := e];
      ParentWriteKeepsChildren(t, c', e);
      FoldUpToFrame(t, i, c, c2);
      ReachFromShrinks(t, 0, i + 1);
      FoldSound(t, i + 1, c2, b');
    }
  }

  lemma {:induction false} SoundAggregates(t: TreeNode, c: Cache)
    requires Sound(t, c) && !c[t.id].dirty
    ensures c[t.id].rect == Hull(SubtreeRects(t))
    decreases t, 1
  {
    FoldIsHull(t, |t.children|, c);
  }

  lemma {:induction false} FoldIsHull(t: TreeNode, i: nat, c: Cache)
    requires i <= |t.children| && Sound(t, c) && !c[t.id].dirty
    ensures FoldUpTo(t, i, c) == Hull([OwnRect(t)] + RectsUpTo(t, i))
    decreases t, 0, i
  {
    if i > 0 {
      FoldIsHull(t, i - 1, c);
      var ch := t.children[i - 1];
      if ch.visible {
        var a := [OwnRect(t)] + RectsUpTo(t, i - 1);
        SoundAggregates(ch, c);
        HullConcat(a, SubtreeRects(ch));
        RectsStep(t, i);
      } else {
        RectsStep(t, i);
        assert [OwnRect(t)] + RectsUpTo(t, i) == [OwnRect(t)] + RectsUpTo(t, i - 1);
      }
    }
  }

  /** With a budget at least the number of reachable nodes, one refresh of a
      sound cache leaves the root clean, holding the smallest box around the
      node and all its visible descendants; a further refresh, whatever its
      budget, changes nothing. */
  lemma RefreshConverges(t: TreeNode, c: Cache, b: nat, b2: nat)
    requires WellFormed(t) && Reach(t) <= c.Keys && Sound(t, c)
    requires b >= Size(t)
    ensures var r := Refresh(t, c, b).0;
      !r[t.id].dirty && r[t.id].rect == Hull(SubtreeRects(t)) &&
      Refresh(t, r, b2) == (r, b2)
  {
    RefreshSound(t, c, b);
    SoundAggregates(t, Refresh(t, c, b).0);
  }

  // ---------------------------------------------------------------------
  // Initialisation

  /** Entities of the visible nodes of the subtree, whatever the visibility
      of their ancestors (the child query only asks the node itself to be
      visible). */
  ghost function VisibleIds(t: TreeNode): set<Entity>
    decreases t, 1
  {
    (if t.visible then {t.id} else {}) + VisibleIdsFrom(t, 0)
  }

  ghost function VisibleIdsFrom(t: TreeNode, i: nat): set<Entity>
    requires i <= |t.children|
    decreases t, 0, |t.children| - i
  {
    if i == |t.children| then {} else VisibleIds(t.children[i]) + VisibleIdsFrom(t, i + 1)
  }

  /** The entry the initialiser creates for node `t` under parent `parent`. */
  function Fresh(t: TreeNode, parent: Entity): Entry
  {
    Entry(OwnRect(t), true, parent, t.id)
  }

  /** The entries `Initialize` creates for the subtree of `t`, whose parent
      entity is `parent` (the zero entity for a root). */
  function InitTree(t: TreeNode, parent: Entity): (m: Cache)
    ensures m.Keys == VisibleIds(t)
    ensures forall k :: k in m ==> m[k].dirty
    decreases t, 1
  {
    (if t.visible then map[t.id := Fresh(t, parent)] else map[]) + InitFrom(t, 0)
  }

  function InitFrom(t: TreeNode, i: nat): (m: Cache)
    requires i <= |t.children|
    ensures m.Keys == VisibleIdsFrom(t, i)
    ensures forall k :: k in m ==> m[k].dirty
    decreases t, 0, |t.children| - i
  {
    if i == |t.children| then map[] else InitTree(t.children[i], t.id) + InitFrom(t, i + 1)
  }

  /** Every visible node of the subtree of `t` has in `m` the entry the
      initialiser makes for it: its own box, dirty, its parent's entity. */
  ghost predicate HasFreshEntries(m: Cache, t: TreeNode, parent: Entity)
    decreases t
  {
    (t.visible ==> t.id in m && m[t.id] == Fresh(t, parent)) &&
    forall j :: 0 <= j < |t.children| ==> HasFreshEntries(m, t.children[j], t.id)
  }

  lemma {:induction false} VisibleWithinIds(t: TreeNode)
    ensures VisibleIds(t) <= AllIds(t)
    decreases t, 1
  {
    VisibleFromWithinIds(t, 0);
  }

  lemma {:induction false} VisibleFromWithinIds(t: TreeNode, i: nat)
    requires i <= |t.children|
    ensures VisibleIdsFrom(t, i) <= IdsFrom(t, i)
    decreases t, 0, |t.children| - i
  {
    if i < |t.children| {
      VisibleWithinIds(t.children[i]);
      VisibleFromWithinIds(t, i + 1);
    }
  }

  /** Fresh entries survive in any map that agrees on the subtree. */
  lemma {:induction false} FreshFrame(m1: Cache, m2: Cache, t: TreeNode, parent: Entity)
    requires HasFreshEntries(m1, t, parent)
    requires forall k :: k in VisibleIds(t) ==> k in m1 && k in m2 && m2[k] == m1[k]
    ensures HasFreshEntries(m2, t, parent)
    decreases t
  {
    forall j | 0 <= j < |t.children|
      ensures HasFreshEntries(m2, t.children[j], t.id)
    {
      VisibleIdsOfChild(t, 0, j);
      FreshFrame(m1, m2, t.children[j], t.id);
    }
  }

  lemma {:induction false} VisibleIdsFromShrinks(t: TreeNode, i: nat, j: nat)
    requires i <= j <= |t.children|
    ensures VisibleIdsFrom(t, j) <= VisibleIdsFrom(t, i)
    decreases j - i
  {
    if i < j {
      VisibleIdsFromShrinks(t, i + 1, j);
    }
  }

  lemma VisibleIdsOfChild(t: TreeNode, k: nat, j: nat)
    requires k <= j < |t.children|
    ensures VisibleIds(t.children[j]) <= VisibleIdsFrom(t, k) <= VisibleIds(t)
  {
    VisibleIdsFromShrinks(t, k, j);
    VisibleIdsFromShrinks(t, 0, k);
  }

  /** `Initialize` gives every visible node of a well-formed subtree exactly
      its fresh entry. */
  lemma {:induction false} InitTreeFresh(t: TreeNode, parent: Entity)
    requires WellFormed(t)
    ensures HasFreshEntries(InitTree(t, parent), t, parent)
    decreases t, 1
  {
    var m := InitTree(t, parent);
    VisibleFromWithinIds(t, 0);
    forall j | 0 <= j < |t.children|
      ensures HasFreshEntries(m, t.children[j], t.id)
    {
      InitFromFresh(t, 0, j);
      VisibleIdsOfChild(t, 0, j);
      FreshFrame(InitFrom(t, 0), m, t.children[j], t.id);
    }
  }

  lemma {:induction false} InitFromFresh(t: TreeNode, k: nat, j: nat)
    requires WellFormed(t) && k <= j < |t.children|
    ensures HasFreshEntries(InitFrom(t, k), t.children[j], t.id)
    decreases t, 0, j - k
  {
    ChildIdsWithin(t, 0, j);
    var m := InitFrom(t, k);
    if k == j {
      InitTreeFresh(t.children[j], t.id);
      VisibleWithinIds(t.children[j]);
      VisibleFromWithinIds(t, j + 1);
      FreshFrame(InitTree(t.children[j], t.id), m, t.children[j], t.id);
    } else {
      InitFromFresh(t, k + 1, j);
      VisibleIdsOfChild(t, k + 1, j);
      FreshFrame(InitFrom(t, k + 1), m, t.children[j], t.id);
    }
  }

  /** Every entry is dirty after initialisation, so the cache invariant holds
      for any visible root. */
  lemma {:induction false} AllDirtySound(t: TreeNode, c: Cache)
    requires forall k :: k in Reach(t) ==> k in c && c[k].dirty
    ensures Sound(t, c)
    decreases t
  {
    forall j | 0 <= j < |t.children| && t.children[j].visible
      ensures t.children[j].id in c && Sound(t.children[j], c)
    {
      ChildReach(t, j);
      AllDirtySound(t.children[j], c);
    }
  }

  lemma {:induction false} ReachWithinVisible(t: TreeNode)
    requires t.visible
    ensures Reach(t) <= VisibleIds(t)
    decreases t, 1
  {
    ReachFromWithinVisible(t, 0);
  }

  lemma {:induction false} ReachFromWithinVisible(t: TreeNode, i: nat)
    requires i <= |t.children|
    ensures ReachFrom(t, i) <= VisibleIdsFrom(t, i)
    decreases t, 0, |t.children| - i
  {
    if i < |t.children| {
      if t.children[i].visible {
        ReachWithinVisible(t.children[i]);
      }
      ReachFromWithinVisible(t, i + 1);
    }
  }

  // ---------------------------------------------------------------------
  // A forest of roots

  /** The roots are parentless nodes; every entity occurs once in the forest. */
  ghost predicate ForestWellFormed(roots: seq<TreeNode>)
  {
    (forall j :: 0 <= j < |roots| ==> WellFormed(roots[j])) &&
    (forall j, k :: 0 <= j < k < |roots| ==> AllIds(roots[j]) !! AllIds(roots[k]))
  }

  ghost function ForestVisibleIds(roots: seq<TreeNode>): set<Entity>
  {
    if roots == [] then {} else ForestVisibleIds(roots[..|roots| - 1]) + VisibleIds(roots[|roots| - 1])
  }

  /** `Initialize`: the entries of every root's subtree, roots with the zero
      entity as parent. */
  function Initialize(roots: seq<TreeNode>): (m: Cache)
    ensures m.Keys == ForestVisibleIds(roots)
    ensures forall k :: k in m ==> m[k].dirty
  {
    if roots == [] then map[]
    else Initialize(roots[..|roots| - 1]) + InitTree(roots[|roots| - 1], ZeroEntity)
  }

  lemma {:induction false} ForestIdsWithin(roots: seq<TreeNode>, j: nat)
    requires j < |roots|
    ensures VisibleIds(roots[j]) <= ForestVisibleIds(roots)
  {
    var init := roots[..|roots| - 1];
    if j < |roots| - 1 {
      assert init[j] == roots[j];
      ForestIdsWithin(init, j);
    }
  }

  lemma {:induction false} ForestIdsApart(roots: seq<TreeNode>, k: nat)
    requires ForestWellFormed(roots) && k <= |roots|
    ensures forall j :: k <= j < |roots| ==> ForestVisibleIds(roots[..k]) !! VisibleIds(roots[j])
  {
    if k > 0 {
      var pre := roots[..k - 1];
      assert roots[..k][..k - 1] == pre;
      ForestIdsApart(roots, k - 1);
      forall j | k <= j < |roots|
        ensures ForestVisibleIds(roots[..k]) !! VisibleIds(roots[j])
      {
        VisibleWithinIds(roots[k - 1]);
        VisibleWithinIds(roots[j]);
      }
    }
  }

  /** Every visible node of the forest gets its fresh entry, roots with the
      zero entity as parent, and nothing else gets one. */
  lemma {:induction false} InitializeFresh(roots: seq<TreeNode>)
    requires ForestWellFormed(roots)
    ensures forall j :: 0 <= j < |roots| ==> HasFreshEntries(Initialize(roots), roots[j], ZeroEntity)
  {
    if roots != [] {
      var n := |roots| - 1;
      var init := roots[..n];
      var m := Initialize(roots);
      assert ForestWellFormed(init) by {
        assert forall j :: 0 <= j < n ==> init[j] == roots[j];
      }
      InitializeFresh(init);
      InitTreeFresh(roots[n], ZeroEntity);
      FreshFrame(InitTree(roots[n], ZeroEntity), m, roots[n], ZeroEntity);
      forall j | 0 <= j < n
        ensures HasFreshEntries(m, roots[j], ZeroEntity)
      {
        assert init[j] == roots[j];
        ForestIdsWithin(init, j);
        ForestIdsApart(roots, n);
        assert roots[..n] == init;
        FreshFrame(Initialize(init), m, roots[j], ZeroEntity);
      }
    }
  }

  // ---------------------------------------------------------------------
  // Update over the roots

  ghost function ForestSize(roots: seq<TreeNode>, i: nat): nat
    requires i <= |roots|
    decreases |roots| - i
  {
    if i == |roots| then 0 else (if roots[i].visible then Size(roots[i]) else 0) + ForestSize(roots, i + 1)
  }

  ghost predicate Covered(roots: seq<TreeNode>, c: Cache)
  {
    forall j :: 0 <= j < |roots| && roots[j].visible ==> WellFormed(roots[j]) && Reach(roots[j]) <= c.Keys
  }

  /** `Update`: the visible roots from index `i` on are refreshed in turn,
      sharing one deadline. */
  function UpdateRoots(roots: seq<TreeNode>, i: nat, cache: Cache, budget: nat): (res: (Cache, nat))
    requires i <= |roots| && Covered(roots, cache)
    ensures res.0.Keys == cache.Keys
    ensures res.1 <= budget && budget - res.1 <= ForestSize(roots, i)
    ensures forall k :: k in cache && !cache[k].dirty ==> res.0[k] == cache[k]
    ensures forall k :: k in cache ==> res.0[k].parentNode == cache[k].parentNode && res.0[k].rootNode == cache[k].rootNode
    ensures budget == 0 ==> res.0 == cache
    decreases |roots| - i
  {
    if i == |roots| then (cache, budget)
    else if !roots[i].visible then UpdateRoots(roots, i + 1, cache, budget)
    else
      var (cache', budget') := Refresh(roots[i], cache, budget);
      UpdateRoots(roots, i + 1, cache', budget')
  }

  function Update(roots: seq<TreeNode>, cache: Cache, budget: nat): (res: (Cache, nat))
    requires Covered(roots, cache)
    ensures res.0.Keys == cache.Keys
    ensures res.1 <= budget && budget - res.1 <= ForestSize(roots, 0)
    ensures forall k :: k in cache && !cache[k].dirty ==> res.0[k] == cache[k]
    ensures budget == 0 ==> res.0 == cache
  {
    UpdateRoots(roots, 0, cache, budget)
  }

  ghost predicate RootsSound(roots: seq<TreeNode>, c: Cache)
  {
    forall j :: 0 <= j < |roots| && roots[j].visible ==> Sound(roots[j], c)
  }

  ghost predicate RootsSettled(roots: seq<TreeNode>, i: nat, c: Cache)
    requires i <= |roots| && RootsSound(roots, c)
  {
    forall j :: 0 <= j < i && roots[j].visible ==> !c[roots[j].id].dirty
  }

  lemma {:induction false} UpdateRootsConverges(roots: seq<TreeNode>, i: nat, c: Cache, b: nat)
    requires i <= |roots| && ForestWellFormed(roots) && Covered(roots, c)
    requires RootsSound(roots, c) && RootsSettled(roots, i, c)
    requires b >= ForestSize(roots, i)
    ensures var r := UpdateRoots(roots, i, c, b).0;
      RootsSound(roots, r) && RootsSettled(roots, |roots|, r)
    decreases |roots| - i
  {
    if i < |roots| {
      if !roots[i].visible {
        UpdateRootsConverges(roots, i + 1, c, b);
      } else {
        var (c', b') := Refresh(roots[i], c, b);
        RootStepSound(roots, i, c, b);
        RootStepSettled(roots, i, c, b);
        UpdateRootsConverges(roots, i + 1, c', b');
      }
    }
  }

  /** Refreshing one visible root keeps every visible root sound. */
  lemma RootStepSound(roots: seq<TreeNode>, i: nat, c: Cache, b: nat)
    requires i < |roots| && roots[i].visible && ForestWellFormed(roots) && Covered(roots, c)
    requires RootsSound(roots, c)
    ensures var c' := Refresh(roots[i], c, b).0;
      Covered(roots, c') && RootsSound(roots, c')
  {
    var c' := Refresh(roots[i], c, b).0;
    RefreshSound(roots[i], c, b);
    forall j | 0 <= j < |roots| && roots[j].visible && j != i
      ensures Sound(roots[j], c')
    {
      ReachWithinIds(roots[i]);
      ReachWithinIds(roots[j]);
      SoundFrame(roots[j], c, c');
    }
  }

  /** With enough polls left for the whole forest, refreshing root `i`
      settles it, and the roots before it stay settled. */
  lemma RootStepSettled(roots: seq<TreeNode>, i: nat, c: Cache, b: nat)
    requires i < |roots| && roots[i].visible && ForestWellFormed(roots) && Covered(roots, c)
    requires RootsSound(roots, c) && RootsSettled(roots, i, c)
    requires b >= ForestSize(roots, i)
    ensures var (c', b') := Refresh(roots[i], c, b);
      RootsSound(roots, c') && RootsSettled(roots, i + 1, c') && b' >= ForestSize(roots, i + 1)
  {
    RootStepSound(roots, i, c, b);
    var (c', b') := Refresh(roots[i], c, b);
    assert !c'[roots[i].id].dirty;
  }

  /** A frame that polls the deadline fewer times than there are reachable
      nodes leaves, right after initialisation, every visible root holding
      the smallest box around its visible subtree. */
  lemma InitializeThenUpdate(roots: seq<TreeNode>, b: nat)
    requires ForestWellFormed(roots) && b >= ForestSize(roots, 0)
    ensures Covered(roots, Initialize(roots))
    ensures var r := Update(roots, Initialize(roots), b).0;
      forall j :: 0 <= j < |roots| && roots[j].visible ==>
        !r[roots[j].id].dirty && r[roots[j].id].rect == Hull(SubtreeRects(roots[j]))
  {
    var m := Initialize(roots);
    forall j | 0 <= j < |roots| && roots[j].visible
      ensures Reach(roots[j]) <= m.Keys && Sound(roots[j], m)
    {
      ReachWithinVisible(roots[j]);
      ForestIdsWithin(roots, j);
      AllDirtySound(roots[j], m);
    }
    UpdateRootsConverges(roots, 0, m, b);
    var r := Update(roots, m, b).0;
    forall j | 0 <= j < |roots| && roots[j].visible
      ensures r[roots[j].id].rect == Hull(SubtreeRects(roots[j]))
    {
      SoundAggregates(roots[j], r);
    }
  }
}

=== FILE: go_arith.dfy ===
/** Go's integer `/` and `%` truncate toward zero; Dafny's are Euclidean.
    The two agree on non-negative dividends, and the texture-slot code
    evaluates `(n - 1) / k` with `n` possibly 0, so the difference matters. */
module GoArith {

  /** Go's `a / b`: the quotient rounded toward zero. */
  function Quot(a: int, b: int): int
    requires b > 0
  {
    if a >= 0 then a / b else -((-a) / b)
  }

  /** Go's `a % b`: takes the sign of the dividend. */
  function Rem(a: int, b: int): int
    requires b > 0
  {
    if a >= 0 then a % b else -((-a) % b)
  }

  /** Go's quotient and remainder recompose the dividend, the remainder has
      the dividend's sign, and the quotient is rounded toward zero. */
  lemma QuotRem(a: int, b: int)
    requires b > 0
    ensures Quot(a, b) * b + Rem(a, b) == a
    ensures a >= 0 ==> 0 <= Rem(a, b) < b
    ensures a < 0 ==> -b < Rem(a, b) <= 0
  {
    if a < 0 {
      assert (-a) / b * b + (-a) % b == -a;
      assert Quot(a, b) * b == -((-a) / b * b);
    }
  }
}

=== FILE: graph.dfy ===
/** The generic graph container: an indexed node list, a map from node id to
    index, and one set of successor indices per node. Failed assertions in
    the code (`Assert`, a fatal log) and index panics are `Failure`s. */
module Graph {
  import opened Wrappers

  /** `NodeID`, the function giving a node its id, is passed to each
      operation alongside the graph. */
  datatype Graph<N, I> = Graph(nodes: seq<N>, lookup: map<I, int>, edges: seq<set<int>>)

  function Empty<N, I>(): Graph<N, I>
  {
    Graph([], map[], [])
  }

  /** One edge set per node, the lookup sends each node's id to its index
      and only to indices of nodes, and edges join node indices. */
  ghost predicate Valid<N, I>(g: Graph<N, I>, nodeId: N -> I)
  {
    |g.nodes| == |g.edges| &&
    (forall i :: 0 <= i < |g.nodes| ==> nodeId(g.nodes[i]) in g.lookup && g.lookup[nodeId(g.nodes[i])] == i) &&
    (forall k :: k in g.lookup ==> 0 <= g.lookup[k] < |g.nodes| && nodeId(g.nodes[g.lookup[k]]) == k) &&
    (forall i, j :: 0 <= i < |g.edges| && j in g.edges[i] ==> 0 <= j < |g.nodes|)
  }

  lemma EmptyValid<N, I>(nodeId: N -> I)
    ensures Valid(Empty<N, I>(), nodeId)
  {
  }

  predicate HasNode<N, I>(g: Graph<N, I>, nodeId: N -> I, n: N)
  {
    nodeId(n) in g.lookup
  }

  /** The index of an id: `Lookup` read as a Go map, 0 when absent. */
  function IdIndex<I>(lookup: map<I, int>, id: I): int
  {
    if id in lookup then lookup[id] else 0
  }

  /** `NodeForId`: fatal when the id is unknown. */
  function NodeForId<N, I>(g: Graph<N, I>, nodeId: N -> I, id: I): (r: Result<N, string>)
    requires Valid(g, nodeId)
    ensures r.Failure? <==> id !in g.lookup
    ensures r.Success? ==> r.value in g.nodes && nodeId(r.value) == id
  {
    if id !in g.lookup then Failure("no node with id")
    else Success(g.nodes[g.lookup[id]])
  }

  predicate HasEdge<N, I>(g: Graph<N, I>, nodeId: N -> I, a: N, b: N)
    requires Valid(g, nodeId)
  {
    HasNode(g, nodeId, a) && HasNode(g, nodeId, b) && g.lookup[nodeId(b)] in g.edges[g.lookup[nodeId(a)]]
  }

  /** In a valid graph, a node is present exactly when some stored node
      carries its id. */
  lemma HasNodeIffStored<N, I>(g: Graph<N, I>, nodeId: N -> I, n: N)
    requires Valid(g, nodeId)
    ensures HasNode(g, nodeId, n) <==> exists i :: 0 <= i < |g.nodes| && nodeId(g.nodes[i]) == nodeId(n)
  {
    if HasNode(g, nodeId, n) {
      var i := g.lookup[nodeId(n)];
      assert 0 <= i < |g.nodes| && nodeId(g.nodes[i]) == nodeId(n);
    }
  }

  /** In a valid graph, an edge is present exactly when the stored nodes
      carrying the two ids are joined in the edge sets. */
  lemma HasEdgeIffJoined<N, I>(g: Graph<N, I>, nodeId: N -> I, a: N, b: N)
    requires Valid(g, nodeId)
    ensures HasEdge(g, nodeId, a, b) <==>
      exists i, j :: 0 <= i < |g.nodes| && 0 <= j < |g.nodes| &&
        nodeId(g.nodes[i]) == nodeId(a) && nodeId(g.nodes[j]) == nodeId(b) && j in g.edges[i]
  {
    if HasEdge(g, nodeId, a, b) {
      var i, j := g.lookup[nodeId(a)], g.lookup[nodeId(b)];
      assert nodeId(g.nodes[i]) == nodeId(a) && nodeId(g.nodes[j]) == nodeId(b) && j in g.edges[i];
    }
  }

  /** `addNode`: appends the node, points its id at the new index, and gives
      it an empty edge set. */
  function InsertNode<N, I>(g: Graph<N, I>, nodeId: N -> I, n: N): (g': Graph<N, I>)
    requires Valid(g, nodeId) && !HasNode(g, nodeId, n)
    ensures Valid(g', nodeId)
    ensures g'.nodes == g.nodes + [n] && g'.edges == g.edges + [{}]
    ensures g'.lookup == g.lookup[nodeId(n) := |g.nodes|]
    ensures HasNode(g', nodeId, n)
  {
    Graph(g.nodes + [n], g.lookup[nodeId(n) := |g.nodes|], g.edges + [{}])
  }

  /** `AddNode`: fatal when a node with the same id exists. */
  function AddNode<N, I>(g: Graph<N, I>, nodeId: N -> I, n: N): (r: Result<Graph<N, I>, string>)
    requires Valid(g, nodeId)
    ensures r.Failure? <==> HasNode(g, nodeId, n)
    ensures r.Success? ==> Valid(r.value, nodeId) && r.value == InsertNode(g, nodeId, n)
  {
    if HasNode(g, nodeId, n) then Failure("node exists") else Success(InsertNode(g, nodeId, n))
  }

  /** `addEdge`: records the edge; nodes and lookup stay as they are. */
  function InsertEdge<N, I>(g: Graph<N, I>, nodeId: N -> I, a: N, b: N): (g': Graph<N, I>)
    requires Valid(g, nodeId) && HasNode(g, nodeId, a) && HasNode(g, nodeId, b)
    ensures Valid(g', nodeId)
    ensures g'.nodes == g.nodes && g'.lookup == g.lookup && |g'.edges| == |g.edges|
    ensures g'.edges[g.lookup[nodeId(a)]] == g.edges[g.lookup[nodeId(a)]] + {g.lookup[nodeId(b)]}
    ensures forall i :: 0 <= i < |g.edges| && i != g.lookup[nodeId(a)] ==> g'.edges[i] == g.edges[i]
    ensures HasEdge(g', nodeId, a, b)
  {
    var i := g.lookup[nodeId(a)];
    g.(edges := g.edges[i := g.edges[i] + {g.lookup[nodeId(b)]}])
  }

  function EnsureNode<N, I>(g: Graph<N, I>, nodeId: N -> I, n: N): (g': Graph<N, I>)
    requires Valid(g, nodeId)
    ensures Valid(g', nodeId) && HasNode(g', nodeId, n)
    ensures |g'.nodes| >= |g.nodes| && |g'.edges| >= |g.edges|
    ensures g'.nodes[..|g.nodes|] == g.nodes
    ensures forall i :: 0 <= i < |g.edges| ==> g'.edges[i] == g.edges[i]
    ensures forall k :: k in g.lookup ==> k in g'.lookup && g'.lookup[k] == g.lookup[k]
    ensures HasNode(g, nodeId, n) ==> g' == g
  {
    if HasNode(g, nodeId, n) then g else InsertNode(g, nodeId, n)
  }

  /** Inserting a missing node adds no edge between existing nodes, and
      none at the new node. */
  lemma EnsureNodeKeepsEdges<N, I>(g: Graph<N, I>, nodeId: N -> I, n: N, a: N, b: N)
    requires Valid(g, nodeId)
    ensures HasEdge(EnsureNode(g, nodeId, n), nodeId, a, b) <==> HasEdge(g, nodeId, a, b)
  {
  }

  /** The endpoints `AddEdge` has to insert, in insertion order: `a` when
      missing, then `b` when missing and not sharing `a`'s id. */
  function MissingEnds<N, I>(g: Graph<N, I>, nodeId: N -> I, a: N, b: N): seq<N>
  {
    (if HasNode(g, nodeId, a) then [] else [a]) +
    (if HasNode(g, nodeId, b) || nodeId(b) == nodeId(a) then [] else [b])
  }

  /** `AddEdge`: inserts missing endpoints, then records the edge; fatal when
      the edge is already there. */
  function AddEdge<N, I>(g: Graph<N, I>, nodeId: N -> I, a: N, b: N): (r: Result<Graph<N, I>, string>)
    requires Valid(g, nodeId)
    ensures r.Failure? <==> HasEdge(g, nodeId, a, b)
    ensures r.Success? ==> Valid(r.value, nodeId) && HasEdge(r.value, nodeId, a, b)
    ensures HasNode(g, nodeId, a) && HasNode(g, nodeId, b) && r.Success? ==> r.value == InsertEdge(g, nodeId, a, b)
  {
    var g1 := EnsureNode(g, nodeId, a);
    var g2 := EnsureNode(g1, nodeId, b);
    EnsureNodeKeepsEdges(g, nodeId, a, a, b);
    EnsureNodeKeepsEdges(g1, nodeId, b, a, b);
    if HasEdge(g2, nodeId, a, b) then
      Failure("edge exists")
    else
      Success(InsertEdge(g2, nodeId, a, b))
  }

  /** A successful `AddEdge` is pinned down completely: the node list gains
      exactly the missing endpoints, every edge set is the old one (empty for
      a new node), and only `a`'s set gains `b`'s index. The lookup is then
      fixed by `Valid`. */
  lemma AddEdgeShape<N, I>(g: Graph<N, I>, nodeId: N -> I, a: N, b: N)
    requires Valid(g, nodeId)
    ensures var r := AddEdge(g, nodeId, a, b);
      r.Success? ==>
        r.value.nodes == g.nodes + MissingEnds(g, nodeId, a, b) && |r.value.edges| == |r.value.nodes| &&
        forall i :: 0 <= i < |r.value.edges| ==>
          r.value.edges[i] ==
            (if i < |g.edges| then g.edges[i] else {}) +
            (if i == r.value.lookup[nodeId(a)] then {r.value.lookup[nodeId(b)]} else {})
  {
    var g2 := EnsureNode(EnsureNode(g, nodeId, a), nodeId, b);
    EnsureTwiceShape(g, nodeId, a, b);
    EnsureTwiceGrows(g, nodeId, a, b);
    if !HasEdge(g2, nodeId, a, b) {
      var g3 := InsertEdge(g2, nodeId, a, b);
      assert AddEdge(g, nodeId, a, b) == Success(g3);
      InsertEdgeShape(g2, nodeId, a, b);
      forall i | 0 <= i < |g3.edges|
        ensures g3.edges[i] ==
          (if i < |g.edges| then g.edges[i] else {}) + (if i == g3.lookup[nodeId(a)] then {g3.lookup[nodeId(b)]} else {})
      {
        assert g3.edges[i] == g2.edges[i] + (if i == g2.lookup[nodeId(a)] then {g2.lookup[nodeId(b)]} else {});
      }
    }
  }

  /** Recording an edge adds `b`'s index to `a`'s set and changes no other set. */
  lemma InsertEdgeShape<N, I>(g: Graph<N, I>, nodeId: N -> I, a: N, b: N)
    requires Valid(g, nodeId) && HasNode(g, nodeId, a) && HasNode(g, nodeId, b)
    ensures var g' := InsertEdge(g, nodeId, a, b);
      g'.lookup == g.lookup && |g'.edges| == |g.edges| &&
      forall i :: 0 <= i < |g.edges| ==>
        g'.edges[i] == g.edges[i] + (if i == g.lookup[nodeId(a)] then {g.lookup[nodeId(b)]} else {})
  {
  }

  /** Ensuring both endpoints appends exactly the missing ones, each with an
      empty edge set. */
  lemma EnsureTwiceShape<N, I>(g: Graph<N, I>, nodeId: N -> I, a: N, b: N)
    requires Valid(g, nodeId)
    ensures var g2 := EnsureNode(EnsureNode(g, nodeId, a), nodeId, b);
      g2.nodes == g.nodes + MissingEnds(g, nodeId, a, b) && |g2.edges| == |g2.nodes| &&
      forall i :: 0 <= i < |g2.edges| ==> g2.edges[i] == if i < |g.edges| then g.edges[i] else {}
  {
    var g1 := EnsureNode(g, nodeId, a);
    EnsureShape(g, nodeId, a);
    EnsureShape(g1, nodeId, b);
    assert HasNode(g1, nodeId, b) <==> HasNode(g, nodeId, b) || nodeId(b) == nodeId(a);
  }

  /** `EnsureNode` either changes nothing or appends exactly the node with an
      empty edge set. */
  lemma EnsureShape<N, I>(g: Graph<N, I>, nodeId: N -> I, n: N)
    requires Valid(g, nodeId)
    ensures var g' := EnsureNode(g, nodeId, n);
      g'.nodes == g.nodes + (if HasNode(g, nodeId, n) then [] else [n]) &&
      g'.edges == g.edges + (if HasNode(g, nodeId, n) then [] else [{}])
  {
    if HasNode(g, nodeId, n) {
      assert g.nodes + [] == g.nodes && g.edges + [] == g.edges;
    }
  }

  /** A successful `AddEdge` only grows the graph: earlier nodes keep their
      places and ids, and earlier edges stay. */
  lemma AddEdgeGrows<N, I>(g: Graph<N, I>, nodeId: N -> I, a: N, b: N)
    requires Valid(g, nodeId)
    ensures var r := AddEdge(g, nodeId, a, b);
      r.Success? ==>
        |r.value.nodes| >= |g.nodes| && |r.value.edges| >= |g.edges| &&
        r.value.nodes[..|g.nodes|] == g.nodes &&
        (forall k :: k in g.lookup ==> k in r.value.lookup && r.value.lookup[k] == g.lookup[k]) &&
        (forall i, j :: 0 <= i < |g.edges| && j in g.edges[i] ==> j in r.value.edges[i])
  {
    var g1 := EnsureNode(g, nodeId, a);
    var g2 := EnsureNode(g1, nodeId, b);
    EnsureTwiceGrows(g, nodeId, a, b);
    if !HasEdge(g2, nodeId, a, b) {
      var g3 := InsertEdge(g2, nodeId, a, b);
      assert AddEdge(g, nodeId, a, b) == Success(g3);
      InsertEdgeGrows(g2, nodeId, a, b);
    }
  }

  lemma EnsureTwiceGrows<N, I>(g: Graph<N, I>, nodeId: N -> I, a: N, b: N)
    requires Valid(g, nodeId)
    ensures var g2 := EnsureNode(EnsureNode(g, nodeId, a), nodeId, b);
      Valid(g2, nodeId) && HasNode(g2, nodeId, a) && HasNode(g2, nodeId, b) &&
      |g2.nodes| >= |g.nodes| && |g2.edges| >= |g.edges| &&
      g2.nodes[..|g.nodes|] == g.nodes &&
      (forall k :: k in g.lookup ==> k in g2.lookup && g2.lookup[k] == g.lookup[k]) &&
      (forall i :: 0 <= i < |g.edges| ==> g2.edges[i] == g.edges[i])
  {
    var g1 := EnsureNode(g, nodeId, a);
    var g2 := EnsureNode(g1, nodeId, b);
    assert g2.nodes[..|g.nodes|] == g1.nodes[..|g1.nodes|][..|g.nodes|];
  }

  lemma InsertEdgeGrows<N, I>(g: Graph<N, I>, nodeId: N -> I, a: N, b: N)
    requires Valid(g, nodeId) && HasNode(g, nodeId, a) && HasNode(g, nodeId, b)
    ensures forall i :: 0 <= i < |g.edges| ==> g.edges[i] <= InsertEdge(g, nodeId, a, b).edges[i]
  {
  }

  /** `AddEdgeId`: the endpoints are looked up by id (an unknown id reads as
      index 0, and an empty graph panics), then added as by `AddEdge`, which
      fails when that edge exists. */
  function AddEdgeId<N, I>(g: Graph<N, I>, nodeId: N -> I, a: I, b: I): (r: Result<Graph<N, I>, string>)
    requires Valid(g, nodeId)
    ensures |g.nodes| == 0 ==> r.Failure?
    ensures r.Success? ==> Valid(r.value, nodeId) && r.value.nodes == g.nodes && r.value.lookup == g.lookup
    ensures |g.nodes| > 0 ==>
      var ia, ib := IdIndex(g.lookup, a), IdIndex(g.lookup, b);
      (r.Success? <==> ib !in g.edges[ia]) &&
      (r.Success? ==> r.value.edges == g.edges[ia := g.edges[ia] + {ib}])
  {
    if |g.nodes| == 0 then Failure("index out of range")
    else
      var ia, ib := IdIndex(g.lookup, a), IdIndex(g.lookup, b);
      assert nodeId(g.nodes[ia]) in g.lookup && nodeId(g.nodes[ib]) in g.lookup;
      AddEdgeGrows(g, nodeId, g.nodes[ia], g.nodes[ib]);
      AddEdge(g, nodeId, g.nodes[ia], g.nodes[ib])
  }

  /** `Children`: the nodes at the indices in the node's edge set. The index
      is read as a Go map, so an unknown node gets node 0's children, and an
      empty graph panics. */
  function Children<N(==,!new), I>(g: Graph<N, I>, nodeId: N -> I, n: N): (r: Result<set<N>, string>)
    requires Valid(g, nodeId)
    ensures r.Failure? <==> |g.nodes| == 0
    ensures r.Success? ==> forall c :: c in r.value <==>
      exists j :: j in g.edges[IdIndex(g.lookup, nodeId(n))] && g.nodes[j] == c
  {
    if |g.nodes| == 0 then Failure("index out of range")
    else
      var i := IdIndex(g.lookup, nodeId(n));
      Success(set j | j in g.edges[i] :: g.nodes[j])
  }

  /** The edges of a graph built by `AddEdge` from the empty graph are the
      ones added, each once. */
  lemma AddEdgeFromEmpty<N, I>(nodeId: N -> I, a: N, b: N)
    ensures var r := AddEdge(Empty<N, I>(), nodeId, a, b);
      r.Success? && HasEdge(r.value, nodeId, a, b) &&
      (nodeId(a) == nodeId(b) ==> r.value.nodes == [a] && r.value.edges == [{0}]) &&
      (nodeId(a) != nodeId(b) ==> r.value.nodes == [a, b] && r.value.edges == [{1}, {}])
    ensures AddEdge(AddEdge(Empty<N, I>(), nodeId, a, b).value, nodeId, a, b).Failure?
  {
    var g0 := Empty<N, I>();
    var g1 := EnsureNode(g0, nodeId, a);
    assert g1.nodes == [a] && g1.edges == [{}] && g1.lookup == map[nodeId(a) := 0];
    var g2 := EnsureNode(g1, nodeId, b);
    if nodeId(a) == nodeId(b) {
      assert g2 == g1;
      assert !HasEdge(g2, nodeId, a, b);
      var g3 := InsertEdge(g2, nodeId, a, b);
      assert g3.edges[0] == {0};
      assert g3.edges == [{0}];
      assert AddEdge(g0, nodeId, a, b) == Success(g3);
    } else {
      assert g2.nodes == [a, b] && g2.edges == [{}, {}] && g2.lookup == map[nodeId(a) := 0, nodeId(b) := 1];
      assert !HasEdge(g2, nodeId, a, b);
      var g3 := InsertEdge(g2, nodeId, a, b);
      assert g3.edges[0] == {1} && g3.edges[1] == {};
      assert g3.edges == [{1}, {}];
      assert AddEdge(g0, nodeId, a, b) == Success(g3);
    }
  }
}

=== FILE: move.dfy ===
/** The mover system: every entity that has both a position and a move
    target is put at its target. */
module Move {
  import opened Components

  function TargetPosition(t: Target2): Position
  {
    Position(t.x, t.y)
  }

  /** `Mover.Update` over the position and target components. */
  function Update(positions: map<Entity, Position>, targets: map<Entity, Target2>): (ps: map<Entity, Position>)
    ensures ps.Keys == positions.Keys
    ensures forall e :: e in positions && e in targets ==> ps[e] == Position(targets[e].x, targets[e].y)
    ensures forall e :: e in positions && e !in targets ==> ps[e] == positions[e]
  {
    map e | e in positions :: if e in targets then TargetPosition(targets[e]) else positions[e]
  }

  /** Running the mover twice is the same as running it once. */
  lemma UpdateIdempotent(positions: map<Entity, Position>, targets: map<Entity, Target2>)
    ensures Update(Update(positions, targets), targets) == Update(positions, targets)
  {
  }
}

=== FILE: serialize.dfy ===
/** Normalisation of a decoded search tree: building the node graph from the
    list of tree nodes, and turning each list of edge-described shapes into
    polygons with a common bounding box. A fatal log is a `Failure`. */
module Serialize {
  import opened Wrappers
  import opened Components
  import opened Graph

  /** `math.MaxFloat32`, the start value of the running minima and (negated)
      maxima. */
  const MaxFloat32: real := 340282346638528859811704183484516925440.0

  const Uint64Modulus: int := 0x1_0000_0000_0000_0000

  /** A float32 that is not infinite. */
  predicate Finite32(x: real)
  {
    -MaxFloat32 <= x <= MaxFloat32
  }

  // ---------------------------------------------------------------------
  // Running extremes

  /** `min` folded over `xs` from `math.MaxFloat32`. */
  function MinOf(xs: seq<real>): (m: real)
    ensures m <= MaxFloat32
    ensures forall i :: 0 <= i < |xs| ==> m <= xs[i]
    ensures m == MaxFloat32 || exists i :: 0 <= i < |xs| && m == xs[i]
  {
    if |xs| == 0 then MaxFloat32 else Min(MinOf(xs[..|xs| - 1]), xs[|xs| - 1])
  }

  /** `max` folded over `xs` from `-math.MaxFloat32`. */
  function MaxOf(xs: seq<real>): (m: real)
    ensures m >= -MaxFloat32
    ensures forall i :: 0 <= i < |xs| ==> m >= xs[i]
    ensures m == -MaxFloat32 || exists i :: 0 <= i < |xs| && m == xs[i]
  {
    if |xs| == 0 then -MaxFloat32 else Max(MaxOf(xs[..|xs| - 1]), xs[|xs| - 1])
  }

  /** Over finite values, the running minimum is the least element. */
  lemma MinOfIsLeast(xs: seq<real>)
    requires |xs| > 0 && forall i :: 0 <= i < |xs| ==> Finite32(xs[i])
    ensures exists i :: 0 <= i < |xs| && MinOf(xs) == xs[i]
  {
    if MinOf(xs) == MaxFloat32 {
      assert MinOf(xs) <= xs[0] <= MaxFloat32;
    }
  }

  /** Over finite values, the running maximum is the greatest element. */
  lemma MaxOfIsGreatest(xs: seq<real>)
    requires |xs| > 0 && forall i :: 0 <= i < |xs| ==> Finite32(xs[i])
    ensures exists i :: 0 <= i < |xs| && MaxOf(xs) == xs[i]
  {
    if MaxOf(xs) == -MaxFloat32 {
      assert MaxOf(xs) >= xs[0] >= -MaxFloat32;
    }
  }

  // ---------------------------------------------------------------------
  // Tree nodes

  /** One placement of a catalogue shape in a decoded node. */
  datatype ShapePos = ShapePos(id: int, x: real, y: real, fillColor: string)

  /** A decoded tree node; `parentId` is a signed 64-bit value, -1 for a root. */
  datatype TNode = TNode(id: nat, parentId: int, plot: seq<ShapePos>)

  /** A node as the graph stores it. */
  datatype DisplayableNode = DisplayableNode(id: nat, text: string, transforms: seq<ShapeTransform>)

  function NodeId(n: DisplayableNode): nat
  {
    n.id
  }

  function Xs(plot: seq<ShapePos>): (xs: seq<real>)
    ensures |xs| == |plot| && forall i :: 0 <= i < |plot| ==> xs[i] == plot[i].x
  {
    seq(|plot|, i requires 0 <= i < |plot| => plot[i].x)
  }

  function Ys(plot: seq<ShapePos>): (ys: seq<real>)
    ensures |ys| == |plot| && forall i :: 0 <= i < |plot| ==> ys[i] == plot[i].y
  {
    seq(|plot|, i requires 0 <= i < |plot| => plot[i].y)
  }

  /** The placements of a node, in `Plot` order, shifted by the node's least
      X and least Y; a placement is highlighted iff its colour is "green". */
  function Transforms(plot: seq<ShapePos>): (ts: seq<ShapeTransform>)
    ensures |ts| == |plot|
    ensures forall i :: 0 <= i < |plot| ==>
      ts[i].id == plot[i].id && (ts[i].highlight <==> plot[i].fillColor == "green")
    ensures forall i :: 0 <= i < |plot| ==> ts[i].x >= 0.0 && ts[i].y >= 0.0
    ensures forall i, j :: 0 <= i < |plot| && 0 <= j < |plot| ==>
      ts[i].x - ts[j].x == plot[i].x - plot[j].x && ts[i].y - ts[j].y == plot[i].y - plot[j].y
  {
    var mx := MinOf(Xs(plot));
    var my := MinOf(Ys(plot));
    seq(|plot|, i requires 0 <= i < |plot| =>
      ShapeTransform(plot[i].id, plot[i].x - mx, plot[i].y - my, plot[i].fillColor == "green"))
  }

  /** With finite coordinates, the shifted placements touch both axes. */
  lemma TransformsTouchAxes(plot: seq<ShapePos>)
    requires |plot| > 0
    requires forall i :: 0 <= i < |plot| ==> Finite32(plot[i].x) && Finite32(plot[i].y)
    ensures exists i :: 0 <= i < |plot| && Transforms(plot)[i].x == 0.0
    ensures exists j :: 0 <= j < |plot| && Transforms(plot)[j].y == 0.0
  {
    var ts := Transforms(plot);
    MinOfIsLeast(Xs(plot));
    MinOfIsLeast(Ys(plot));
    var i :| 0 <= i < |plot| && MinOf(Xs(plot)) == Xs(plot)[i];
    var j :| 0 <= j < |plot| && MinOf(Ys(plot)) == Ys(plot)[j];
    assert ts[i].x == 0.0 && ts[j].y == 0.0;
  }

  /** The placeholder root that a leading nil entry becomes. */
  function Root(): DisplayableNode
  {
    DisplayableNode(0, "root", [])
  }

  /** `details` stands for `nodeDetailsText`, which is formatting. */
  function Display(n: TNode, details: TNode -> string): DisplayableNode
  {
    DisplayableNode(n.id, details(n), Transforms(n.plot))
  }

  /** The non-nil entries, displayed, in order. */
  function Present(entries: seq<Option<TNode>>, details: TNode -> string): seq<DisplayableNode>
  {
    if |entries| == 0 then []
    else
      var last := entries[|entries| - 1];
      Present(entries[..|entries| - 1], details) + (if last.Some? then [Display(last.value, details)] else [])
  }

  /** The nodes the graph should hold: the root placeholder when the first
      entry is nil, then every non-nil entry. */
  function Displayed(entries: seq<Option<TNode>>, details: TNode -> string): seq<DisplayableNode>
  {
    (if |entries| > 0 && entries[0].None? then [Root()] else []) + Present(entries, details)
  }

  predicate DistinctIds(ns: seq<DisplayableNode>)
  {
    forall i, j :: 0 <= i < j < |ns| ==> ns[i].id != ns[j].id
  }

  function IdSet(ns: seq<DisplayableNode>): set<nat>
  {
    set i | 0 <= i < |ns| :: ns[i].id
  }

  ghost predicate NoEdges<N, I>(g: Graph<N, I>)
  {
    forall i :: 0 <= i < |g.edges| ==> g.edges[i] == {}
  }

  /** The state of the first loop of `ToGraph`: the graph, the id-to-index
      `mapper`, and the running `index`. */
  datatype Loaded = Loaded(g: Graph<DisplayableNode, nat>, mapper: map<nat, nat>, index: nat)

  ghost predicate LoadedValid(st: Loaded)
  {
    Valid(st.g, NodeId) && NoEdges(st.g) && st.index == |st.g.nodes| &&
    st.mapper.Keys == st.g.lookup.Keys && forall k :: k in st.mapper ==> st.mapper[k] == st.g.lookup[k]
  }

  /** One iteration of the first loop. */
  function AddEntry(st: Loaded, entry: Option<TNode>, details: TNode -> string): (r: Result<Loaded, string>)
    requires LoadedValid(st)
    ensures r.Success? ==> LoadedValid(r.value)
  {
    match entry
    case None =>
      if st.index == 0 then
        match AddNode(st.g, NodeId, Root())
        case Failure(e) => Failure(e)
        case Success(g) => Success(Loaded(g, st.mapper[0 := 0], st.index + 1))
      else Success(st)
    case Some(n) =>
      match AddNode(st.g, NodeId, Display(n, details))
      case Failure(e) => Failure(e)
      case Success(g) => Success(Loaded(g, st.mapper[n.id := st.index], st.index + 1))
  }

  lemma PresentStep(entries: seq<Option<TNode>>, details: TNode -> string)
    requires |entries| > 0
    ensures var last := entries[|entries| - 1];
      Displayed(entries, details) == Displayed(entries[..|entries| - 1], details) +
        (match last
         case None => if |entries| == 1 then [Root()] else []
         case Some(n) => [Display(n, details)])
  {
    if |entries| > 1 {
      assert entries[..|entries| - 1][0] == entries[0];
    }
  }

  lemma {:induction false} DisplayedEmpty(entries: seq<Option<TNode>>, details: TNode -> string)
    ensures |Displayed(entries, details)| == 0 <==> |entries| == 0
  {
    if |entries| > 0 && entries[0].Some? {
      PresentHasFirst(entries, details);
    }
  }

  lemma {:induction false} PresentHasFirst(entries: seq<Option<TNode>>, details: TNode -> string)
    requires |entries| > 0 && entries[0].Some?
    ensures |Present(entries, details)| > 0
  {
    if |entries| > 1 {
      assert entries[..|entries| - 1][0] == entries[0];
      PresentHasFirst(entries[..|entries| - 1], details);
    }
  }

  /** A Go map read: the value stored at the key, or 0. */
  function Get(m: map<nat, nat>, k: nat): nat
  {
    if k in m then m[k] else 0
  }

  /** In a valid graph, a key is in the lookup iff some node carries it. */
  lemma LookupKeys(g: Graph<DisplayableNode, nat>)
    requires Valid(g, NodeId)
    ensures g.lookup.Keys == IdSet(g.nodes)
  {
    forall k | k in g.lookup
      ensures k in IdSet(g.nodes)
    {
      assert NodeId(g.nodes[g.lookup[k]]) == k;
    }
  }

  /** The first loop of `ToGraph`. It fails, fatally, exactly when two of the
      nodes to add share an id; otherwise the graph holds exactly those
      nodes, in order, and `mapper` agrees with the graph's lookup. */
  function AddNodes(entries: seq<Option<TNode>>, details: TNode -> string): (r: Result<Loaded, string>)
    ensures r.Success? <==> DistinctIds(Displayed(entries, details))
    ensures r.Success? ==> LoadedValid(r.value) && r.value.g.nodes == Displayed(entries, details)
  {
    if |entries| == 0 then Success(Loaded(Empty(), map[], 0))
    else
      var prefix := entries[..|entries| - 1];
      var last := entries[|entries| - 1];
      var rest := AddNodes(prefix, details);
      PresentStep(entries, details);
      match rest
      case Failure(e) =>
        DistinctPrefix(entries, details);
        Failure(e)
      case Success(st) =>
        AddEntryStep(st, entries, details);
        AddEntry(st, last, details)
  }

  /** Distinct ids in the displayed nodes stay distinct when the last entry
      is dropped. */
  lemma DistinctPrefix(entries: seq<Option<TNode>>, details: TNode -> string)
    requires |entries| > 0
    ensures DistinctIds(Displayed(entries, details)) ==> DistinctIds(Displayed(entries[..|entries| - 1], details))
  {
    PresentStep(entries, details);
    if DistinctIds(Displayed(entries, details)) {
      var ns := Displayed(entries, details);
      var ps := Displayed(entries[..|entries| - 1], details);
      assert ps == ns[..|ps|];
    }
  }

  /** One step of the first loop keeps the graph equal to the displayed
      prefix, and fails exactly on a repeated id. */
  lemma AddEntryStep(st: Loaded, entries: seq<Option<TNode>>, details: TNode -> string)
    requires |entries| > 0
    requires LoadedValid(st) && st.g.nodes == Displayed(entries[..|entries| - 1], details)
    requires DistinctIds(st.g.nodes)
    ensures var r := AddEntry(st, entries[|entries| - 1], details);
      (r.Success? <==> DistinctIds(Displayed(entries, details))) &&
      (r.Success? ==> r.value.g.nodes == Displayed(entries, details))
  {
    var prefix := entries[..|entries| - 1];
    PresentStep(entries, details);
    DisplayedEmpty(prefix, details);
    LookupKeys(st.g);
    var ns := Displayed(entries, details);
    match entries[|entries| - 1]
    case None =>
      if |entries| == 1 {
        assert ns == [Root()];
      } else {
        assert ns == st.g.nodes;
      }
    case Some(n) =>
      var d := Display(n, details);
      assert ns == st.g.nodes + [d];
      AppendDistinct(st.g.nodes, d);
  }

  /** Appending a node to distinct nodes keeps them distinct iff its id is
      new. */
  lemma AppendDistinct(ns: seq<DisplayableNode>, d: DisplayableNode)
    requires DistinctIds(ns)
    ensures DistinctIds(ns + [d]) <==> d.id !in IdSet(ns)
  {
    var ms := ns + [d];
    if d.id in IdSet(ns) {
      var i :| 0 <= i < |ns| && ns[i].id == d.id;
      assert ms[i].id == ms[|ns|].id;
    } else {
      forall i, j | 0 <= i < j < |ms|
        ensures ms[i].id != ms[j].id
      {
        if j == |ns| {
          assert ms[i].id in IdSet(ns);
        }
      }
    }
  }

  /** `uint64(n.ParentId)`, with -1 read as the root id 0. */
  function ParentOf(n: TNode): (p: nat)
    ensures p < Uint64Modulus
    ensures n.parentId == -1 ==> p == 0
    ensures 0 <= n.parentId < Uint64Modulus ==> p == n.parentId
    ensures -Uint64Modulus <= n.parentId < -1 ==> p == n.parentId + Uint64Modulus
  {
    if n.parentId == -1 then 0 else n.parentId % Uint64Modulus
  }

  /** The second loop of `ToGraph` as written: the edge for each non-nil
      entry is added with `AddEdgeId(mapper[parent], mapper[id])`, which
      hands insertion indices to a function that expects ids. */
  function AddEdgesAsWritten(g: Graph<DisplayableNode, nat>, mapper: map<nat, nat>, entries: seq<Option<TNode>>): (r: Result<Graph<DisplayableNode, nat>, string>)
    requires Valid(g, NodeId)
    ensures r.Success? ==> Valid(r.value, NodeId) && r.value.nodes == g.nodes && r.value.lookup == g.lookup
  {
    if |entries| == 0 then Success(g)
    else
      match AddEdgesAsWritten(g, mapper, entries[..|entries| - 1])
      case Failure(e) => Failure(e)
      case Success(g1) =>
        match entries[|entries| - 1]
        case None => Success(g1)
        case Some(n) => AddEdgeId(g1, NodeId, Get(mapper, ParentOf(n)), Get(mapper, n.id))
  }

  /** The second loop with the ids themselves passed to `AddEdgeId`. */
  function AddEdgesIntended(g: Graph<DisplayableNode, nat>, entries: seq<Option<TNode>>): (r: Result<Graph<DisplayableNode, nat>, string>)
    requires Valid(g, NodeId)
    ensures r.Success? ==> Valid(r.value, NodeId) && r.value.nodes == g.nodes && r.value.lookup == g.lookup
  {
    if |entries| == 0 then Success(g)
    else
      match AddEdgesIntended(g, entries[..|entries| - 1])
      case Failure(e) => Failure(e)
      case Success(g1) =>
        match entries[|entries| - 1]
        case None => Success(g1)
        case Some(n) => AddEdgeId(g1, NodeId, ParentOf(n), n.id)
  }

  /** `Tree.ToGraph` as written. */
  function ToGraph(entries: seq<Option<TNode>>, details: TNode -> string): (r: Result<Graph<DisplayableNode, nat>, string>)
    ensures !DistinctIds(Displayed(entries, details)) ==> r.Failure?
    ensures r.Success? ==> Valid(r.value, NodeId) && r.value.nodes == Displayed(entries, details)
  {
    match AddNodes(entries, details)
    case Failure(e) => Failure(e)
    case Success(st) => AddEdgesAsWritten(st.g, st.mapper, entries)
  }

  /** `Tree.ToGraph` with the edge ids corrected. */
  function ToGraphIntended(entries: seq<Option<TNode>>, details: TNode -> string): (r: Result<Graph<DisplayableNode, nat>, string>)
    ensures !DistinctIds(Displayed(entries, details)) ==> r.Failure?
    ensures r.Success? ==> Valid(r.value, NodeId) && r.value.nodes == Displayed(entries, details)
  {
    match AddNodes(entries, details)
    case Failure(e) => Failure(e)
    case Success(st) => AddEdgesIntended(st.g, entries)
  }

  /** The edges of a graph as index pairs. */
  ghost function EdgePairs<N, I>(g: Graph<N, I>): set<(int, int)>
  {
    set a, b | 0 <= a < |g.edges| && b in g.edges[a] :: (a, b)
  }

  /** The tree's parent-to-child pairs, as indices under `lookup`. */
  ghost function TreeEdges(lookup: map<nat, int>, entries: seq<Option<TNode>>): set<(int, int)>
  {
    if |entries| == 0 then {}
    else
      TreeEdges(lookup, entries[..|entries| - 1]) +
      (match entries[|entries| - 1]
       case None => {}
       case Some(n) => {(IdIndex(lookup, ParentOf(n)), IdIndex(lookup, n.id))})
  }

  lemma EdgePairsInsert<N, I>(g: Graph<N, I>, a: int, b: int)
    requires 0 <= a < |g.edges|
    ensures EdgePairs(g.(edges := g.edges[a := g.edges[a] + {b}])) == EdgePairs(g) + {(a, b)}
  {
  }

  /** Every pair of `TreeEdges` ends at the index of a non-nil entry. */
  lemma {:induction false} TreeEdgeTargets(lookup: map<nat, int>, entries: seq<Option<TNode>>, details: TNode -> string)
    ensures forall e :: e in TreeEdges(lookup, entries) ==>
      e.1 in (set c | c in IdSet(Present(entries, details)) :: IdIndex(lookup, c))
  {
    if |entries| > 0 {
      var prefix := entries[..|entries| - 1];
      TreeEdgeTargets(lookup, prefix, details);
      var ps := Present(prefix, details);
      var ns := Present(entries, details);
      assert ps == ns[..|ps|];
      assert IdSet(ps) <= IdSet(ns) by {
        forall c | c in IdSet(ps)
          ensures c in IdSet(ns)
        {
          var i :| 0 <= i < |ps| && ps[i].id == c;
          assert ns[i].id == c;
        }
      }
      match entries[|entries| - 1]
      case None =>
      case Some(n) =>
        assert ns[|ns| - 1].id == n.id;
        assert n.id in IdSet(ns);
    }
  }

  /** With ids passed as ids, a tree whose node ids are distinct and whose
      parents are all present gets exactly one edge per non-nil entry, from
      its parent to it, and no other. */
  lemma {:induction false} IntendedEdgesAreTree(g: Graph<DisplayableNode, nat>, entries: seq<Option<TNode>>, details: TNode -> string)
    requires Valid(g, NodeId) && NoEdges(g)
    requires DistinctIds(Present(entries, details))
    requires forall j :: 0 <= j < |Present(entries, details)| ==> Present(entries, details)[j].id in g.lookup
    requires forall i :: 0 <= i < |entries| && entries[i].Some? ==> ParentOf(entries[i].value) in g.lookup
    ensures AddEdgesIntended(g, entries).Success?
    ensures EdgePairs(AddEdgesIntended(g, entries).value) == TreeEdges(g.lookup, entries)
  {
    if |entries| == 0 {
      assert EdgePairs(g) == {};
    } else {
      var prefix := entries[..|entries| - 1];
      var ps := Present(prefix, details);
      var ns := Present(entries, details);
      assert ps == ns[..|ps|];
      assert forall i :: 0 <= i < |prefix| ==> prefix[i] == entries[i];
      IntendedEdgesAreTree(g, prefix, details);
      var g1 := AddEdgesIntended(g, prefix).value;
      match entries[|entries| - 1]
      case None =>
      case Some(n) =>
        var L := g.lookup;
        var p := ParentOf(n);
        assert ns[|ns| - 1].id == n.id;
        assert n.id in L && p in L;
        assert L[n.id] !in g1.edges[L[p]] by {
          TreeEdgeTargets(L, prefix, details);
          forall c | c in IdSet(ps)
            ensures IdIndex(L, c) != L[n.id]
          {
            var i :| 0 <= i < |ps| && ps[i].id == c;
            assert ns[i].id == c;
            assert c in L;
            assert NodeId(g.nodes[L[c]]) == c;
          }
          assert (L[p], L[n.id]) !in TreeEdges(L, prefix);
        }
        EdgePairsInsert(g1, L[p], L[n.id]);
    }
  }

  /** When every id equals its own index, passing indices is harmless: the
      code as written and the corrected code build the same graph. */
  lemma {:induction false} AsWrittenAgreesOnIndexIds(g: Graph<DisplayableNode, nat>, mapper: map<nat, nat>, entries: seq<Option<TNode>>)
    requires Valid(g, NodeId)
    requires mapper.Keys == g.lookup.Keys && forall k :: k in mapper ==> mapper[k] == k && g.lookup[k] == k
    ensures AddEdgesAsWritten(g, mapper, entries) == AddEdgesIntended(g, entries)
  {
    if |entries| > 0 {
      var prefix := entries[..|entries| - 1];
      AsWrittenAgreesOnIndexIds(g, mapper, prefix);
      match AddEdgesIntended(g, prefix)
      case Failure(_) =>
      case Success(g1) =>
        match entries[|entries| - 1]
        case None =>
        case Some(n) =>
          var p, c := ParentOf(n), n.id;
          assert IdIndex(g1.lookup, Get(mapper, p)) == IdIndex(g1.lookup, p);
          assert IdIndex(g1.lookup, Get(mapper, c)) == IdIndex(g1.lookup, c);
          assert AddEdgeId(g1, NodeId, Get(mapper, p), Get(mapper, c)) == AddEdgeId(g1, NodeId, p, c);
    }
  }

  /** `ToGraph` as written builds the graph when every id is its own index,
      and then the graph is the tree. */
  lemma ToGraphOnIndexIds(entries: seq<Option<TNode>>, details: TNode -> string)
    requires DistinctIds(Displayed(entries, details))
    requires forall i :: 0 <= i < |Displayed(entries, details)| ==> Displayed(entries, details)[i].id == i
    ensures ToGraph(entries, details) == ToGraphIntended(entries, details)
  {
    var st := AddNodes(entries, details).value;
    forall k | k in st.mapper
      ensures st.mapper[k] == k && st.g.lookup[k] == k
    {
      assert NodeId(st.g.nodes[st.g.lookup[k]]) == k;
    }
    AsWrittenAgreesOnIndexIds(st.g, st.mapper, entries);
  }

  /** The corrected `ToGraph` turns a tree with distinct ids whose parents
      are all present into its graph: the displayed nodes, in order, and one
      edge from each non-nil entry's parent to it. */
  lemma ToGraphIntendedBuildsTree(entries: seq<Option<TNode>>, details: TNode -> string)
    requires DistinctIds(Displayed(entries, details))
    requires forall i :: 0 <= i < |entries| && entries[i].Some? ==> ParentOf(entries[i].value) in IdSet(Displayed(entries, details))
    ensures var r := ToGraphIntended(entries, details);
      r.Success? && r.value.nodes == Displayed(entries, details) &&
      EdgePairs(r.value) == TreeEdges(r.value.lookup, entries)
  {
    var ds := Displayed(entries, details);
    var r1 := AddNodes(entries, details);
    assert r1.Success?;
    var st := r1.value;
    assert st.g.nodes == ds;
    LookupKeys(st.g);
    PresentInLookup(st.g, entries, details);
    IntendedEdgesAreTree(st.g, entries, details);
    assert ToGraphIntended(entries, details) == AddEdgesIntended(st.g, entries);
  }

  lemma PresentInLookup(g: Graph<DisplayableNode, nat>, entries: seq<Option<TNode>>, details: TNode -> string)
    requires Valid(g, NodeId) && g.nodes == Displayed(entries, details)
    requires DistinctIds(g.nodes)
    ensures DistinctIds(Present(entries, details))
    ensures forall j :: 0 <= j < |Present(entries, details)| ==> Present(entries, details)[j].id in g.lookup
  {
    var ds := g.nodes;
    var ps := Present(entries, details);
    var k := |ds| - |ps|;
    assert ps == ds[k..];
    forall j | 0 <= j < |ps|
      ensures ps[j].id in g.lookup
    {
      assert ps[j] == ds[k + j];
    }
  }

  /** A tree whose ids are not their indices: a nil root, node `a` under
      it and node `b` under `a`, where neither id is 0, 1 or 2. The code as
      written reads the unknown ids 1 and 2 as index 0, adds the root's
      self-loop twice and dies; the corrected code builds the tree. */
  lemma ToGraphMisreadsIds(a: nat, b: nat, pa: seq<ShapePos>, pb: seq<ShapePos>, details: TNode -> string)
    requires a > 2 && b > 2 && a != b && a < Uint64Modulus
    ensures var entries := [None, Some(TNode(a, -1, pa)), Some(TNode(b, a, pb))];
      ToGraph(entries, details).Failure? && ToGraphIntended(entries, details).Success?
  {
    var entries := [None, Some(TNode(a, -1, pa)), Some(TNode(b, a, pb))];
    var st := ExampleLoaded(a, b, pa, pb, details);
    assert ToGraph(entries, details) == AddEdgesAsWritten(st.g, st.mapper, entries);
    ExampleEdgesAsWritten(a, b, pa, pb, st);
    ExampleIntended(a, b, pa, pb, details);
  }

  lemma ExampleEdgesAsWritten(a: nat, b: nat, pa: seq<ShapePos>, pb: seq<ShapePos>, st: Loaded)
    requires a > 2 && b > 2 && a != b && a < Uint64Modulus && LoadedValid(st) && |st.g.nodes| == 3
    requires st.g.lookup.Keys == {0, a, b} && st.g.lookup[0] == 0
    requires st.mapper.Keys == {0, a, b} && st.mapper[0] == 0 && st.mapper[a] == 1 && st.mapper[b] == 2
    ensures AddEdgesAsWritten(st.g, st.mapper, [None, Some(TNode(a, -1, pa)), Some(TNode(b, a, pb))]).Failure?
  {
    var entries := [None, Some(TNode(a, -1, pa)), Some(TNode(b, a, pb))];
    var L := st.g.lookup;
    assert IdIndex(L, 0) == 0 && IdIndex(L, 1) == 0 && IdIndex(L, 2) == 0;
    var e1, e2 := entries[..1], entries[..2];
    assert e1[..0] == [];
    assert AddEdgesAsWritten(st.g, st.mapper, e1) == Success(st.g);
    assert e2[..1] == e1;
    assert Get(st.mapper, ParentOf(TNode(a, -1, pa))) == 0 && Get(st.mapper, a) == 1;
    var r2 := AddEdgesAsWritten(st.g, st.mapper, e2);
    assert r2 == AddEdgeId(st.g, NodeId, 0, 1);
    assert 0 !in st.g.edges[0];
    var g1 := r2.value;
    assert 0 in g1.edges[0] && g1.lookup == L;
    assert b in st.mapper;
    assert Get(st.mapper, b) == 2;
    assert ParentOf(TNode(b, a, pb)) == a;
    assert AddEdgesAsWritten(st.g, st.mapper, entries) == AddEdgeId(g1, NodeId, 1, 2);
  }

  lemma ExampleIntended(a: nat, b: nat, pa: seq<ShapePos>, pb: seq<ShapePos>, details: TNode -> string)
    requires a > 2 && b > 2 && a != b && a < Uint64Modulus
    ensures ToGraphIntended([None, Some(TNode(a, -1, pa)), Some(TNode(b, a, pb))], details).Success?
  {
    var entries := [None, Some(TNode(a, -1, pa)), Some(TNode(b, a, pb))];
    var ds := ExampleDisplayed(a, b, pa, pb, details);
    assert IdSet(ds) == {0, a, b} by {
      assert ds[0].id == 0 && ds[1].id == a && ds[2].id == b;
    }
    assert ParentOf(TNode(a, -1, pa)) == 0 && ParentOf(TNode(b, a, pb)) == a;
    assert forall i :: 0 <= i < |entries| && entries[i].Some? ==> ParentOf(entries[i].value) in IdSet(ds);
    ToGraphIntendedBuildsTree(entries, details);
  }

  /** The first loop on the example above: ids 0, `a` and `b` at indices 0,
      1 and 2. */
  lemma ExampleLoaded(a: nat, b: nat, pa: seq<ShapePos>, pb: seq<ShapePos>, details: TNode -> string) returns (st: Loaded)
    requires a > 2 && b > 2 && a != b
    ensures var entries := [None, Some(TNode(a, -1, pa)), Some(TNode(b, a, pb))];
      AddNodes(entries, details) == Success(st) && LoadedValid(st) &&
      Displayed(entries, details) == [Root(), Display(TNode(a, -1, pa), details), Display(TNode(b, a, pb), details)]
    ensures st.g.lookup.Keys == {0, a, b} && st.g.lookup[0] == 0 && st.g.lookup[a] == 1 && st.g.lookup[b] == 2
    ensures st.mapper.Keys == {0, a, b} && st.mapper[0] == 0 && st.mapper[a] == 1 && st.mapper[b] == 2
  {
    var entries := [None, Some(TNode(a, -1, pa)), Some(TNode(b, a, pb))];
    var ds := ExampleDisplayed(a, b, pa, pb, details);
    st := AddNodes(entries, details).value;
    ExampleLookup(st.g, a, b);
  }

  /** A valid graph whose nodes carry ids 0, `a` and `b` looks them up at
      indices 0, 1 and 2. */
  lemma ExampleLookup(g: Graph<DisplayableNode, nat>, a: nat, b: nat)
    requires Valid(g, NodeId) && |g.nodes| == 3
    requires g.nodes[0].id == 0 && g.nodes[1].id == a && g.nodes[2].id == b
    ensures g.lookup.Keys == {0, a, b} && g.lookup[0] == 0 && g.lookup[a] == 1 && g.lookup[b] == 2
  {
    LookupKeys(g);
    assert IdSet(g.nodes) == {0, a, b};
    IndexOfKey(g, 0, 0);
    IndexOfKey(g, a, 1);
    IndexOfKey(g, b, 2);
  }

  lemma IndexOfKey(g: Graph<DisplayableNode, nat>, k: nat, i: int)
    requires Valid(g, NodeId) && 0 <= i < |g.nodes| && g.nodes[i].id == k
    ensures k in g.lookup && g.lookup[k] == i
  {
    assert NodeId(g.nodes[i]) == k;
  }

  /** The displayed nodes of the example above. */
  lemma ExampleDisplayed(a: nat, b: nat, pa: seq<ShapePos>, pb: seq<ShapePos>, details: TNode -> string) returns (ds: seq<DisplayableNode>)
    requires a > 2 && b > 2 && a != b
    ensures var entries := [None, Some(TNode(a, -1, pa)), Some(TNode(b, a, pb))];
      ds == Displayed(entries, details) && DistinctIds(ds) &&
      ds == [Root(), Display(TNode(a, -1, pa), details), Display(TNode(b, a, pb), details)]
  {
    var entries := [None, Some(TNode(a, -1, pa)), Some(TNode(b, a, pb))];
    var da, db := Display(TNode(a, -1, pa), details), Display(TNode(b, a, pb), details);
    var e1, e2 := entries[..1], entries[..2];
    assert e2[..1] == e1 && e1[..0] == [];
    assert Present(e1, details) == [];
    assert Present(e2, details) == [da];
    assert Present(entries, details) == [da, db];
    ds := Displayed(entries, details);
    assert ds == [Root(), da, db];
    assert ds[0].id == 0 && ds[1].id == a && ds[2].id == b;
  }

  // ---------------------------------------------------------------------
  // Shapes

  datatype Edge = Edge(start: Position, end: Position, kind: string)

  /** One decoded sub-shape: its outline as a list of edges, and its holes. */
  datatype ShapeDesc = ShapeDesc(fillColor: string, shape: seq<Edge>, holes: seq<seq<Edge>>)

  /** A polygon ready for drawing. */
  datatype DrawableShape = DrawableShape(open: bool, points: seq<Position>, color: string, holes: seq<seq<Position>>)

  /** One catalogue entry: its sub-shapes and the box around their outlines. */
  datatype ShapeDefinition = ShapeDefinition(shapes: seq<DrawableShape>, minX: real, minY: real, maxX: real, maxY: real)

  /** The outline comes back to its first point. */
  predicate Closes(shape: seq<Edge>)
    requires |shape| > 0
  {
    shape[0].start == shape[|shape| - 1].end
  }

  /** The edges kept for the polygon: a closing last edge is dropped. */
  function Retained(shape: seq<Edge>): seq<Edge>
    requires |shape| > 0
  {
    if Closes(shape) then shape[..|shape| - 1] else shape
  }

  /** Each edge ends where the next one starts. */
  predicate Chained(es: seq<Edge>)
  {
    forall i :: 0 <= i < |es| - 1 ==> es[i].end == es[i + 1].start
  }

  /** The loop over the kept edges from `i` on: fatal at the first edge whose
      end is not the next edge's start, otherwise the edges' end points. */
  function EndsFrom(es: seq<Edge>, i: nat): (r: Result<seq<Position>, string>)
    requires i <= |es|
    ensures r.Success? <==> forall j :: i <= j < |es| - 1 ==> es[j].end == es[j + 1].start
    ensures r.Success? ==> |r.value| == |es| - i && forall k :: 0 <= k < |es| - i ==> r.value[k] == es[i + k].end
    decreases |es| - i
  {
    if i == |es| then Success([])
    else if i < |es| - 1 && es[i].end != es[(i + 1) % |es|].start then Failure("shape should be closed")
    else
      match EndsFrom(es, i + 1)
      case Failure(e) => Failure(e)
      case Success(rest) => Success([es[i].end] + rest)
  }

  /** The outline of a sub-shape: whether it is open, and its points. */
  function Outline(shape: seq<Edge>): (r: Result<(bool, seq<Position>), string>)
    ensures r.Failure? <==> |shape| == 0 || !Chained(Retained(shape))
    ensures r.Success? ==> (r.value.0 <==> !Closes(shape))
  {
    if |shape| == 0 then Failure("shape has no edge")
    else
      match EndsFrom(Retained(shape), 0)
      case Failure(e) => Failure(e)
      case Success(ends) => Success((!Closes(shape), [shape[0].start] + ends))
  }

  /** The outline's points trace its kept edges: edge `i` runs from point
      `i` to point `i + 1`. A closed outline's dropped edge runs back to the
      first point. */
  lemma OutlineTracesEdges(shape: seq<Edge>)
    requires Outline(shape).Success?
    ensures var pts := Outline(shape).value.1; var kept := Retained(shape);
      |pts| == |kept| + 1 &&
      (forall i :: 0 <= i < |kept| ==> kept[i].start == pts[i] && kept[i].end == pts[i + 1]) &&
      (Closes(shape) ==> shape[|shape| - 1].end == pts[0])
  {
    var pts := Outline(shape).value.1;
    var kept := Retained(shape);
    forall i | 0 <= i < |kept|
      ensures kept[i].start == pts[i]
    {
      if i == 0 {
        assert kept[0] == shape[0];
      } else {
        assert kept[i - 1].end == kept[i].start;
      }
    }
  }

  /** The loop over one hole from `i` on: fatal when an edge's end X is not
      the X of the next edge's start (cyclically); otherwise the start
      points. */
  function HoleFrom(edges: seq<Edge>, i: nat): (r: Result<seq<Position>, string>)
    requires i <= |edges|
    ensures r.Success? <==> forall j :: i <= j < |edges| ==> edges[j].end.x == edges[(j + 1) % |edges|].start.x
    ensures r.Success? ==> |r.value| == |edges| - i && forall k :: 0 <= k < |edges| - i ==> r.value[k] == edges[i + k].start
    decreases |edges| - i
  {
    if i == |edges| then Success([])
    else if edges[i].end.x != edges[(i + 1) % |edges|].start.x then Failure("edges")
    else
      match HoleFrom(edges, i + 1)
      case Failure(e) => Failure(e)
      case Success(rest) => Success([edges[i].start] + rest)
  }

  /** Only X is compared around a hole. */
  predicate HoleChained(edges: seq<Edge>)
  {
    forall j :: 0 <= j < |edges| ==> edges[j].end.x == edges[(j + 1) % |edges|].start.x
  }

  function Holes(hs: seq<seq<Edge>>): (r: Result<seq<seq<Position>>, string>)
    ensures r.Success? <==> forall k :: 0 <= k < |hs| ==> HoleChained(hs[k])
    ensures r.Success? ==> |r.value| == |hs| && forall k :: 0 <= k < |hs| ==> r.value[k] == HoleFrom(hs[k], 0).value
  {
    MapAll(hs, h => HoleFrom(h, 0))
  }

  /** What the loader accepts of a sub-shape. */
  predicate Acceptable(d: ShapeDesc)
  {
    |d.shape| > 0 && Chained(Retained(d.shape)) && forall k :: 0 <= k < |d.holes| ==> HoleChained(d.holes[k])
  }

  /** One sub-shape, outline then holes. */
  function ShapeOf(d: ShapeDesc): (r: Result<DrawableShape, string>)
    ensures r.Success? <==> Acceptable(d)
    ensures r.Success? ==> r.value.color == d.fillColor && (r.value.open <==> !Closes(d.shape))
    ensures r.Success? ==> r.value.points == Outline(d.shape).value.1 && |r.value.holes| == |d.holes|
    ensures r.Success? ==> forall k, j :: 0 <= k < |d.holes| && 0 <= j < |d.holes[k]| ==>
      |r.value.holes[k]| == |d.holes[k]| && r.value.holes[k][j] == d.holes[k][j].start
  {
    match Outline(d.shape)
    case Failure(e) => Failure(e)
    case Success(o) =>
      match Holes(d.holes)
      case Failure(e) => Failure(e)
      case Success(hs) => Success(DrawableShape(o.0, o.1, d.fillColor, hs))
  }

  /** Applies `f` to each element in order; the first failure is fatal. */
  function MapAll<A, B>(xs: seq<A>, f: A -> Result<B, string>): (r: Result<seq<B>, string>)
    ensures r.Success? <==> forall k :: 0 <= k < |xs| ==> f(xs[k]).Success?
    ensures r.Success? ==> |r.value| == |xs| && forall k :: 0 <= k < |xs| ==> r.value[k] == f(xs[k]).value
  {
    if |xs| == 0 then Success([])
    else
      var prefix := xs[..|xs| - 1];
      assert forall k :: 0 <= k < |prefix| ==> prefix[k] == xs[k];
      match MapAll(prefix, f)
      case Failure(e) => Failure(e)
      case Success(prev) =>
        match f(xs[|xs| - 1])
        case Failure(e) => Failure(e)
        case Success(y) => Success(prev + [y])
  }

  /** The outline points of all sub-shapes, in order. */
  function AllPoints(shapes: seq<DrawableShape>): (ps: seq<Position>)
    ensures forall k, j :: 0 <= k < |shapes| && 0 <= j < |shapes[k].points| ==> shapes[k].points[j] in ps
    ensures forall p :: p in ps ==> exists k :: 0 <= k < |shapes| && p in shapes[k].points
  {
    if |shapes| == 0 then []
    else AllPoints(shapes[..|shapes| - 1]) + shapes[|shapes| - 1].points
  }

  function PointXs(ps: seq<Position>): (xs: seq<real>)
    ensures |xs| == |ps| && forall i :: 0 <= i < |ps| ==> xs[i] == ps[i].x
  {
    seq(|ps|, i requires 0 <= i < |ps| => ps[i].x)
  }

  function PointYs(ps: seq<Position>): (ys: seq<real>)
    ensures |ys| == |ps| && forall i :: 0 <= i < |ps| ==> ys[i] == ps[i].y
  {
    seq(|ps|, i requires 0 <= i < |ps| => ps[i].y)
  }

  /** One catalogue entry: its sub-shapes and the running extremes of all
      their outline points (hole points do not count). */
  function Definition(s: seq<ShapeDesc>): (r: Result<ShapeDefinition, string>)
    ensures r.Success? <==> forall k :: 0 <= k < |s| ==> ShapeOf(s[k]).Success?
    ensures r.Success? ==> |r.value.shapes| == |s| && forall k :: 0 <= k < |s| ==> r.value.shapes[k] == ShapeOf(s[k]).value
    ensures r.Success? ==> forall p :: p in AllPoints(r.value.shapes) ==>
      r.value.minX <= p.x <= r.value.maxX && r.value.minY <= p.y <= r.value.maxY
  {
    match MapAll(s, ShapeOf)
    case Failure(e) => Failure(e)
    case Success(shapes) =>
      var ps := AllPoints(shapes);
      Success(ShapeDefinition(shapes, MinOf(PointXs(ps)), MinOf(PointYs(ps)), MaxOf(PointXs(ps)), MaxOf(PointYs(ps))))
  }

  /** With at least one sub-shape and finite coordinates, the box is tight:
      each of its four sides passes through an outline point. With no
      sub-shape the start values remain. */
  lemma DefinitionIsTight(s: seq<ShapeDesc>)
    requires Definition(s).Success?
    ensures var d := Definition(s).value; var ps := AllPoints(d.shapes);
      (|s| == 0 ==> d.minX == MaxFloat32 && d.minY == MaxFloat32 && d.maxX == -MaxFloat32 && d.maxY == -MaxFloat32) &&
      (|s| > 0 && (forall p :: p in ps ==> Finite32(p.x) && Finite32(p.y)) ==>
        (exists p :: p in ps && p.x == d.minX) && (exists p :: p in ps && p.x == d.maxX) &&
        (exists p :: p in ps && p.y == d.minY) && (exists p :: p in ps && p.y == d.maxY))
  {
    var d := Definition(s).value;
    var ps := AllPoints(d.shapes);
    if |s| > 0 && (forall p :: p in ps ==> Finite32(p.x) && Finite32(p.y)) {
      assert ShapeOf(s[0]).Success?;
      assert |d.shapes[0].points| > 0;
      assert d.shapes[0].points[0] in ps;
      BoxIsTight(ps, d);
    }
  }

  lemma BoxIsTight(ps: seq<Position>, d: ShapeDefinition)
    requires |ps| > 0 && forall p :: p in ps ==> Finite32(p.x) && Finite32(p.y)
    requires d.minX == MinOf(PointXs(ps)) && d.maxX == MaxOf(PointXs(ps))
    requires d.minY == MinOf(PointYs(ps)) && d.maxY == MaxOf(PointYs(ps))
    ensures (exists p :: p in ps && p.x == d.minX) && (exists p :: p in ps && p.x == d.maxX)
    ensures (exists p :: p in ps && p.y == d.minY) && (exists p :: p in ps && p.y == d.maxY)
  {
    var xs, ys := PointXs(ps), PointYs(ps);
    assert forall i :: 0 <= i < |ps| ==> Finite32(xs[i]) && Finite32(ys[i]) by {
      forall i | 0 <= i < |ps|
        ensures Finite32(xs[i]) && Finite32(ys[i])
      {
        assert ps[i] in ps;
      }
    }
    MinOfIsLeast(xs);
    MaxOfIsGreatest(xs);
    MinOfIsLeast(ys);
    MaxOfIsGreatest(ys);
    var a :| 0 <= a < |ps| && d.minX == xs[a];
    var b :| 0 <= b < |ps| && d.maxX == xs[b];
    var c :| 0 <= c < |ps| && d.minY == ys[c];
    var e :| 0 <= e < |ps| && d.maxY == ys[e];
    assert ps[a] in ps && ps[b] in ps && ps[c] in ps && ps[e] in ps;
  }

  /** `Tree.Shapes`: one definition per entry, in order; fatal if any entry
      holds a sub-shape that is not `Acceptable`. */
  function Shapes(init: seq<seq<ShapeDesc>>): (r: Result<seq<ShapeDefinition>, string>)
    ensures r.Success? <==> forall i, k :: 0 <= i < |init| && 0 <= k < |init[i]| ==> Acceptable(init[i][k])
    ensures r.Success? ==> |r.value| == |init| && forall i :: 0 <= i < |init| ==> r.value[i] == Definition(init[i]).value
  {
    var r := MapAll(init, Definition);
    assert r.Success? <==> forall i, k :: 0 <= i < |init| && 0 <= k < |init[i]| ==> Acceptable(init[i][k]) by {
      assert forall i :: 0 <= i < |init| ==> (Definition(init[i]).Success? <==> forall k :: 0 <= k < |init[i]| ==> Acceptable(init[i][k]));
    }
    r
  }
}

=== FILE: systems.dfy ===
/** The system registry and the commands that change what is shown or where
    nodes go: registration and run order, hiding, showing and deleting nodes
    with their edges, and setting move targets. */
module Systems {
  import opened Components
  import opened Wrappers
  import Move

  // ---------------------------------------------------------------------
  // Registry

  /** A registered system; the debug overlay has a type of its own. */
  datatype SystemRef = DebugSystem(id: nat) | OtherSystem(id: nat)

  datatype Registry = Registry(systems: seq<SystemRef>, debug: Option<SystemRef>)

  function Empty(): Registry { Registry([], None) }

  /** `Add`: a debug system takes the dedicated slot, any other is appended. */
  function Add(r: Registry, sys: SystemRef): (r': Registry)
    ensures sys.DebugSystem? ==> r'.debug == Some(sys) && r'.systems == r.systems
    ensures sys.OtherSystem? ==> r'.systems == r.systems + [sys] && r'.debug == r.debug
  {
    match sys
    case DebugSystem(_) => r.(debug := Some(sys))
    case OtherSystem(_) => r.(systems := r.systems + [sys])
  }

  function AddAll(r: Registry, syss: seq<SystemRef>): Registry
    decreases |syss|
  {
    if syss == [] then r else AddAll(Add(r, syss[0]), syss[1..])
  }

  /** The non-debug systems of `syss`, in order. */
  function Others(syss: seq<SystemRef>): (os: seq<SystemRef>)
    ensures forall i :: 0 <= i < |os| ==> os[i].OtherSystem? && os[i] in syss
  {
    if syss == [] then []
    else (if syss[0].OtherSystem? then [syss[0]] else []) + Others(syss[1..])
  }

  /** The last debug system of `syss`, if any. */
  function LastDebug(syss: seq<SystemRef>, current: Option<SystemRef>): Option<SystemRef>
  {
    if syss == [] then current
    else LastDebug(syss[1..], if syss[0].DebugSystem? then Some(syss[0]) else current)
  }

  /** Registering a list of systems keeps the non-debug ones in call order
      and the last debug one in the slot. */
  lemma {:induction false} AddAllOrder(r: Registry, syss: seq<SystemRef>)
    ensures AddAll(r, syss) == Registry(r.systems + Others(syss), LastDebug(syss, r.debug))
    decreases |syss|
  {
    if syss != [] {
      AddAllOrder(Add(r, syss[0]), syss[1..]);
    }
  }

  /** The calls one `Update` or `Close` makes: each registered system in
      order, then the debug system. A missing debug system is a nil
      interface call, which panics after the others have run. */
  datatype Calls = Calls(order: seq<SystemRef>, panics: bool)

  function CallOrder(r: Registry): (c: Calls)
    ensures c.panics <==> r.debug.None?
    ensures forall s :: s in c.order <==> s in r.systems || r.debug == Some(s)
    ensures |c.order| >= |r.systems| && c.order[..|r.systems|] == r.systems
    ensures r.debug.Some? ==> |c.order| == |r.systems| + 1 && c.order[|r.systems|] == r.debug.value
  {
    if r.debug.Some? then Calls(r.systems + [r.debug.value], false) else Calls(r.systems, true)
  }

  /** After registering `syss`, one frame calls every non-debug system once
      per registration, in registration order, then the last debug system
      listed; with none listed the frame panics at the end. */
  lemma RegisteredCallOrder(syss: seq<SystemRef>)
    ensures var c := CallOrder(AddAll(Empty(), syss));
      |c.order| >= |Others(syss)| && c.order[..|Others(syss)|] == Others(syss) &&
      (c.panics <==> forall i :: 0 <= i < |syss| ==> syss[i].OtherSystem?) &&
      (forall s :: s in c.order && s.DebugSystem? ==> s in syss && c.order[|c.order| - 1] == s) &&
      (forall k :: 0 <= k < |syss| && syss[k].DebugSystem? && (forall j :: k < j < |syss| ==> syss[j].OtherSystem?) ==>
        |c.order| == |Others(syss)| + 1 && c.order[|c.order| - 1] == syss[k])
  {
    AddAllOrder(Empty(), syss);
    LastDebugFound(syss, None);
  }

  /** The slot ends empty exactly when no debug system is registered and it
      starts empty; a filled slot holds a registered system or the start,
      and it holds the last debug system listed when there is one. */
  lemma {:induction false} LastDebugFound(syss: seq<SystemRef>, current: Option<SystemRef>)
    ensures LastDebug(syss, current).None? <==> current.None? && forall i :: 0 <= i < |syss| ==> syss[i].OtherSystem?
    ensures LastDebug(syss, current).Some? ==>
      LastDebug(syss, current) == current || (LastDebug(syss, current).value in syss && LastDebug(syss, current).value.DebugSystem?)
    ensures (forall i :: 0 <= i < |syss| ==> syss[i].OtherSystem?) ==> LastDebug(syss, current) == current
    ensures forall k :: 0 <= k < |syss| && syss[k].DebugSystem? && (forall j :: k < j < |syss| ==> syss[j].OtherSystem?) ==>
      LastDebug(syss, current) == Some(syss[k])
    decreases |syss|
  {
    if syss != [] {
      var next := if syss[0].DebugSystem? then Some(syss[0]) else current;
      LastDebugFound(syss[1..], next);
      assert forall i :: 1 <= i < |syss| ==> syss[i] == syss[1..][i - 1];
      forall k | 0 <= k < |syss| && syss[k].DebugSystem? && (forall j :: k < j < |syss| ==> syss[j].OtherSystem?)
        ensures LastDebug(syss, current) == Some(syss[k])
      {
        if k == 0 {
          assert forall i :: 0 <= i < |syss[1..]| ==> syss[1..][i].OtherSystem?;
        } else {
          assert syss[1..][k - 1] == syss[k];
          assert forall j :: k - 1 < j < |syss[1..]| ==> syss[1..][j].OtherSystem?;
        }
      }
    }
  }

  /** `Update`: the calls, and the polls left to each call under the one
      deadline shared by the whole frame. `after(s, b)` is how many polls
      system `s` leaves when it starts with `b` (it cannot leave more). */
  function UpdateBudgets(order: seq<SystemRef>, budget: nat, after: (SystemRef, nat) -> nat): (bs: seq<nat>)
    ensures |bs| == |order|
    ensures |order| > 0 ==> bs[0] == budget
    ensures forall i :: 0 <= i < |bs| ==> bs[i] <= budget
    ensures forall i :: 0 < i < |bs| ==> bs[i] <= bs[i - 1]
  {
    if order == [] then []
    else
      var left := after(order[0], budget);
      [budget] + UpdateBudgets(order[1..], if left <= budget then left else budget, after)
  }

  // ---------------------------------------------------------------------
  // Visibility

  datatype EdgeEntity = EdgeEntity(ent: Entity, from: Entity, to: Entity)

  /** The part of the world these commands touch: node entities, edge
      entities with their endpoints, which entities carry the visibility
      marker, the id-to-entity lookup, and move targets. */
  datatype World = World(nodes: set<Entity>, edges: seq<EdgeEntity>, visible: set<Entity>,
                         lookup: map<nat, Entity>, targets: map<Entity, Target2>)

  ghost predicate EdgeEntities(w: World, e: Entity)
  {
    exists k :: 0 <= k < |w.edges| && w.edges[k].ent == e
  }

  /** The zero entity is neither a node nor an edge and is never visible
      (a move command on an unknown id may still give it a target), node and
      edge entities are distinct, and every edge joins two nodes. */
  ghost predicate Valid(w: World)
  {
    ZeroEntity !in w.visible && ZeroEntity !in w.nodes &&
    (forall k :: 0 <= k < |w.edges| ==> w.edges[k].ent !in w.nodes && w.edges[k].ent != ZeroEntity) &&
    (forall k :: 0 <= k < |w.edges| ==> w.edges[k].from in w.nodes && w.edges[k].to in w.nodes) &&
    (forall e :: e in w.lookup.Values ==> e in w.nodes)
  }

  /** A Go map read: the zero entity when the id is absent. */
  function LookupOrZero(lookup: map<nat, Entity>, id: nat): Entity
  {
    if id in lookup then lookup[id] else ZeroEntity
  }

  /** Requested nodes that are currently visible. */
  function NodesToHide(w: World, ids: seq<nat>): (s: set<Entity>)
    ensures forall e :: e in s <==> e in w.visible && exists id :: id in ids && LookupOrZero(w.lookup, id) == e
  {
    set id | id in ids && LookupOrZero(w.lookup, id) in w.visible :: LookupOrZero(w.lookup, id)
  }

  /** Visible edges touching one of `hidden`. */
  function EdgesTouching(w: World, hidden: set<Entity>): (s: set<Entity>)
    ensures forall e :: e in s <==>
      e in w.visible && exists k :: 0 <= k < |w.edges| && w.edges[k].ent == e && (w.edges[k].from in hidden || w.edges[k].to in hidden)
  {
    set k | 0 <= k < |w.edges| && w.edges[k].ent in w.visible && (w.edges[k].from in hidden || w.edges[k].to in hidden) :: w.edges[k].ent
  }

  /** `Hide`: the requested visible nodes and the visible edges touching them
      lose their visibility; nothing else changes. */
  function Hide(w: World, ids: seq<nat>): (w': World)
    ensures w'.visible <= w.visible
    ensures w' == w.(visible := w'.visible)
    ensures forall e :: e in w.visible - w'.visible <==>
      e in NodesToHide(w, ids) || e in EdgesTouching(w, NodesToHide(w, ids))
  {
    var hidden := NodesToHide(w, ids);
    w.(visible := w.visible - hidden - EdgesTouching(w, hidden))
  }

  /** `Hide` as written: collect the nodes, then scan the edges once, then
      remove everything collected. */
  method HideLoop(w: World, ids: seq<nat>) returns (w': World)
    requires Valid(w)
    ensures w' == Hide(w, ids)
  {
    var hiddenNodes := CollectNodes(w, ids);
    var todelete := CollectEdges(w, hiddenNodes);
    w' := w.(visible := w.visible - todelete);
  }

  /** The first loop of `Hide`: the visible nodes among the ids. */
  method CollectNodes(w: World, ids: seq<nat>) returns (todelete: set<Entity>)
    ensures todelete == NodesToHide(w, ids)
  {
    todelete := {};
    for i := 0 to |ids|
      invariant todelete == NodesToHide(w, ids[..i])
    {
      var nodeEntity := LookupOrZero(w.lookup, ids[i]);
      assert ids[..i + 1] == ids[..i] + [ids[i]];
      if nodeEntity in w.visible {
        todelete := todelete + {nodeEntity};
      }
    }
    assert ids[..|ids|] == ids;
  }

  /** The second loop of `Hide`: adds the visible edges touching a hidden
      node; an added edge entity is never a node, so later edges are tested
      against the hidden nodes only. */
  method CollectEdges(w: World, hiddenNodes: set<Entity>) returns (todelete: set<Entity>)
    requires Valid(w)
    ensures todelete == hiddenNodes + EdgesTouching(w, hiddenNodes)
  {
    todelete := hiddenNodes;
    for k := 0 to |w.edges|
      invariant todelete == hiddenNodes + EdgesTouchingUpTo(w, hiddenNodes, k)
      invariant forall x :: x in todelete && x in w.nodes ==> x in hiddenNodes
    {
      var e := w.edges[k];
      if e.ent in w.visible && (e.from in todelete || e.to in todelete) {
        todelete := todelete + {e.ent};
      }
    }
    EdgesTouchingAll(w, hiddenNodes);
  }

  /** Visible edges among the first `k` touching one of `hidden`. */
  function EdgesTouchingUpTo(w: World, hidden: set<Entity>, k: nat): set<Entity>
    requires k <= |w.edges|
  {
    if k == 0 then {}
    else
      var e := w.edges[k - 1];
      EdgesTouchingUpTo(w, hidden, k - 1) + (if e.ent in w.visible && (e.from in hidden || e.to in hidden) then {e.ent} else {})
  }

  lemma {:induction false} EdgesTouchingAll(w: World, hidden: set<Entity>)
    ensures EdgesTouchingUpTo(w, hidden, |w.edges|) == EdgesTouching(w, hidden)
  {
    EdgesTouchingPrefix(w, hidden, |w.edges|);
  }

  lemma {:induction false} EdgesTouchingPrefix(w: World, hidden: set<Entity>, k: nat)
    requires k <= |w.edges|
    ensures forall e :: e in EdgesTouchingUpTo(w, hidden, k) <==>
      exists j :: 0 <= j < k && w.edges[j].ent == e && e in w.visible && (w.edges[j].from in hidden || w.edges[j].to in hidden)
  {
    if k > 0 {
      EdgesTouchingPrefix(w, hidden, k - 1);
    }
  }

  /** Requested nodes that are already hidden, or unknown, are ignored. */
  lemma HideIgnoresHidden(w: World, ids: seq<nat>, id: nat)
    requires Valid(w) && id in ids && LookupOrZero(w.lookup, id) !in w.visible
    ensures Hide(w, ids).visible == Hide(w, RemoveAll(ids, id)).visible
  {
    var e := LookupOrZero(w.lookup, id);
    assert NodesToHide(w, ids) == NodesToHide(w, RemoveAll(ids, id)) by {
      forall x | x in NodesToHide(w, ids)
        ensures x in NodesToHide(w, RemoveAll(ids, id))
      {
        var id' :| id' in ids && LookupOrZero(w.lookup, id') == x;
        assert id' != id;
        RemoveAllKeeps(ids, id, id');
      }
    }
  }

  function RemoveAll(ids: seq<nat>, id: nat): (r: seq<nat>)
    ensures forall x :: x in r ==> x in ids && x != id
  {
    if ids == [] then [] else (if ids[0] == id then [] else [ids[0]]) + RemoveAll(ids[1..], id)
  }

  lemma {:induction false} RemoveAllKeeps(ids: seq<nat>, id: nat, x: nat)
    requires x in ids && x != id
    ensures x in RemoveAll(ids, id)
  {
    if ids[0] != x {
      RemoveAllKeeps(ids[1..], id, x);
    }
  }

  /** `ShowAll`: every node and every edge carries the visibility marker. */
  function ShowAll(w: World): (w': World)
    ensures w' == w.(visible := w'.visible)
    ensures w.visible <= w'.visible
    ensures w.nodes <= w'.visible
    ensures forall k :: 0 <= k < |w.edges| ==> w.edges[k].ent in w'.visible
    ensures forall e :: e in w'.visible - w.visible ==> e in w.nodes || EdgeEntities(w, e)
  {
    w.(visible := w.visible + w.nodes + set k | 0 <= k < |w.edges| :: w.edges[k].ent)
  }

  /** `Delete`: the node loses its visibility marker, then every visible edge
      touching it loses its own. The node's marker is removed without a
      visibility test, and the ECS rejects removing a marker an entity does
      not carry: deleting a node that is not visible (or an unknown id,
      which reads as the zero entity) is fatal. */
  function Delete(w: World, id: nat): (r: Result<World, string>)
    ensures r.Failure? <==> LookupOrZero(w.lookup, id) !in w.visible
    ensures r.Success? ==> r.value == w.(visible := r.value.visible)
    ensures r.Success? ==> LookupOrZero(w.lookup, id) !in r.value.visible && r.value.visible <= w.visible
    ensures r.Success? ==> forall e :: e in w.visible - r.value.visible <==>
      e == LookupOrZero(w.lookup, id) || e in EdgesTouching(w, {LookupOrZero(w.lookup, id)})
  {
    var node := LookupOrZero(w.lookup, id);
    if node !in w.visible then Failure("entity does not have the visibility component")
    else Success(w.(visible := w.visible - {node} - EdgesTouching(w, {node})))
  }

  /** Deleting a node is hiding it alone: the same entities lose visibility
      when the node is visible, and deleting fails exactly when hiding would
      ignore the request. */
  lemma DeleteIsHideOfOne(w: World, id: nat)
    ensures Delete(w, id).Success? ==> Delete(w, id).value == Hide(w, [id])
    ensures Delete(w, id).Failure? <==> Hide(w, [id]) == w
  {
    if LookupOrZero(w.lookup, id) in w.visible {
      assert NodesToHide(w, [id]) == {LookupOrZero(w.lookup, id)};
    } else {
      assert NodesToHide(w, [id]) == {};
      assert EdgesTouching(w, {}) == {};
    }
  }

  // ---------------------------------------------------------------------
  // Move targets

  /** The target a move command leaves: the new coordinates, a fresh tick
      count and the given duration (`MoveNode` 30 ticks, `SetNodePos` 0).
      An unknown id reads as the zero entity, which then gets the target. */
  function SetTarget(w: World, id: nat, newX: int, newY: int, duration: int): (w': World)
    ensures w' == w.(targets := w'.targets)
    ensures w'.targets.Keys == w.targets.Keys + {LookupOrZero(w.lookup, id)}
    ensures w'.targets[LookupOrZero(w.lookup, id)] == Target2(newX as real, newY as real, 0, duration)
    ensures forall e :: e in w.targets && e != LookupOrZero(w.lookup, id) ==> w'.targets[e] == w.targets[e]
  {
    var e := LookupOrZero(w.lookup, id);
    if e !in w.targets then
      w.(targets := w.targets[e := Target2(newX as real, newY as real, 0, duration)])
    else
      w.(targets := w.targets[e := w.targets[e].(x := newX as real, y := newY as real, sinceTick := 0, duration := duration)])
  }

  const MoveDuration: int := 30

  function MoveNode(w: World, id: nat, newX: int, newY: int): (w': World)
    ensures w' == w.(targets := w'.targets)
    ensures w'.targets.Keys == w.targets.Keys + {LookupOrZero(w.lookup, id)}
    ensures w'.targets[LookupOrZero(w.lookup, id)] == Target2(newX as real, newY as real, 0, MoveDuration)
    ensures forall e :: e in w.targets && e != LookupOrZero(w.lookup, id) ==> w'.targets[e] == w.targets[e]
  {
    SetTarget(w, id, newX, newY, MoveDuration)
  }

  function SetNodePos(w: World, id: nat, newX: int, newY: int): (w': World)
    ensures w' == w.(targets := w'.targets)
    ensures w'.targets.Keys == w.targets.Keys + {LookupOrZero(w.lookup, id)}
    ensures w'.targets[LookupOrZero(w.lookup, id)] == Target2(newX as real, newY as real, 0, 0)
    ensures forall e :: e in w.targets && e != LookupOrZero(w.lookup, id) ==> w'.targets[e] == w.targets[e]
  {
    SetTarget(w, id, newX, newY, 0)
  }

  /** After a move command and one run of the mover, the node stands at the
      requested coordinates and every other node keeps its target position. */
  lemma MoveThenMover(w: World, positions: map<Entity, Position>, id: nat, newX: int, newY: int, setPos: bool)
    requires LookupOrZero(w.lookup, id) in positions
    ensures var w' := if setPos then SetNodePos(w, id, newX, newY) else MoveNode(w, id, newX, newY);
      var ps := Move.Update(positions, w'.targets);
      ps[LookupOrZero(w.lookup, id)] == Position(newX as real, newY as real) &&
      forall e :: e in positions && e != LookupOrZero(w.lookup, id) ==> ps[e] == Move.Update(positions, w.targets)[e]
  {
  }
}

=== FILE: texture_array.dfy ===
/** The node-tile atlas: a list of render textures, each a square grid of
    fixed-size slots, and the arithmetic that maps a 1-based node index to
    its texture and slot rectangle. Loading and clearing the textures is
    left to the drawing backend; only their dimensions are modelled. */
module TextureArray {
  import opened GoArith
  import opened Components
  import Arith

  const MaxTextureSize: int := 8192

  /** Node tiles are 100 by 100 pixels. */
  const NodeTextureSize: int := 100

  datatype TextureDims = TextureDims(width: int, height: int)

  datatype TextureArray = TextureArray(textureSize: int, nodesPerTextureLine: int, textures: seq<TextureDims>)

  function Min(a: int, b: int): int
  {
    if a <= b then a else b
  }

  /** Ceiling of `a / b` for a positive dividend. */
  function CeilDiv(a: int, b: int): (q: int)
    requires a >= 1 && b >= 1
    ensures q >= 1
    ensures (q - 1) * b < a <= q * b
  {
    var q := (a - 1) / b + 1;
    assert (a - 1) / b * b + (a - 1) % b == a - 1;
    assert q * b == (a - 1) / b * b + b;
    q
  }

  /** The slot geometry every operation relies on. */
  ghost predicate Valid(arr: TextureArray)
  {
    && 0 < arr.textureSize <= MaxTextureSize
    && arr.nodesPerTextureLine == MaxTextureSize / arr.textureSize
  }

  lemma ValidLine(arr: TextureArray)
    requires Valid(arr)
    ensures 1 <= arr.nodesPerTextureLine
    ensures arr.nodesPerTextureLine * arr.textureSize <= MaxTextureSize
  {
    var npl, size := arr.nodesPerTextureLine, arr.textureSize;
    assert npl * size + MaxTextureSize % size == MaxTextureSize;
    Arith.DivMono(size, MaxTextureSize, size);
    Arith.DivUnique(size, size, 1, 0);
  }

  /** `arr` holds the textures needed for `n >= 1` nodes: one slot line per
      `nodesPerTextureLine` nodes, one texture per `nodesPerTextureLine` lines,
      every texture as wide as a full line and as high as the lines it holds. */
  ghost predicate Allocated(arr: TextureArray, n: int)
    requires Valid(arr) && n >= 1
  {
    var npl := arr.nodesPerTextureLine;
    ValidLine(arr);
    var lines := CeilDiv(n, npl);
    && |arr.textures| == CeilDiv(lines, npl)
    && forall t :: 0 <= t < |arr.textures| ==>
         arr.textures[t] == TextureDims(npl * arr.textureSize, Min(npl, lines - t * npl) * arr.textureSize)
  }

  /** Builds the atlas for `textures` node tiles of `textureSize` pixels,
      decrementing the remaining line count texture by texture. */
  method NewTextureArray(textures: int, textureSize: int) returns (arr: TextureArray)
    requires 0 < textureSize <= MaxTextureSize
    ensures Valid(arr) && arr.textureSize == textureSize
    ensures textureSize == NodeTextureSize ==> arr.nodesPerTextureLine == 81
    ensures arr.nodesPerTextureLine * textureSize <= MaxTextureSize
    ensures textures >= 1 ==> Allocated(arr, textures)
    ensures textures == 0 && arr.nodesPerTextureLine >= 2 ==>
      arr.textures == [TextureDims(arr.nodesPerTextureLine * textureSize, textureSize)]
  {
    var npl := MaxTextureSize / textureSize;
    ValidLine(TextureArray(textureSize, npl, []));
    var nbTextureLines := Quot(textures - 1, npl) + 1;
    var nbTextures := Quot(nbTextureLines - 1, npl) + 1;
    ghost var lines0 := nbTextureLines;
    var dims: seq<TextureDims> := [];
    var i := 0;
    while i < nbTextures
      invariant 0 <= i && (nbTextures >= 0 ==> i <= nbTextures)
      invariant nbTextureLines == lines0 - i * npl
      invariant |dims| == i
      invariant forall t :: 0 <= t < i ==>
          dims[t] == TextureDims(npl * textureSize, Min(npl, lines0 - t * npl) * textureSize)
    {
      dims := dims + [TextureDims(npl * textureSize, Min(npl, nbTextureLines) * textureSize)];
      nbTextureLines := nbTextureLines - npl;
      assert (i + 1) * npl == i * npl + npl;
      i := i + 1;
    }
    arr := TextureArray(textureSize, npl, dims);
    if textures >= 1 {
      assert lines0 == CeilDiv(textures, npl);
      assert nbTextures == CeilDiv(lines0, npl);
    }
    if textures == 0 && npl >= 2 {
      Arith.DivUnique(1, npl, 0, 1);
      assert lines0 == 1;
      Arith.DivUnique(0, npl, 0, 0);
      assert nbTextures == 1;
    }
  }

  /** Which texture holds node `node` (Go truncating division). */
  function NodeTextureIdx(arr: TextureArray, node: int): int
    requires Valid(arr)
  {
    Quot(node - 1, arr.nodesPerTextureLine * arr.nodesPerTextureLine)
  }

  /** Column and line of node `node` inside its texture. */
  function SlotColumn(arr: TextureArray, node: int): int
    requires Valid(arr)
  {
    var npl := arr.nodesPerTextureLine;
    Rem(Rem(node - 1, npl * npl), npl)
  }

  function SlotLine(arr: TextureArray, node: int): int
    requires Valid(arr)
  {
    var npl := arr.nodesPerTextureLine;
    Quot(Rem(node - 1, npl * npl), npl)
  }

  /** The sub-rectangle of node `node`'s tile inside its texture. */
  function NodeTextureRec(arr: TextureArray, node: int): (r: Rect)
    requires Valid(arr)
    ensures r.width == r.height == arr.textureSize as real
    ensures node >= 1 ==>
      && 0.0 <= r.x && r.Right() <= (arr.nodesPerTextureLine * arr.textureSize) as real
      && 0.0 <= r.y && r.Bottom() <= (arr.nodesPerTextureLine * arr.textureSize) as real
  {
    var size := arr.textureSize;
    var r := Rect((SlotColumn(arr, node) * size) as real, (SlotLine(arr, node) * size) as real, size as real, size as real);
    if node >= 1 then
      SlotDigits(arr, node);
      DigitOffset(SlotColumn(arr, node), arr.nodesPerTextureLine, size);
      DigitOffset(SlotLine(arr, node), arr.nodesPerTextureLine, size);
      r
    else r
  }

  /** For a 1-based index, the slot decomposes the 0-based position
      `node - 1` as texture, line and column digits in base `npl`. */
  lemma SlotDigits(arr: TextureArray, node: int)
    requires Valid(arr) && node >= 1
    ensures 0 <= SlotColumn(arr, node) < arr.nodesPerTextureLine
    ensures 0 <= SlotLine(arr, node) < arr.nodesPerTextureLine
    ensures NodeTextureIdx(arr, node) >= 0
    ensures node - 1 == (NodeTextureIdx(arr, node) * arr.nodesPerTextureLine + SlotLine(arr, node)) * arr.nodesPerTextureLine
                        + SlotColumn(arr, node)
  {
    ValidLine(arr);
    Digits(node - 1, arr.nodesPerTextureLine);
  }

  /** The base-`npl` digits of a non-negative `k`: texture, line, column. */
  lemma Digits(k: int, npl: int)
    requires k >= 0 && npl >= 1
    ensures var p := npl * npl;
      && p >= 1 && k / p >= 0
      && 0 <= (k % p) / npl < npl && 0 <= (k % p) % npl < npl
      && k == ((k / p) * npl + (k % p) / npl) * npl + (k % p) % npl
  {
    var p := npl * npl;
    Arith.MulMono(1, npl, npl);
    var t, m := k / p, k % p;
    var y, x := m / npl, m % npl;
    Arith.DivBelow(m, npl, npl);
    assert k == t * p + m;
    assert m == y * npl + x;
    assert t * p == (t * npl) * npl;
    assert (t * npl + y) * npl == (t * npl) * npl + y * npl;
  }

  /** Every slot of a node index >= 1 is a tile-sized square inside the
      texture width and inside a square of `npl` lines. */
  lemma SlotInBounds(arr: TextureArray, node: int)
    requires Valid(arr) && node >= 1
    ensures var r := NodeTextureRec(arr, node);
      && 0.0 <= r.x && r.Right() <= (arr.nodesPerTextureLine * arr.textureSize) as real <= MaxTextureSize as real
      && 0.0 <= r.y && r.Bottom() <= (arr.nodesPerTextureLine * arr.textureSize) as real
      && r.width == r.height == arr.textureSize as real
  {
    SlotDigits(arr, node);
    ValidLine(arr);
    var npl, size := arr.nodesPerTextureLine, arr.textureSize;
    DigitOffset(SlotColumn(arr, node), npl, size);
    DigitOffset(SlotLine(arr, node), npl, size);
  }

  /** Digit `d` of base `npl`, scaled by `size`, starts at or after 0 and
      ends by `npl * size`. */
  lemma DigitOffset(d: int, npl: int, size: int)
    requires 0 <= d < npl && size >= 0
    ensures 0 <= d * size && d * size + size <= npl * size
  {
    Arith.MulNonneg(d, size);
    Arith.MulMono(d + 1, npl, size);
    assert (d + 1) * size == d * size + size;
  }

  /** In an atlas allocated for `n` nodes, every index 1..n names an existing
      texture and its slot line lies inside the height allocated to it. */
  lemma SlotWithinAllocatedTexture(arr: TextureArray, n: int, node: int)
    requires Valid(arr) && n >= 1 && Allocated(arr, n)
    requires 1 <= node <= n
    ensures 0 <= NodeTextureIdx(arr, node) < |arr.textures|
    ensures NodeTextureRec(arr, node).Bottom() <= arr.textures[NodeTextureIdx(arr, node)].height as real
  {
    SlotDigits(arr, node);
    ValidLine(arr);
    var npl, size := arr.nodesPerTextureLine, arr.textureSize;
    var t, y := NodeTextureIdx(arr, node), SlotLine(arr, node);
    var lines := CeilDiv(n, npl);
    LineFits(node - 1, n, npl, t, y, SlotColumn(arr, node));
    var h := Min(npl, lines - t * npl);
    assert arr.textures[t].height == h * size;
    DigitOffset(y, h, size);
    var r := NodeTextureRec(arr, node);
    assert r.Bottom() == (y * size + size) as real;
  }

  /** Position `k < n` with base-`npl` digits `t`, `y`, `x` lies in one of
      the `CeilDiv(CeilDiv(n, npl), npl)` textures, on one of the lines
      allocated to texture `t`. */
  lemma LineFits(k: int, n: int, npl: int, t: int, y: int, x: int)
    requires 0 <= k < n && npl >= 1
    requires 0 <= x < npl && 0 <= y < npl && t >= 0
    requires k == (t * npl + y) * npl + x
    ensures t < CeilDiv(CeilDiv(n, npl), npl)
    ensures y + 1 <= Min(npl, CeilDiv(n, npl) - t * npl)
  {
    var lines := CeilDiv(n, npl);
    var line := t * npl + y;
    Arith.DivUnique(k, npl, line, x);
    Arith.DivMono(k, n - 1, npl);
    assert (n - 1) / npl == lines - 1;
    assert line <= lines - 1;
    Arith.DivUnique(line, npl, t, y);
    Arith.MulNonneg(t, npl);
    Arith.DivMono(line, lines - 1, npl);
    assert t <= (lines - 1) / npl == CeilDiv(lines, npl) - 1;
  }

  /** Equal texture and equal slot rectangle imply equal index: no two node
      indices >= 1 share a slot. */
  lemma SlotsDistinct(arr: TextureArray, a: int, b: int)
    requires Valid(arr) && a >= 1 && b >= 1
    ensures NodeTextureIdx(arr, a) == NodeTextureIdx(arr, b) && NodeTextureRec(arr, a) == NodeTextureRec(arr, b) ==> a == b
  {
    SlotDigits(arr, a);
    SlotDigits(arr, b);
    var size := arr.textureSize;
    if NodeTextureIdx(arr, a) == NodeTextureIdx(arr, b) && NodeTextureRec(arr, a) == NodeTextureRec(arr, b) {
      Arith.MulCancel(SlotColumn(arr, a), SlotColumn(arr, b), size);
      Arith.MulCancel(SlotLine(arr, a), SlotLine(arr, b), size);
    }
  }

  /** Indices are 1-based: index 1 is the top-left slot of texture 0, while
      index 0 lands in texture 0 one tile to the left of its edge. */
  lemma FirstSlotIsOrigin(arr: TextureArray)
    requires Valid(arr) && arr.nodesPerTextureLine >= 2
    ensures NodeTextureIdx(arr, 1) == 0
    ensures NodeTextureRec(arr, 1).x == 0.0 && NodeTextureRec(arr, 1).y == 0.0
    ensures NodeTextureIdx(arr, 0) == 0
    ensures NodeTextureRec(arr, 0).x == -(arr.textureSize as real)
  {
    var npl := arr.nodesPerTextureLine;
    Arith.MulMono(2, npl, npl);
    Arith.DivUnique(0, npl * npl, 0, 0);
    Arith.DivUnique(0, npl, 0, 0);
    Arith.DivUnique(1, npl * npl, 0, 1);
    Arith.DivUnique(1, npl, 0, 1);
    assert Rem(-1, npl * npl) == -1;
  }
}

=== FILE: tree_navigator.dfy ===
/** Keyboard navigation over the tree: Down goes to the left-most visible
    child, Up to the parent, Left and Right to the nearest sibling on that
    side, comparing X coordinates. */
module TreeNavigator {
  import opened Components
  import opened Wrappers

  /** `math.MaxFloat64`, the scans' starting sentinel, as an exact value. */
  const MaxFloat64: real := 179769313486231570814527423731704356798070567525844996598917476803157260780028538760589558632766878171540458953514382464234321326889464182768467546703537516986049910576551282076245490090389328944075868508455133942304583236903222948165808559332123348274797826204144723168738177180919299881250404026184124858368.0

  datatype NavMode = KeyboardNav | OtherNav

  datatype KeysPressed = KeysPressed(down: bool, up: bool, left: bool, right: bool)

  /** The selection resource: the selected entity and the outcome of its
      `HasSelected` test (whose definition is not part of this model). */
  datatype NodeSelection = NodeSelection(selected: Entity, hasSelected: bool)

  /** A scan candidate: below the sentinel and, when a bound is given,
      strictly above it. */
  predicate Eligible(key: real, lower: Option<real>)
  {
    key < MaxFloat64 && (lower.None? || key > lower.value)
  }

  /** The scan loop: the index of the first eligible key with the smallest
      value, replacing the best only on a strictly smaller key. */
  function ArgMin(keys: seq<real>, lower: Option<real>): (r: Option<nat>)
    ensures r.Some? ==> r.value < |keys| && Eligible(keys[r.value], lower)
  {
    if keys == [] then None
    else
      var n := |keys| - 1;
      var prev := ArgMin(keys[..n], lower);
      if Eligible(keys[n], lower) && (prev.None? || keys[n] < keys[prev.value]) then Some(n) else prev
  }

  /** The scan finds nothing exactly when no key is eligible; otherwise it
      finds an eligible key no larger than any other eligible key, and
      strictly smaller than every eligible key before it. */
  lemma {:induction false} ArgMinIsFirstMinimum(keys: seq<real>, lower: Option<real>)
    ensures ArgMin(keys, lower).None? <==> forall j :: 0 <= j < |keys| ==> !Eligible(keys[j], lower)
    ensures var r := ArgMin(keys, lower);
      r.Some? ==>
        (forall j :: 0 <= j < |keys| && Eligible(keys[j], lower) ==> keys[r.value] <= keys[j]) &&
        (forall j :: 0 <= j < r.value && Eligible(keys[j], lower) ==> keys[r.value] < keys[j])
  {
    if keys != [] {
      var n := |keys| - 1;
      var init := keys[..n];
      ArgMinIsFirstMinimum(init, lower);
      assert forall j :: 0 <= j < n ==> init[j] == keys[j];
    }
  }

  function Keys(es: seq<Entity>, x: map<Entity, real>, negate: bool): (ks: seq<real>)
    requires forall e :: e in es ==> e in x
    ensures |ks| == |es|
    ensures forall j :: 0 <= j < |es| ==> ks[j] == if negate then -x[es[j]] else x[es[j]]
  {
    seq(|es|, j requires 0 <= j < |es| => if negate then -x[es[j]] else x[es[j]])
  }

  function Pick(es: seq<Entity>, r: Option<nat>): Entity
    requires r.Some? ==> r.value < |es|
  {
    if r.Some? then es[r.value] else ZeroEntity
  }

  /** Down: the visible child with the smallest X. */
  function DownCandidate(children: seq<Entity>, x: map<Entity, real>): Option<nat>
    requires forall e :: e in children ==> e in x
  {
    ArgMin(Keys(children, x, false), None)
  }

  /** Left: the sibling with the largest X below the selected node's, found
      as the smallest negated X above the negated bound. */
  function LeftCandidate(siblings: seq<Entity>, x: map<Entity, real>, me: real): Option<nat>
    requires forall e :: e in siblings ==> e in x
  {
    ArgMin(Keys(siblings, x, true), Some(-me))
  }

  /** Right: the sibling with the smallest X above the selected node's. */
  function RightCandidate(siblings: seq<Entity>, x: map<Entity, real>, me: real): Option<nat>
    requires forall e :: e in siblings ==> e in x
  {
    ArgMin(Keys(siblings, x, false), Some(me))
  }

  /** `Update`: the new selection. `children` and `siblings` are the visible
      nodes the two relation queries return, in query order; `parent` is the
      selected node's parent, the zero entity for a root. */
  function Navigate(mode: NavMode, sel: Option<NodeSelection>, keys: KeysPressed,
                    children: seq<Entity>, siblings: seq<Entity>, parent: Entity, x: map<Entity, real>): (r: Option<NodeSelection>)
    requires forall e :: e in children || e in siblings ==> e in x
    requires sel.Some? ==> sel.value.selected in x
    ensures mode != KeyboardNav || sel.None? || !sel.value.hasSelected ==> r == sel
    ensures r.Some? <==> sel.Some?
    ensures r.Some? ==> r.value.hasSelected == sel.value.hasSelected
    ensures r.Some? && r.value.selected != sel.value.selected ==>
      r.value.selected != ZeroEntity && (r.value.selected in children || r.value.selected == parent || r.value.selected in siblings)
  {
    if mode != KeyboardNav || sel.None? || !sel.value.hasSelected then sel
    else
      var me := x[sel.value.selected];
      var best := if keys.down then Pick(children, DownCandidate(children, x)) else ZeroEntity;
      var best := if keys.up then parent else best;
      var l := LeftCandidate(siblings, x, me);
      var best := if keys.left && l.Some? then siblings[l.value] else best;
      var rt := RightCandidate(siblings, x, me);
      var best := if keys.right && rt.Some? then siblings[rt.value] else best;
      if best != ZeroEntity then Some(sel.value.(selected := best)) else sel
  }

  /** Right has the last word: when Right is pressed and a sibling lies to
      the right, that nearest sibling is selected whatever else is pressed. */
  lemma RightWins(mode: NavMode, sel: Option<NodeSelection>, keys: KeysPressed,
                  children: seq<Entity>, siblings: seq<Entity>, parent: Entity, x: map<Entity, real>, k: nat)
    requires forall e :: e in children || e in siblings ==> e in x
    requires sel.Some? && sel.value.selected in x && sel.value.hasSelected && mode == KeyboardNav
    requires keys.right && RightCandidate(siblings, x, x[sel.value.selected]) == Some(k)
    requires siblings[k] != ZeroEntity
    ensures Navigate(mode, sel, keys, children, siblings, parent, x) == Some(sel.value.(selected := siblings[k]))
    ensures forall j :: 0 <= j < |siblings| && x[siblings[j]] > x[sel.value.selected] && x[siblings[j]] < MaxFloat64 ==>
      x[siblings[k]] <= x[siblings[j]]
  {
    ArgMinIsFirstMinimum(Keys(siblings, x, false), Some(x[sel.value.selected]));
  }

  /** Left picks the nearest sibling to the left. */
  lemma LeftIsNearest(siblings: seq<Entity>, x: map<Entity, real>, me: real)
    requires forall e :: e in siblings ==> e in x
    ensures var l := LeftCandidate(siblings, x, me);
      (l.None? <==> forall j :: 0 <= j < |siblings| ==> !(x[siblings[j]] < me && x[siblings[j]] > -MaxFloat64)) &&
      (l.Some? ==>
        (l.value < |siblings| && x[siblings[l.value]] < me &&
         forall j :: 0 <= j < |siblings| && x[siblings[j]] < me && x[siblings[j]] > -MaxFloat64 ==>
           x[siblings[j]] <= x[siblings[l.value]]))
  {
    ArgMinIsFirstMinimum(Keys(siblings, x, true), Some(-me));
  }

  /** Down alone picks the first child with the smallest X; Up alone picks
      the parent, or keeps the selection for a root. */
  lemma DownAndUp(sel: NodeSelection, children: seq<Entity>, siblings: seq<Entity>, parent: Entity, x: map<Entity, real>)
    requires forall e :: e in children || e in siblings ==> e in x
    requires sel.selected in x && sel.hasSelected
    ensures var r := Navigate(KeyboardNav, Some(sel), KeysPressed(true, false, false, false), children, siblings, parent, x);
      var d := DownCandidate(children, x);
      d.Some? && children[d.value] != ZeroEntity ==>
        r == Some(sel.(selected := children[d.value])) &&
        forall j :: 0 <= j < |children| && x[children[j]] < MaxFloat64 ==> x[children[d.value]] <= x[children[j]]
    ensures Navigate(KeyboardNav, Some(sel), KeysPressed(false, true, false, false), children, siblings, parent, x) ==
      Some(if parent == ZeroEntity then sel else sel.(selected := parent))
  {
    ArgMinIsFirstMinimum(Keys(children, x, false), None);
  }
}

=== FILE: wrappers.dfy ===
/** Failure-carrying results. A Go `log.Fatal` or a runtime panic in the
    modelled code becomes a `Failure`, so callers see the error path instead
    of a precondition that forbids it. */
module Wrappers {

  datatype Option<+T> = None | Some(value: T)

  datatype Result<+R, +E> = Success(value: R) | Failure(error: E) {
    predicate IsFailure() {
      Failure?
    }

    function PropagateFailure<U>(): Result<U, E>
      requires Failure?
    {
      Failure(error)
    }

    function Extract(): R
      requires Success?
    {
      value
    }
  }
}
